=== FILE: README.md ===
# NeoMutt's file browser, menus, completion and attachment menus in Dafny

This project models the interactive core of NeoMutt's selection screens:

- the generic **menu**: its record, redraw flags, dialog rows, cursor, and
  the menu function table;
- **tagging**: the tag, tag-prefix and conditional tag-prefix operations and
  the per-menu tag callback;
- the **window dispatch** of a function. A function is looked for first in
  the focused window's subtree, then in its ancestors' subtrees. The
  global functions come from their own table;
- **filename completion** (`mutt_complete`);
- the **file browser**:
  - reading a directory into entries;
  - the tracking of the directory the user came from;
  - the start of a browser run;
  - the entry format;
  - every browser function: descend/ascend, change directory, file mask,
    sort, the `$folder` toggle, the IMAP mailbox operations, exit, and the
    dispatcher;
- the **attachment lists**:
  - the compose screen's size estimate and tag callback;
  - the attachment menu's functions: fold/unfold, delete/undelete, exit,
    the hand-over functions, and the dispatcher.

Everything is pure functions over immutable datatypes. A few functions are
methods with loops. Anything the code consults outside itself is a
parameter:

- the file system (a `stat`/`lstat` table and directory listings);
- the mask matcher, `realpath` and path expansion;
- the mailbox-type probe and the IMAP client;
- the prompts' answers.

Modules follow the source files:

| module | models |
|---|---|
| `Common` | option and return-value types, string and path helpers, decimal parsing |
| `Posix` | file modes and `stat` results |
| `Opcodes` | the operation numbers |
| `Gui` | `gui/global.c` |
| `Menus` | `menu/lib.h`, `menu/menu.c` |
| `MenuFunctions` | `menu/functions.c` |
| `Tagging` | `menu/tagging.c` |
| `Complete` | `complete.c` |
| `Browser`, `BrowserFormat`, `BrowserSession` | `browser/browser.c` |
| `BrowserFunctions` | `browser/functions.c` |
| `Attachments` | `compose/attach.c` and the attachment records |
| `AttachFunctions` | `attach/functions.c` |

## Model

| member | source | states |
|---|---|---|
| Common.LastIndexOf | complete.c:138-156 | `strrchr`: the position of the last occurrence of the character, with none after it; None only when it does not occur |
| Common.AfterLastSlash | browser/browser.c:950-951 | the text after the last '/' is a suffix without '/', preceded by the '/' when there is one |
| Common.ConcatPath | browser/browser.c:645 | joining a directory and a name keeps both; exactly one '/' is put between them when the directory does not end in one |
| Common.ConcatPathBasename | browser/browser.c:645-667 | the last component of a joined path is the name that was joined |
| Common.NatToString | browser/browser.c:221-222 | printing a number gives a non-empty digit string whose value is the number |
| Common.ParseInt | menu/functions.c:126 | as `strtol` does, leading white space is skipped; a parsed number fits a C `int` and is what the text writes: white space, an optional sign, leading zeros, then the digits of its value |
| Common.SkipSpace | menu/functions.c:126 | the white space `strtol` skips is dropped: what is left is a suffix of the text that does not start with white space |
| Common.ParseIntReadsWritten | menu/functions.c:126 | every text that writes an `int` that way (leading spaces, a sign, leading zeros, the digits) parses to that number |
| Common.IntToStringRoundTrip | menu/functions.c:126 | parsing the printed form of any `int` gives the number back |
| Common.CommonPrefixFrom | complete.c:194-202 | the character-by-character comparison stops at the first difference or at the end of either string |
| Common.CommonPrefix | complete.c:194-202 | the truncated file part is a common prefix of both names, and it cannot be extended |
| Common.CommonPrefixLongest | complete.c:194-202 | every common prefix of two names is a prefix of the computed one: it is the longest |
| Common.Lookup | menu/functions.c:279-287 | a table search finds a row exactly when the operation is in the table, and returns that row's handler |
| Posix.StatOf | browser/functions.c:316-348 | `stat` succeeds exactly for the paths in the table; permission errors are told apart from missing files |
| Gui.FirstHandledAppend | gui/global.c:122-131 | searching a concatenation of windows is searching the first part and then, only if it did not handle the operation, the second |
| Gui.TraverseTreeInOrder | gui/global.c:109-134 | the tree walk returns what the first window to handle the operation returns, in pre-order, skipping hidden subtrees and the ignored child |
| Gui.TraverseTree | gui/global.c:109-134 | a hidden window handles nothing; a visible window that handles the operation itself answers before its children |
| Gui.TraverseChildrenInOrder | gui/global.c:122-133 | the walk over the children is the in-order search of their pre-order lists |
| Gui.Chain | gui/global.c:153-161 | the climb visits the starting window, then each ancestor up to the root, each time ignoring the child it came from |
| Gui.WindowDispatchFunction | gui/global.c:148-164 | dispatch from a window that is not visible is Unknown; a visible window that handles the operation itself gets to |
| Gui.VisibleAtEnd | gui/global.c:150-151 | a window that is visible along its whole path is itself visible |
| Gui.ClimbChainInOrder | gui/global.c:156-163 | the climb returns what the first window handling the operation returns, over the subtrees met while climbing |
| Gui.ClimbChain | gui/global.c:156-163 | what the climb returns comes from one of the subtree searches along the chain, and the first search that handles the operation wins |
| Gui.WindowDispatchInOrder | gui/global.c:148-164 | dispatching from a visible window is the first-handler search over the windows the climb visits |
| Gui.GlobalFunctionDispatcher | gui/global.c:61-95 | exactly the version and what-key operations are handled, and both report success |
| Menus.MenuNew | menu/menu.c:170-187 | a new menu has the given type and page length, a full redraw queued, the generic search and default colour, and nothing else set |
| Menus.AddDialogRow | menu/menu.c:97-101 | the row is stored at index `max`, `max` grows by one, and every other row is kept |
| Menus.AddDialogRowsAppend | menu/menu.c:97-101 | adding rows one at a time appends them, in order, to a dense dialog |
| Menus.GetIndex | menu/menu.c:194-200 | without a menu the index is -1, else the cursor |
| Menus.SetIndex | menu/menu.c:208-211 | the cursor becomes the index and nothing else changes |
| Menus.QueueRedraw | menu/menu.c:218-225 | the queued flags become exactly the old flags together with the new ones; without a menu nothing happens |
| Menus.QueueRedrawIdempotent | menu/menu.c:218-225 | queueing the same flags twice is queueing them once |
| Menus.MenuFree | menu/menu.c:144-161 | the private-data destructor runs exactly when both it and the data are present, and its contract (menu, slot and data present) then holds |
| Menus.SearchLine | menu/lib.h:110-118 | a line search returns 0 exactly on a match and never a negative number |
| Menus.GenericSearchLine | menu/menu.c:66-72 | the generic search matches the pattern against the rendered line and reports 0 exactly on a match |
| Menus.FollowFocus | menu/menu.c:119-121 | following the focus ends at a window without a focused child |
| Menus.GetCurrentType | menu/menu.c:117-138 | without a dialog the type is the index; a custom window in a pager is the pager; a window that is not a menu, or holds no menu, is generic; otherwise it is the menu's type |
| Menus.CurrentTypeOfFocusedMenu | menu/menu.c:130-137 | a dialog whose focus is a menu window reports that menu's type |
| MenuFunctions.FindChar | menu/functions.c:63 | `strchr` finds the first occurrence of the key; the terminating NUL is always found at the end |
| MenuFunctions.DialogDoKey | menu/functions.c:45-76 | an error key gives (0, -1); a key listed in the menu's keys gives (0, `OP_MAX` + position + 1), and only such keys do; any other key gives -1 and keeps the operation |
| MenuFunctions.DialogTranslateOp | menu/functions.c:83-102 | exactly the seven entry-movement operations change, each to its line or page counterpart |
| MenuFunctions.DialogTranslateIdempotent | menu/functions.c:83-102 | translating twice is translating once |
| MenuFunctions.MenuJump | menu/functions.c:110-137 | an empty menu does not move; any answer that parses to n with 1 ≤ n ≤ max puts the cursor on line n-1; the cursor moves only that way, and an answer that is not a line number in range is reported |
| MenuFunctions.JumpToLineNumber | menu/functions.c:125-129 | typing line number k+1 puts the cursor on line k, for every line |
| MenuFunctions.JumpToWrittenNumber | menu/functions.c:125-129 | every way of writing k+1 (leading spaces, a sign, leading zeros) jumps to line k |
| MenuFunctions.MenuMovement | menu/functions.c:144-215 | the movement handler succeeds exactly on the sixteen movement operations and is Unknown otherwise |
| MenuFunctions.OpJump | menu/functions.c:220-227 | jumping always succeeds; a dialog is left alone, and otherwise the menu jumps |
| MenuFunctions.MenuFunctionDispatcher | menu/functions.c:263-296 | no menu means Unknown; a dialog key is returned as the operation; otherwise the (translated) operation is Unknown exactly when the table lacks it, and only jumping changes the menu |
| MenuFunctions.MenuTableCovers | menu/functions.c:234-255 | the table has a row for exactly the movement operations and the jump |
| MenuFunctions.DialogMovesByLines | menu/functions.c:274-276 | in a dialog, moving to the next entry is handled as moving to the next line |
| Tagging.TagRow | menu/lib.h:120-130 | the tag callback changes only the selected row, honours the set, clear or toggle action, and returns the net change in tagged rows |
| Tagging.CountTaggedSamePrefix | menu/tagging.c:94-95 | the tagged count over the first n rows depends only on those rows' tags |
| Tagging.CountTaggedOneChange | menu/tagging.c:101-102 | changing one row's tag changes the count by exactly that row's change |
| Tagging.SetPrefix | menu/tagging.c:40-57 | `$auto_tag` with something tagged turns the tag prefix on; nothing turns it off |
| Tagging.UntagAll | menu/tagging.c:92-98 | the untag pass clears the tag of every taggable row below `max`, keeps the rest, and its summed callback results are the change in the tagged count |
| Tagging.OpTag | menu/tagging.c:78-130 | without a tag callback or in a dialog: error; with a prefix and no `$auto_tag`: untag all; with entries: toggle the current one and move on only when it changed, `$resolve` is set and there is a next line; without entries: error. The prefix ends, and a correct tagged count stays correct |
| Tagging.OpTagPrefix | menu/tagging.c:138-156 | the prefix toggles off (unless `$auto_tag` keeps it on), or on when something is tagged |
| Tagging.OpTagPrefixTwice | menu/tagging.c:138-156 | with something tagged and no `$auto_tag`, the prefix operation twice restores the menu |
| Tagging.OpTagPrefixCond | menu/tagging.c:164-182 | the conditional prefix changes only the prefix flag |
| Tagging.PrefixCondAgrees | menu/tagging.c:138-182 | the conditional and the plain prefix operations leave the same flag in every menu |
| Tagging.MenuTaggingDispatcher | menu/tagging.c:189-244 | only tagging changes rows; the end-of-condition, abort and other operations end the prefix (unless `$auto_tag` renews it); a timeout only renews it; the two prefix operations agree |
| Complete.SplitBuffer | complete.c:113-163 | the typed text splits into a directory part (kept with its shortcut character) and a file part without '/' that ends the text; a shortcut's expanded directory starts with `$folder` (or `$spool_file` for '!') |
| Complete.Join | complete.c:229-242 | the completed text starts with the directory part and ends with the file part |
| Complete.SplitJoinRoundTrip | complete.c:113-242 | joining the parts of a local path (not a '!' shortcut) gives the typed text back |
| Complete.FirstNonDot | complete.c:174-186 | the seed for an empty file part is the first entry other than "." and "..", or there is none |
| Complete.CompleteFilepart | complete.c:172-226 | when some entry matched, the completed file part starts with what was typed; when none did, the file part is what was typed |
| Complete.TypedScan | complete.c:188-226 | with something typed, the scan either extends the typed text or leaves it as typed |
| Complete.StrnEqualIsPrefix | complete.c:190 | comparing the first len characters against the growing file part is testing whether the entry starts with the typed text |
| Complete.SeededScan | complete.c:188-203 | once seeded, the scan keeps a prefix of every matching entry, extending the typed text and only ever shrinking |
| Complete.SeededScanLongest | complete.c:192-203 | every common prefix of the seed and the matching entries survives the scan |
| Complete.UnseededScanNone | complete.c:188-226 | with no matching entry the file part stays as typed and completion fails |
| Complete.UnseededScanFirst | complete.c:204-224 | the first matching entry seeds the scan (with '/' after a directory) |
| Complete.CompleteFilepartFinds | complete.c:172-226 | completion succeeds exactly when some entry matches (or, for an empty file part, when some entry is not a dot entry), and then extends the typed text; otherwise the text is unchanged |
| Complete.CompletionIsLongestCommonPrefix | complete.c:172-226 | with something typed, the completed file part is a prefix of the first matching name's seed and of every later matching name, and every common prefix of those is a prefix of it |
| Complete.EmptyCompletionIsLongestCommonPrefix | complete.c:174-186 | with nothing typed, completion succeeds once an entry other than "." and ".." exists; the file part is a prefix of the first such entry and of every entry after it, dots included, and every common prefix of those is a prefix of it |
| Complete.CompleteWith | complete.c:165-242 | a successful completion keeps the directory part in front |
| Complete.MuttComplete | complete.c:56-251 | rc is 0 or -1; on success the result extends the typed file part and keeps the directory part; an unreadable directory leaves the text unchanged with -1 |
| Complete.MuttCompleteAsWritten | complete.c:56-251 | as written (any mode with the directory bit counts as a directory): an IMAP path goes to the IMAP completer, rc is 0 or -1, a success joins the directory part to the completed file part, and an unreadable directory leaves the text unchanged with -1 |
| Complete.CompletionExtendsTypedText | complete.c:188-242 | a successful completion is the directory part joined to a file part that starts with what was typed |
| Complete.BlockDeviceCompletesAsDirectory | complete.c:221-222 | with /dev/sda a block device, the code as written completes "/dev/sd" to "/dev/sda/"; the corrected test gives "/dev/sda" |
| Browser.AddFolder | browser/browser.c:485-531 | a hidden mailbox is dropped when there is no menu or in the mailbox list; otherwise one entry is appended, local exactly when `stat` data is given, with the mailbox's counts and the name as description by default |
| Browser.InitState | browser/browser.c:538-547 | a fresh list is empty and not IMAP; the mailbox-list flag is kept |
| Browser.WalkUp | browser/browser.c:593-608 | a directory that does not exist is cut back at its last '/' (not the leading one) until one exists or none is left |
| Browser.FindMailbox | browser/browser.c:655-660 | the mailbox found has the entry's path; none is found only when no mailbox has it |
| Browser.EntryMailbox | browser/browser.c:655-667 | an entry is linked to a mailbox exactly when one has its path |
| Browser.EntryStat | browser/browser.c:649-653 | directories and links are listed with size 0; other files keep their size |
| Browser.ScanOne | browser/browser.c:631-666 | a name gets one entry, carrying that name, exactly when it is accepted (not ".", starting with the prefix, matching the mask, a directory, link or regular file by `lstat`) and is not a hidden mailbox; otherwise the list is unchanged |
| Browser.ListedMembers | browser/browser.c:629-667 | a name is listed exactly when the directory holds it, it is accepted, and it is not a hidden mailbox |
| Browser.ScanNames | browser/browser.c:629-668 | the scan keeps the old entries in front and every entry it adds is an accepted entry of the directory with its `lstat` data and mailbox link |
| Browser.ScanNamesLists | browser/browser.c:629-668 | the scan adds exactly one entry for each listed name, in listing order, and nothing else |
| Browser.ScanNamesComplete | browser/browser.c:629-668 | every accepted name that is not a hidden mailbox gets an entry |
| Browser.ExamineDirectory | browser/browser.c:559-677 | rc is 0 exactly when the (walked-up) directory exists, is a directory and can be listed; a failure leaves the list alone; on success every entry is an accepted name of that directory, and every accepted name has an entry |
| Browser.ExamineDirectoryLists | browser/browser.c:624-668 | on success the entries are exactly the listed names of the directory read, one each, in listing order |
| Browser.HighlightDefault | browser/browser.c:846-863 | the cursor goes to the second entry exactly when the first is the way up and there are at least two; the view scrolls to the top |
| Browser.FindName | browser/browser.c:956-966 | the first entry with the name, or none has it |
| Browser.ClampCursor | browser/browser.c:876-886 | after relisting, the cursor is on an entry (when there is one), unchanged if it still was; the top is kept or reset |
| Browser.PlaceCursor | browser/browser.c:937-973 | when LastDir is a prefix of LastDirBackup and an entry has the remembered name, the cursor goes there; otherwise to the default |
| Browser.InitMenu | browser/browser.c:872-976 | the menu counts the entries, clears the tagged count, queues a full redraw and places the cursor as tracking says |
| Browser.TrackingReturnsToChild | browser/browser.c:933-969 | coming back up from subdirectory `child`, the cursor lands on `child`'s entry |
| Browser.FileTag | browser/browser.c:981-996 | directories (and links to them) cannot be tagged; otherwise only the selected entry's tag changes, as the action says, and the net change is returned |
| Browser.Rows | browser/browser.c:985-986 | as rows for the tagging code, an entry is taggable exactly when it is not directory-like |
| Browser.FileTagIsTagRow | browser/browser.c:981-996 | the browser's tag callback is the generic tag callback on those rows |
| Browser.LocalParent | browser/browser.c:1069-1072 | the parent of a local path is a proper prefix that ends before a '/', or the root |
| Browser.LocalParentOfChild | browser/browser.c:1063-1073 | the parent of a directory joined with a plain name is that directory |
| Browser.ParentPath | browser/browser.c:1069-1072 | the parent of an IMAP path is the IMAP client's parent, of a notmuch path `$folder`, and of a local path a proper prefix ending before a '/', or the root |
| Browser.SelectDir | browser/browser.c:1063-1073 | remembering a path stores it as LastDirBackup and its parent as LastDir |
| Browser.SelectDirTracks | browser/browser.c:1063-1073 | after remembering a path inside a directory, the browser lists that directory and tracking points at the path's name |
| Browser.LastSlashAfterFirst | browser/browser.c:1143-1148 | the backwards search finds the last '/' after the first character, or 0 when there is none |
| Browser.SplitFile | browser/browser.c:1143-1175 | the prefix is the end of the path and holds no '/'; for an absolute path the directory is the root or the part before a '/'; a relative path's directory starts with the working directory |
| Browser.SplitFileOfJoin | browser/browser.c:1143-1175 | an absolute directory and a '/'-free name joined by '/' split back into that directory and that name |
| Browser.SplitFileRoundTrip | browser/browser.c:1143-1175 | the starting directory and the file-name prefix split off a given path join back to the path (relative paths from the working directory) |
| Browser.StripTrailingSlashes | browser/browser.c:1268-1273 | every trailing '/' is removed and nothing else |
| BrowserFormat.TypeMark | browser/browser.c:267-284 | a local entry is marked '@' when a link, '/' when a directory, '*' when executable by the user, and otherwise (and always for remote entries) gets no mark |
| BrowserFormat.Flag | browser/browser.c:292-303 | a permission column shows its letter exactly when the bit is set |
| BrowserFormat.ExecFlag | browser/browser.c:294-306 | an execute column shows the special letter when its special bit is set, else 'x' exactly when executable |
| BrowserFormat.TypeChar | browser/browser.c:291 | the type column is 'd' for directories, 'l' for links and '-' otherwise |
| BrowserFormat.Permissions | browser/browser.c:285-310 | the permission string has ten columns, each showing its bit, with setuid, setgid and sticky taking the execute columns |
| BrowserFormat.PermissionsRoundTrip | browser/browser.c:285-310 | without the special bits, the nine permission bits can be read back from the string |
| BrowserFormat.NumberShown | browser/browser.c:221-223 | the %C column shows the entry's number counted from one |
| BrowserFormat.NameShown | browser/browser.c:267-284 | the %f column is the name followed by at most one mark; a '/' appears only on local directories |
| BrowserFormat.MarksShown | browser/browser.c:394-432 | the %t column shows '*' exactly when tagged and %N shows 'N' exactly when the mailbox has new mail |
| BrowserSession.Destroy | browser/functions.c:66-79 | destroying the state empties the entry list and keeps everything else |
| BrowserSession.Refresh | browser/browser.c:872-886 | after relisting, the menu counts the entries, its cursor is on one, and nothing is tagged |
| BrowserSession.ImapRelist | browser/functions.c:286-291 | an IMAP listing replaces the entries and marks the state as IMAP |
| BrowserSession.FolderModeDirs | browser/browser.c:1186-1254 | without tracking (sort not by description, alpha or unsorted) LastDirBackup is cleared; with no current folder LastDir is kept; a moved current folder is remembered |
| BrowserSession.StartSession | browser/browser.c:1126-1273 | before the first read: a local path given is split into LastDir and a prefix to drop later; an IMAP path is listed, and LastDir becomes its folder only when the listing succeeds; with no path LastDir is the working directory, or in folder mode the FolderModeDirs choice, listed when it is IMAP and otherwise stripped of trailing slashes (the working directory when nothing is left) |
| BrowserSession.StartBrowser | browser/browser.c:1083-1320 | a run starts with a valid menu, no chosen file, no swapped directory, the requested flags and no result list; the mailbox-list mode shows the mailbox list and an IMAP start its listing; otherwise the start directory is read, the run bails out exactly when that read fails (leaving LastDir where the walk up ended), and a started run holds that read's list, directory and prefix |
| BrowserSession.StartInDirectory | browser/browser.c:1143-1175 | (with the read at browser/browser.c:1311-1318) started on `d/n` for a readable local directory `d`, the run starts in `d` with prefix `n` and lists exactly the names of `d` the scan accepts under that prefix |
| BrowserFunctions.OpNewFile | browser/functions.c:84-100 | an answered prompt becomes the chosen file and ends the browser; a cancelled one does nothing |
| BrowserFunctions.OpTell | browser/functions.c:129-137 | telling the name fails exactly on an empty list |
| BrowserFunctions.OpViewFile | browser/functions.c:155-197 | an empty list is an error; a selectable IMAP folder is chosen and ends the browser, and only that does; anything else is an error that at most redraws |
| BrowserFunctions.Ascend | browser/functions.c:600-627 | ".." from a path ending in ".." adds "/.."; otherwise the path is cut at a '/' to a proper prefix, or becomes the root, or gets "/.." |
| BrowserFunctions.AscendAfterDescend | browser/functions.c:600-627 | going into a plain name and back up with ".." returns to the directory |
| BrowserFunctions.DescendTarget | browser/functions.c:597-654 | ".." leads to the ascended LastDir; a mailbox-list entry to its expanded name; an IMAP entry to its name, perhaps with the delimiter; a local entry to LastDir joined with the name, whose last component is that name |
| BrowserFunctions.DescendThenAscend | browser/functions.c:596-697 | entering a readable subdirectory and then ".." returns LastDir to where it was |
| BrowserFunctions.Enter | browser/functions.c:596-697 | entering saves the old LastDir, leaves the mailbox list and drops a pending prefix; on IMAP it lists the target; locally it reads the target and resolves it with `realpath`; when that read fails it reads the old directory again and resolves that; when both fail LastDir becomes the home directory; it always ends the browser |
| BrowserFunctions.Prepared | browser/functions.c:597-662 | before reading, LastDir is the target, the list is empty, the mailbox-list view is off and the prefix is dropped when asked for |
| BrowserFunctions.Resolved | browser/functions.c:689-697 | after a move LastDir is resolved with `realpath` and the menu rebuilt; when that fails the session is left as it is |
| BrowserFunctions.ChosenPath | browser/functions.c:706-718 | a chosen mailbox-list entry is its expanded name, an IMAP entry its name, and a local entry LastDir joined with the name, whose last component is that name |
| BrowserFunctions.OpGenericSelectEntry | browser/functions.c:553-721 | an empty list is an error; descending into a non-directory is an error and changes nothing; a directory, a link to one or an IMAP folder with subfolders is entered (Enter) when descending is asked for, when the probe of its path gives an error or an unknown type, or when it has subfolders, and is otherwise chosen like a file; a file is chosen (joined to LastDir, or expanded, or as the IMAP name) and the browser exits |
| BrowserFunctions.DescendSelectsSubdirectory | browser/functions.c:559-596 | (with the re-read at browser/functions.c:640-667) descending into a readable local subdirectory makes it LastDir, remembers the old directory, and lists exactly the names of its listing the scan accepts |
| BrowserFunctions.OpChangeDirectory | browser/functions.c:244-354 | a cancelled empty prompt does nothing; otherwise the prompt's answer, the parent of LastDir (by mailbox kind) or LastDir itself is the path the change goes to; the result is NoAction, Error or Done; unless the browser ends, the session stays well formed |
| BrowserFunctions.Slashed | browser/functions.c:252-260 | outside IMAP a '/' is added to LastDir when it has none; otherwise LastDir is used as it is |
| BrowserFunctions.Chdir | browser/functions.c:276-351 | an empty path is an error; an IMAP path becomes LastDir with its listing; a local path is taken from LastDir, resolved with `realpath` (the browser ends when that fails) and read by ChangeTo |
| BrowserFunctions.FromLastDir | browser/functions.c:298-306 | an absolute path stays; a relative one is joined to LastDir |
| BrowserFunctions.ChangeDirectoryRelative | browser/functions.c:298-331 | a relative answer is looked up from LastDir: a `realpath` failure there ends the browser, and a readable resolved directory becomes LastDir |
| BrowserFunctions.ChangeTo | browser/functions.c:316-348 | a path that is not an existing directory is an error that changes nothing; a readable one becomes LastDir with its listing |
| BrowserFunctions.ReadableExamined | browser/browser.c:593-624 | a directory that exists and can be listed is read as itself |
| BrowserFunctions.ParentOfChildDirectory | browser/functions.c:272-331 | going to the parent from `d/n` lands in `d` when `d` can be read and is its own real path |
| BrowserFunctions.OpEnterMask | browser/functions.c:439-502 | a cancelled prompt does nothing; an empty mask means "."; an invalid mask ends the browser; a valid one is stored and LastDir is listed again under it (on the IMAP server, or read from disk, the browser ending when that read fails); the browser ends exactly when the new list is empty |
| BrowserFunctions.MaskReread | browser/functions.c:470-501 | with the new mask set, LastDir is listed on the IMAP server or read from disk (ending the browser when the read fails, LastDir where the walk up ended); the list is that listing, and the browser ends exactly when it is empty |
| BrowserFunctions.MaskRelists | browser/functions.c:470-501 | after a valid mask on a readable local directory, the list is exactly the names of its listing the new mask lets through, and the browser ends exactly when there are none |
| BrowserFunctions.TaggedPaths | browser/functions.c:519-529 | the result holds the joined, expanded path of every tagged entry and nothing else |
| BrowserFunctions.TaggedPathsAppend | browser/functions.c:519-529 | the tagged paths come in list order, one per tagged entry |
| BrowserFunctions.OpExit | browser/functions.c:507-544 | leaving always ends; with several files allowed it hands back the tagged paths, or the chosen file when nothing is tagged |
| BrowserFunctions.SortChoiceBijective | browser/functions.c:814-856 | the seven menu choices name the seven sort keys one to one |
| BrowserFunctions.SortChoice | browser/functions.c:814-856 | each menu choice gives the key whose letter is at that place in "dazecwn" |
| BrowserFunctions.OpSort | browser/functions.c:808-867 | aborting does nothing; otherwise `$sort_browser` becomes the chosen key (reversed for the reverse sort), the view goes to the top and a full redraw is queued |
| BrowserFunctions.GotoSwap | browser/functions.c:994-1020 | the `$folder` toggle goes to `$folder` remembering LastDir, or back to the remembered directory, and LastDirBackup keeps the directory left |
| BrowserFunctions.GotoSwapTwice | browser/functions.c:994-1020 | toggling twice returns to the starting directory |
| BrowserFunctions.GotoSwapEmptyLastDir | browser/functions.c:1002-1017 | from an empty LastDir the toggle cannot come back, since an empty slot means "not swapped" |
| BrowserFunctions.Switched | browser/functions.c:984-1023 | the mailbox-list cursor is remembered, the view toggled or the `$folder` toggle applied, the list emptied and the prefix dropped |
| BrowserFunctions.Relist | browser/functions.c:1025-1046 | the new list is the mailbox list, the IMAP listing or the directory read from disk (LastDir only shrinks); the browser ends when the directory cannot be read |
| BrowserFunctions.OpToggleMailboxes | browser/functions.c:982-1047 | the view switch leaves no prefix, remembers the mailbox-list cursor, toggles exactly the requested flag, and applies the `$folder` toggle |
| BrowserFunctions.ToggleMailboxesTwice | browser/functions.c:982-1047 | switching to the mailbox list and back shows the mailbox list, then the same readable local directory listed exactly as the mask lets through, with the mailbox-list cursor remembered |
| BrowserFunctions.OpCreateMailbox | browser/functions.c:360-383 | creating works only while browsing IMAP and when the server agrees; the list is then re-read |
| BrowserFunctions.OpDeleteMailbox | browser/functions.c:390-433 | only IMAP entries other than the open mailbox can be deleted, after confirmation and when the server agrees; then exactly the entry at the cursor is removed; otherwise nothing changes |
| BrowserFunctions.DeleteKeepsOthers | browser/functions.c:425-428 | every other entry keeps its relative place |
| BrowserFunctions.OpRenameMailbox | browser/functions.c:775-798 | renaming works only on IMAP entries and when the server agrees; the list is then re-read |
| BrowserFunctions.CreateAndRenameRelistAlike | browser/functions.c:360-383 | (with browser/functions.c:775-798) once the server agrees, creating and renaming leave the same session: the server's listing of the unchanged LastDir, no tags, and the cursor on the directory the browser came from when listed, otherwise on the first entry, or the second when the first is ".." |
| BrowserFunctions.RunHandler | browser/functions.c:1052-1098 | every browser function reports a definite result, and leaves a well-formed session unless it ends the browser |
| BrowserFunctions.BrowserFunctionDispatcher | browser/functions.c:1108-1132 | without the window or its data: error; an operation is Unknown exactly when it is not a browser function, and then changes nothing |
| BrowserFunctions.BrowserTableCovers | browser/functions.c:1052-1098 | the table has a row for exactly the browser's operations; the cursor-reading functions and the sort functions are the listed ones |
| Attachments.EncodedSize | compose/attach.c:109-120 | quoted-printable adds two bytes per non-ASCII byte, base64 is four thirds rounded down, other encodings keep the size; always between once and three times the raw size |
| Attachments.EncodedTotal | compose/attach.c:99-122 | the estimate is between the raw total and three times it, and equals the raw total when no attachment is quoted-printable or base64 |
| Attachments.CumAttachsSize | compose/attach.c:87-125 | without attachment data the size is 0; otherwise the estimate lies within the raw bounds |
| Attachments.EncodedTotalAppend | compose/attach.c:99-122 | the estimate of two lists together is the sum of their estimates |
| Attachments.OneMore | compose/attach.c:99-122 | one more scanned attachment adds exactly its encoded size |
| Attachments.ComposeAttachTag | compose/attach.c:249-258 | the tag callback changes only the tag of the attachment shown on the line, honours the action, and returns the net change |
| Attachments.ToggleTwice | compose/attach.c:249-258 | toggling the same line twice restores the list and nets zero |
| Attachments.LowerAscii | attach/functions.c:74-75 | the case-insensitive comparison folds exactly the ASCII capitals |
| AttachFunctions.SubtreeEnd | attach/functions.c:72 | the unfold loop runs over exactly the entries deeper than the current one that follow it |
| AttachFunctions.AttachCollapse | attach/functions.c:56-85 | the current attachment's fold flag flips; unfolding also unfolds its whole subtree, except digests under `$digest_collapse`; nothing outside the subtree changes |
| AttachFunctions.OpAttachmentCollapse | attach/functions.c:176-187 | an attachment without parts cannot be folded (no action); otherwise its fold flag flips |
| AttachFunctions.MarkTagged | attach/functions.c:248-263 | the tagged pass over the first n entries marks exactly the tagged ones (of multipart bodies, when deleting), and reports whether it marked any |
| AttachFunctions.Advance | attach/functions.c:232-239 | with `$resolve` the cursor moves to the next line when there is one; otherwise the current line is redrawn |
| AttachFunctions.MarkCurrent | attach/functions.c:226-245 | only the attachment under the cursor is marked, and only a part of a multipart body when deleting |
| AttachFunctions.MarkTaggedIn | attach/functions.c:246-264 | the tagged pass applied to the menu redraws the lines when it marked anything |
| AttachFunctions.OpAttachmentDelete | attach/functions.c:192-267 | deletion is refused (error, no change) without a writable mailbox, on POP or news, or for encrypted messages; otherwise it marks the current attachment, or with the tag prefix exactly the tagged multipart parts |
| AttachFunctions.OpAttachmentDeleteAsWritten | attach/functions.c:246-264 | the tagged pass as written never touches attachments at index `menu->max` or beyond |
| AttachFunctions.OpAttachmentUndelete | attach/functions.c:322-351 | undeleting is refused without a writable mailbox; otherwise it clears the current attachment's flag, or with the tag prefix every tagged attachment's |
| AttachFunctions.OpAttachmentUndeleteAsWritten | attach/functions.c:339-349 | the undelete pass as written never touches attachments at index `menu->max` or beyond |
| AttachFunctions.UndeleteAfterDelete | attach/functions.c:192-351 | deleting and then undeleting the tagged attachments leaves none of them deleted and every other flag as it was |
| AttachFunctions.UndeleteCurrentAfterDelete | attach/functions.c:226-338 | deleting and undeleting the current attachment clears its flag and changes nothing else |
| AttachFunctions.FoldedMessage | attach/functions.c:248-250 | a well-formed message with three visible lines, four attachments and the tag prefix on |
| AttachFunctions.TaggedDeleteSkipsFoldedTail | attach/functions.c:248-254 | in that message the tagged multipart part on the last line is left undeleted by the pass as written, and deleted by the full pass |
| AttachFunctions.TaggedUndeleteSkipsFoldedTail | attach/functions.c:341-346 | likewise, the tagged deleted part stays deleted under the undelete pass as written |
| AttachFunctions.AnyDeleted | attach/functions.c:447-455 | the search finds a deleted attachment exactly when there is one |
| AttachFunctions.OpExit | attach/functions.c:445-461 | leaving records on the email whether any attachment is deleted, marks it changed when so, and changes nothing else |
| AttachFunctions.DeleteThenExitChanges | attach/functions.c:192-461 | deleting a multipart part and leaving marks the email as changed and with deleted attachments |
| AttachFunctions.ReplyFlags | attach/functions.c:528-534 | every reply replies; group, group-chat and list replies add exactly their own flag |
| AttachFunctions.HandOver | attach/functions.c:404-413 | a hand-over is refused in attach-message mode, and otherwise succeeds with a full redraw |
| AttachFunctions.OpAttachmentSave | attach/functions.c:306-317 | saving succeeds and, outside the tag prefix, moves on a line under `$resolve` when there is one |
| AttachFunctions.RunHandler | attach/functions.c:605-640 | every attachment function reports a definite result; only viewing continues and only exit ends; an error changes nothing; only exit touches the email's flags |
| AttachFunctions.AttachFunctionDispatcher | attach/functions.c:649-678 | without the window, its data or its dialog: error; an operation is Unknown exactly when the table lacks it, and then changes nothing; only exit ends the menu |
| AttachFunctions.AttachTableCovers | attach/functions.c:605-640 | the table has a row for exactly the attachment operations, and only the exit operation reaches the exit function |

## Where the code and its design notes differ

The model follows the code in each case:

- Several browser functions return "done" where a loop `break` or
  `goto bail` used to be, so each ends the browser:
  - entering a directory and resolving it;
  - a `realpath` failure;
  - an invalid file mask;
  - an empty masked list.

  `OpGenericSelectEntry`, `OpChangeDirectory` and `OpEnterMask` model
  these results as written.
- Descending into a directory does not set LastDirBackup. Tracking back to
  the child therefore works only from paths that `mutt_browser_select_dir`
  stored. `TrackingReturnsToChild` states it for that case.
- The start-up strip of trailing slashes turns "/" into the working
  directory, because the emptied string is replaced by the cwd.
- `cum_attachs_size` counts every attachment of the flat list. That
  includes the parts of nested multiparts, as well as the multipart
  containers themselves when they carry content data.

## Left out

- News mode (NNTP) is off. The news-only browser functions (catch-up,
  load-active, the subscribe patterns) therefore report "not implemented",
  as their code does without news mode. The news branches of completion and
  directory reading are not modelled.
- Number parsing follows `strtol` as `mutt_str_atoi_full` uses it:
  white space, an optional sign, decimal digits, and the whole text
  consumed. `mutt_str_atoi_full` is not part of this model.
- The IMAP client, the `realpath` call, path expansion, the mailbox-type
  probe and the mask regex are oracles (function parameters).
  - `imap_complete` is not modelled: completion of an IMAP path returns a
    marker.
  - IMAP subscribe only talks to the server and returns success.
- Two effects on the option set and the input queue are not modelled, and
  the functions return their result only:
  - toggle-subscribed (browser/functions.c:143-149) flips
    `$imap_list_subscribed` and queues a check-new key, so that the next
    key lists the view again through the toggle-mailboxes function;
  - Tagging.OpTagPrefixCond with nothing tagged flushes the rest of the
    macro up to its end condition (`mutt_flush_macro_to_endcond`,
    menu/tagging.c:173).
- `examine_mailboxes` is not modelled. Its result is a given list of
  entries.
- `browser_sort` lives in a file that is not part of this model, so sorting
  is the identity; only `$sort_browser` is recorded.
- The status-bar title, colours, messages and error texts, and the
  observers and notifications are not modelled.
- `mutt_update_recvattach_menu` is not part of this model. It rebuilds the
  visible-line map after folding, so `v2r` and `menu->max` stay as they were
  after a fold.
- `mutt_actx_free` on exit is not modelled. The attachment list stays
  readable after `OpExit`.
- The viewer, pager, pipe, print, save, bounce, forward, reply, resend,
  follow-up, list (un)subscribe, edit-type and PGP functions call code
  outside this model. They are reduced to their checks, their redraw and
  their result. `ReplyFlags` records the send flags of the reply variants.
- AttachFunctions.RunHandler: check-traditional does not model the update
  of the email's security flags by `crypt_query`. That is why the contract
  says only exit touches the email.
- The operation the viewer loop returns (`priv->op`) is not modelled.
  Viewing only reports that the caller should carry on.
- `WithCrypto` is assumed compiled in, with PGP support.
- Every attachment is assumed to have a body. The NULL-body check in
  `op_exit` is therefore not modelled.
- Attachments.CumAttachsSize: the scan of an attachment's content is an
  oracle. The scanned data are not written back into the body, as
  `b->content = …` does; a later call scans again.
- Integer widths are not modelled: the sums are unbounded. This covers the
  `unsigned short` index and the `size_t` sum in `cum_attachs_size`, the
  `int` counters, and the `PATH_MAX` and 256-byte buffers (truncation by
  `mutt_str_copy`).
- NeedsEntry, CanRun, OpDeleteMailbox and OpRenameMailbox require a
  non-empty list. On an empty list the code takes `ARRAY_GET` of the
  cursor without a check and dereferences the NULL it gets
  (browser/functions.c:116-118, 392-394, 777-779), for example after an
  empty IMAP listing. The model does not define that crash.
- EntryMailbox: when the matched mailbox is the open one, the code copies
  the open mailbox's message counts into the configured mailbox object
  (browser/browser.c:662-666), which outlives the scan. The model only
  puts those counts on the entry.
- StartBrowser: what `imap_browse` leaves in the list when it fails is the
  listing oracle's answer; only LastDir is kept on failure. The directory
  scan needs the menu (browser/browser.c:1312), which the model takes as
  present.
- Browser.InitMenu: when LastDirBackup has no '/', `strrchr(...) + 1`
  would read from address 1. The model takes the whole string instead.
- Menus.QueueRedraw and Tagging.OpTag: window actions are not modelled.
  `menu_queue_redraw` also sets `WA_RECALC` on the menu's window
  (menu/menu.c:224) and tagging sets `WA_REPAINT` (menu/tagging.c:128); the
  model keeps only the menu's own redraw flags. That `menu_queue_redraw`
  dereferences `menu->win` without a check is not modelled either.
- Menus.SetIndex: `menu_set_index` goes through `menu_move_selection`,
  which is not part of this model. It is a plain assignment here.
- MenuFunctions.MenuMovement: the movement functions themselves live in a
  file that is not part of this model. Only the dispatch and the results are
  modelled.
- The event loop (`menu_loop`), key reading (`mutt_getch`), and the timeout
  loop in `menu_dialog_dokey` are not modelled. The key is a parameter.

## Findings

| source | as written | input that shows it | evidently intended | confidence | as-written member | corrected member |
|---|---|---|---|---|---|---|
| complete.c:221 | `st.st_mode & S_IFDIR` treats every mode with the directory bit set as a directory, including block devices (`S_IFBLK` = 0x6000) | typing "/dev/sd" where /dev/sda is a block device completes to "/dev/sda/" | test the file type with `S_ISDIR`, so only directories get a '/' | high, not executed | Complete.MuttCompleteAsWritten (shown by Complete.BlockDeviceCompletesAsDirectory) | Complete.MuttComplete |
| attach/functions.c:248 | the tag-prefix delete pass runs `i` up to `menu->max` (the number of visible lines) and indexes the full list `actx->idx[i]` | `FoldedMessage(false)`: four attachments, one folded, three lines; the tagged PDF at index 3 is skipped (`TaggedDeleteSkipsFoldedTail`) | run over all `actx->idxlen` attachments, as `op_exit` and `attach_collapse` do | medium, not executed | AttachFunctions.OpAttachmentDeleteAsWritten | AttachFunctions.OpAttachmentDelete |
| attach/functions.c:341 | the tag-prefix undelete pass has the same bound | `FoldedMessage(true)`: the tagged, deleted PDF at index 3 stays deleted (`TaggedUndeleteSkipsFoldedTail`) | run over all `actx->idxlen` attachments | medium, not executed | AttachFunctions.OpAttachmentUndeleteAsWritten | AttachFunctions.OpAttachmentUndelete |

`menu->max` being the number of visible lines comes from `recvattach.c`,
which is not part of this model.

=== FILE: attach.dfy ===
/** Attachments as the compose and attachment menus see them: the flat
    list of attachment pointers (in tree order, with their depth), the
    view-to-real map of the visible lines, the size estimate the compose
    screen shows, and the compose menu's tag callback. */
module Attachments {
  import opened Common
  import opened Menus

  /** The MIME major types the menus tell apart. */
  datatype BodyType = Multipart | Message | Text | Application | OtherType

  datatype Encoding = SevenBit | EightBit | QuotedPrintable | Base64 | Binary | UuEncoded | OtherEncoding

  /** Byte counts of an attachment's content, by kind: bytes with the high
      bit set, other non-printable bytes, line ends and printable ASCII. */
  datatype Content = Content(hibin: nat, lobin: nat, crlf: nat, ascii: nat)

  /** The parts of a MIME body the menus read and write. `content` is None
      until the content has been scanned. */
  datatype Body = Body(btype: BodyType, subtype: string, encoding: Encoding, content: Option<Content>,
                       filename: string, tagged: bool, deleted: bool, hasParts: bool)

  /** One line of the attachment tree: the body, the type of the body it
      belongs to, its depth and whether its subtree is folded away. */
  datatype AttachPtr = AttachPtr(body: Body, parentType: BodyType, level: nat, collapsed: bool)

  /** The flags of the email the attachments belong to. */
  datatype Email = Email(encrypted: bool, signed: bool, attachDel: bool, changed: bool)

  /** All attachments (`idx`) and, for each visible line, the index of the
      attachment shown there (`v2r`). */
  datatype AttachCtx = AttachCtx(email: Email, idx: seq<AttachPtr>, v2r: seq<int>)

  /** Every visible line shows an attachment. */
  predicate Wf(actx: AttachCtx)
  {
    forall k :: 0 <= k < |actx.v2r| ==> 0 <= actx.v2r[k] < |actx.idx|
  }

  // The size estimate

  /** All bytes the content holds. */
  function Raw(c: Content): nat
  {
    c.hibin + c.lobin + c.crlf + c.ascii
  }

  /** The size of one attachment once its transfer encoding is applied:
      quoted-printable writes every non-ASCII byte as three characters,
      base64 turns every three bytes into four (rounded down), and the other
      encodings keep the size. */
  function EncodedSize(enc: Encoding, c: Content): (r: nat)
    ensures Raw(c) <= r <= 3 * Raw(c)
    ensures enc == QuotedPrintable ==> r == Raw(c) + 2 * (c.lobin + c.hibin)
    ensures enc == Base64 ==> 3 * r <= 4 * Raw(c) < 3 * r + 3
    ensures enc != QuotedPrintable && enc != Base64 ==> r == Raw(c)
  {
    match enc
    case QuotedPrintable => 3 * (c.lobin + c.hibin) + c.ascii + c.crlf
    case Base64 => (4 * (c.lobin + c.hibin + c.ascii + c.crlf)) / 3
    case _ => c.lobin + c.hibin + c.ascii + c.crlf
  }

  /** An attachment's content counts, scanning the file (`scan`) when they
      are not known yet; a file that cannot be scanned counts nothing. */
  function ContentOf(b: Body, scan: Body -> Option<Content>): Option<Content>
  {
    if b.content.Some? then b.content else scan(b)
  }

  /** The raw bytes of a list of attachments. */
  function RawTotal(idx: seq<AttachPtr>, scan: Body -> Option<Content>): nat
  {
    if |idx| == 0 then 0
    else RawTotal(idx[..|idx| - 1], scan) +
         match ContentOf(idx[|idx| - 1].body, scan) case None => 0 case Some(c) => Raw(c)
  }

  /** The encoded size of a list of attachments. */
  function EncodedTotal(idx: seq<AttachPtr>, scan: Body -> Option<Content>): (r: nat)
    ensures RawTotal(idx, scan) <= r <= 3 * RawTotal(idx, scan)
    ensures (forall k :: 0 <= k < |idx| ==> idx[k].body.encoding != QuotedPrintable && idx[k].body.encoding != Base64)
            ==> r == RawTotal(idx, scan)
  {
    if |idx| == 0 then 0
    else
      var last := idx[|idx| - 1].body;
      EncodedTotal(idx[..|idx| - 1], scan) +
      match ContentOf(last, scan) case None => 0 case Some(c) => EncodedSize(last.encoding, c)
  }

  /** The total size of the attachments after transfer encoding, as the
      compose screen shows it; nothing without attachment data. */
  function CumAttachsSize(actx: Option<AttachCtx>, scan: Body -> Option<Content>): (r: nat)
    ensures actx.None? ==> r == 0
    ensures actx.Some? ==> RawTotal(actx.value.idx, scan) <= r <= 3 * RawTotal(actx.value.idx, scan)
  {
    match actx
    case None => 0
    case Some(a) => EncodedTotal(a.idx, scan)
  }

  /** The estimate adds up: the attachments of two lists one after the
      other take the sizes of both. */
  lemma {:induction false} EncodedTotalAppend(a: seq<AttachPtr>, b: seq<AttachPtr>, scan: Body -> Option<Content>)
    ensures EncodedTotal(a + b, scan) == EncodedTotal(a, scan) + EncodedTotal(b, scan)
    decreases |b|
  {
    if |b| == 0 {
      assert a + b == a;
    } else {
      var b' := b[..|b| - 1];
      assert (a + b)[..|a + b| - 1] == a + b';
      assert (a + b)[|a + b| - 1] == b[|b| - 1];
      EncodedTotalAppend(a, b', scan);
    }
  }

  /** Encoding one more attachment grows the estimate by exactly that
      attachment's encoded size. */
  lemma OneMore(idx: seq<AttachPtr>, p: AttachPtr, c: Content, scan: Body -> Option<Content>)
    requires p.body.content == Some(c)
    ensures EncodedTotal(idx + [p], scan) == EncodedTotal(idx, scan) + EncodedSize(p.body.encoding, c)
  {
    assert (idx + [p])[..|idx + [p]| - 1] == idx;
  }

  // Tagging in the compose menu

  /** The compose menu's tag callback: sets (`act` >= 0, nonzero meaning
      tagged) or toggles (`act` < 0) the tag of the attachment on line
      `sel`, and reports the net change in tagged attachments. */
  function ComposeAttachTag(actx: AttachCtx, sel: int, act: int): (r: (AttachCtx, int))
    requires Wf(actx) && 0 <= sel < |actx.v2r|
    ensures |r.0.idx| == |actx.idx| && Wf(r.0)
    ensures var i := actx.v2r[sel];
            r.0 == actx.(idx := actx.idx[i := actx.idx[i].(body := actx.idx[i].body.(tagged := r.0.idx[i].body.tagged))])
    ensures var i := actx.v2r[sel];
            Honours(actx.idx[i].body.tagged, act, r.0.idx[i].body.tagged) &&
            NetChange(actx.idx[i].body.tagged, r.0.idx[i].body.tagged, r.1)
  {
    var i := actx.v2r[sel];
    var cur := actx.idx[i].body;
    var after := if act >= 0 then act != 0 else !cur.tagged;
    (actx.(idx := actx.idx[i := actx.idx[i].(body := cur.(tagged := after))]), Bit(after) - Bit(cur.tagged))
  }

  /** Toggling the same line twice restores the list and nets zero. */
  lemma ToggleTwice(actx: AttachCtx, sel: int)
    requires Wf(actx) && 0 <= sel < |actx.v2r|
    ensures var (a1, d1) := ComposeAttachTag(actx, sel, -1);
            var (a2, d2) := ComposeAttachTag(a1, sel, -1);
            a2 == actx && d1 + d2 == 0
  {
    var i := actx.v2r[sel];
    var (a1, d1) := ComposeAttachTag(actx, sel, -1);
    var (a2, d2) := ComposeAttachTag(a1, sel, -1);
    assert a2.idx[i] == actx.idx[i];
    assert a2.idx == actx.idx;
  }

  // Case-insensitive comparison of ASCII names

  function LowerAscii(c: char): (r: char)
    ensures 'A' <= c <= 'Z' ==> r as int == c as int + 32
    ensures !('A' <= c <= 'Z') ==> r == c
  {
    if 'A' <= c <= 'Z' then (c as int + 32) as char else c
  }

  /** Whether two names are equal ignoring ASCII case. */
  predicate IEquals(a: string, b: string)
  {
    |a| == |b| && forall k :: 0 <= k < |a| ==> LowerAscii(a[k]) == LowerAscii(b[k])
  }

  /** A digest: a multipart body of subtype "digest", in any case. */
  predicate IsDigest(b: Body)
  {
    b.btype == Multipart && IEquals(b.subtype, "digest")
  }
}

=== FILE: attach_functions.dfy ===
/** The attachment menu's functions: folding and unfolding the attachment
    tree, marking attachments deleted and undeleted, leaving the menu, the
    functions that hand the attachment to other parts of the program, and
    the table that dispatches them. */
module AttachFunctions {
  import opened Common
  import Op = Opcodes
  import opened Menus
  import opened Attachments

  datatype MailboxKind = Pop | Nntp | OtherKind

  /** The mailbox the message with the attachments lives in. */
  datatype MailboxInfo = MailboxInfo(readonly: bool, kind: MailboxKind)

  /** The menu's private data with the settings it reads: whether the
      message is being attached to another ($attach-message mode), $resolve
      and $digest_collapse. */
  datatype AttachPrivate = AttachPrivate(
    actx: AttachCtx,
    menu: Menu,
    mailbox: Option<MailboxInfo>,
    attachMsg: bool,
    resolve: bool,
    digestCollapse: bool)

  /** The menu shows one line per visible attachment and its cursor is on
      one of them. */
  predicate Wf(p: AttachPrivate)
  {
    Attachments.Wf(p.actx) && p.menu.max == |p.actx.v2r| && |p.actx.v2r| <= |p.actx.idx| &&
    0 <= p.menu.current < |p.actx.v2r|
  }

  /** The attachment under the cursor. */
  function Cur(p: AttachPrivate): (i: nat)
    requires Wf(p)
    ensures i < |p.actx.idx|
  {
    p.actx.v2r[p.menu.current]
  }

  // Folding the tree

  /** The end of the run of entries from `start` on that are deeper than
      `level`: the first entry at `level` or above, or the end of the list. */
  function SubtreeEnd(idx: seq<AttachPtr>, start: nat, level: nat): (r: nat)
    requires start <= |idx|
    ensures start <= r <= |idx|
    ensures forall j :: start <= j < r ==> idx[j].level > level
    ensures r < |idx| ==> idx[r].level <= level
    decreases |idx| - start
  {
    if start == |idx| || idx[start].level <= level then start
    else SubtreeEnd(idx, start + 1, level)
  }

  /** How an entry comes out of unfolding its parent: folded exactly when
      it is a digest and $digest_collapse is set. */
  function Unfolded(a: AttachPtr, digestCollapse: bool): AttachPtr
  {
    a.(collapsed := digestCollapse && IsDigest(a.body))
  }

  /** Folds or unfolds the attachment under the cursor. Unfolding also
      unfolds everything below it (up to the next entry at its level or
      above), except digests when $digest_collapse is set. */
  method AttachCollapse(actx: AttachCtx, index: int, digestCollapse: bool) returns (idx: seq<AttachPtr>)
    requires Attachments.Wf(actx) && 0 <= index < |actx.v2r|
    ensures |idx| == |actx.idx|
    ensures var c := actx.v2r[index];
            idx[c] == actx.idx[c].(collapsed := !actx.idx[c].collapsed)
    ensures var c := actx.v2r[index];
            !actx.idx[c].collapsed ==> forall j :: 0 <= j < |idx| && j != c ==> idx[j] == actx.idx[j]
    ensures var c := actx.v2r[index];
            var end := SubtreeEnd(actx.idx, c + 1, actx.idx[c].level);
            actx.idx[c].collapsed ==>
              (forall j :: c < j < end ==> idx[j] == Unfolded(actx.idx[j], digestCollapse)) &&
              (forall j :: 0 <= j < |idx| && (j < c || j >= end) ==> idx[j] == actx.idx[j])
  {
    var c := actx.v2r[index];
    idx := actx.idx[c := actx.idx[c].(collapsed := !actx.idx[c].collapsed)];
    if idx[c].collapsed {
      return;
    }
    var level := idx[c].level;
    var r := c + 1;
    while r < |idx| && idx[r].level > level
      invariant c < r <= |idx| == |actx.idx|
      invariant r <= SubtreeEnd(actx.idx, c + 1, level)
      invariant idx[c] == actx.idx[c].(collapsed := false)
      invariant forall j :: c < j < r ==> idx[j] == Unfolded(actx.idx[j], digestCollapse)
      invariant forall j :: 0 <= j < |idx| && (j < c || j >= r) ==> idx[j] == actx.idx[j]
      decreases |idx| - r
    {
      idx := idx[r := Unfolded(idx[r], digestCollapse)];
      r := r + 1;
    }
    assert r == SubtreeEnd(actx.idx, c + 1, level);
  }

  /** Folding or unfolding an attachment that has no parts does nothing. */
  method OpAttachmentCollapse(p: AttachPrivate) returns (r: AttachPrivate, rc: Retval)
    requires Wf(p)
    ensures !p.actx.idx[Cur(p)].body.hasParts ==> r == p && rc == NoAction
    ensures p.actx.idx[Cur(p)].body.hasParts ==>
              rc == Success && r == p.(actx := r.actx) && r.actx == p.actx.(idx := r.actx.idx) &&
              |r.actx.idx| == |p.actx.idx| && r.actx.idx[Cur(p)].collapsed == !p.actx.idx[Cur(p)].collapsed
  {
    if !p.actx.idx[Cur(p)].body.hasParts {
      return p, NoAction;
    }
    var idx := AttachCollapse(p.actx, p.menu.current, p.digestCollapse);
    return p.(actx := p.actx.(idx := idx)), Success;
  }

  // Deleting and undeleting

  /** Whether a tagged pass acts on an entry: it is tagged and, when
      deleting, belongs to a multipart body. */
  predicate Acts(a: AttachPtr, onlyMultipart: bool)
  {
    a.body.tagged && (!onlyMultipart || a.parentType == Multipart)
  }

  function Marked(a: AttachPtr, mark: bool): AttachPtr
  {
    a.(body := a.body.(deleted := mark))
  }

  /** The tagged pass over the first `n` entries: sets their deleted flag to
      `mark`, and reports whether it acted on any (the menu then redraws its
      lines). */
  function MarkTagged(idx: seq<AttachPtr>, n: nat, mark: bool, onlyMultipart: bool): (r: (seq<AttachPtr>, bool))
    requires n <= |idx|
    ensures |r.0| == |idx|
    ensures forall i :: 0 <= i < |idx| ==>
              r.0[i] == (if i < n && Acts(idx[i], onlyMultipart) then Marked(idx[i], mark) else idx[i])
    ensures r.1 <==> exists i :: 0 <= i < n && Acts(idx[i], onlyMultipart)
    decreases n
  {
    if n == 0 then (idx, false)
    else
      var (prev, acted) := MarkTagged(idx, n - 1, mark, onlyMultipart);
      if Acts(idx[n - 1], onlyMultipart) then (prev[n - 1 := Marked(idx[n - 1], mark)], true)
      else (prev, acted)
  }

  /** Why deleting is refused: no mailbox or a read-only one, a POP or news
      mailbox, or an encrypted message. */
  predicate DeleteRefused(p: AttachPrivate)
  {
    p.mailbox.None? || p.mailbox.value.readonly || p.mailbox.value.kind == Pop ||
    p.mailbox.value.kind == Nntp || p.actx.email.encrypted
  }

  /** After acting on the entry under the cursor: with $resolve the cursor
      moves to the next line when there is one; otherwise the line is
      redrawn. */
  function Advance(p: AttachPrivate): (m: Menu)
    ensures p.resolve && p.menu.current + 1 < p.menu.max ==> m == p.menu.(current := p.menu.current + 1)
    ensures !(p.resolve && p.menu.current + 1 < p.menu.max) ==> m == QueueRedraw(Some(p.menu), RedrawCurrent).value
  {
    if p.resolve && p.menu.current + 1 < p.menu.max then SetIndex(p.menu, p.menu.current + 1)
    else QueueRedraw(Some(p.menu), RedrawCurrent).value
  }

  /** Sets the deleted flag on the entry under the cursor (only when it
      belongs to a multipart body, when `onlyMultipart`). */
  function MarkCurrent(p: AttachPrivate, mark: bool, onlyMultipart: bool): (r: AttachPrivate)
    requires Wf(p)
    ensures onlyMultipart && p.actx.idx[Cur(p)].parentType != Multipart ==> r == p
    ensures !onlyMultipart || p.actx.idx[Cur(p)].parentType == Multipart ==>
              r == p.(actx := p.actx.(idx := p.actx.idx[Cur(p) := Marked(p.actx.idx[Cur(p)], mark)]), menu := Advance(p))
  {
    var c := Cur(p);
    if onlyMultipart && p.actx.idx[c].parentType != Multipart then p
    else p.(actx := p.actx.(idx := p.actx.idx[c := Marked(p.actx.idx[c], mark)]), menu := Advance(p))
  }

  /** The tagged pass over the first `n` entries, applied to the menu. */
  function MarkTaggedIn(p: AttachPrivate, n: nat, mark: bool, onlyMultipart: bool): (r: AttachPrivate)
    requires n <= |p.actx.idx|
    ensures r.actx.idx == MarkTagged(p.actx.idx, n, mark, onlyMultipart).0
    ensures r.menu == (if MarkTagged(p.actx.idx, n, mark, onlyMultipart).1
                       then QueueRedraw(Some(p.menu), RedrawIndex).value else p.menu)
    ensures r == p.(actx := p.actx.(idx := r.actx.idx), menu := r.menu)
  {
    var (idx, acted) := MarkTagged(p.actx.idx, n, mark, onlyMultipart);
    p.(actx := p.actx.(idx := idx), menu := if acted then QueueRedraw(Some(p.menu), RedrawIndex).value else p.menu)
  }

  /** Marks the attachment under the cursor, or with the tag prefix every
      tagged attachment, as deleted; only parts of a multipart body can be
      deleted. The pass over tagged attachments covers all of them. */
  function OpAttachmentDelete(p: AttachPrivate): (r: (AttachPrivate, Retval))
    requires Wf(p)
    ensures |r.0.actx.idx| == |p.actx.idx|
    ensures DeleteRefused(p) ==> r == (p, Error)
    ensures !DeleteRefused(p) ==> r.1 == Success
    ensures !DeleteRefused(p) && !p.menu.tagPrefix ==> r.0 == MarkCurrent(p, true, true)
    ensures !DeleteRefused(p) && p.menu.tagPrefix ==>
              forall i :: 0 <= i < |p.actx.idx| ==>
                (r.0.actx.idx[i].body.deleted <==>
                 p.actx.idx[i].body.deleted || (p.actx.idx[i].body.tagged && p.actx.idx[i].parentType == Multipart))
  {
    if DeleteRefused(p) then (p, Error)
    else if !p.menu.tagPrefix then (MarkCurrent(p, true, true), Success)
    else (MarkTaggedIn(p, |p.actx.idx|, true, true), Success)
  }

  /** The same, as the source writes the tagged pass: it stops after as
      many entries as the menu has lines, so while part of the tree is
      folded away the last tagged attachments are skipped. */
  function OpAttachmentDeleteAsWritten(p: AttachPrivate): (r: (AttachPrivate, Retval))
    requires Wf(p)
    ensures |r.0.actx.idx| == |p.actx.idx|
    ensures DeleteRefused(p) ==> r == (p, Error)
    ensures !DeleteRefused(p) && !p.menu.tagPrefix ==> r == OpAttachmentDelete(p)
    ensures !DeleteRefused(p) && p.menu.tagPrefix ==>
              r.1 == Success &&
              forall i :: p.menu.max <= i < |p.actx.idx| ==> r.0.actx.idx[i] == p.actx.idx[i]
  {
    if DeleteRefused(p) then (p, Error)
    else if !p.menu.tagPrefix then (MarkCurrent(p, true, true), Success)
    else (MarkTaggedIn(p, p.menu.max, true, true), Success)
  }

  /** Why undeleting is refused: no mailbox or a read-only one. */
  predicate UndeleteRefused(p: AttachPrivate)
  {
    p.mailbox.None? || p.mailbox.value.readonly
  }

  /** Clears the deleted flag of the attachment under the cursor, or with
      the tag prefix of every tagged attachment. */
  function OpAttachmentUndelete(p: AttachPrivate): (r: (AttachPrivate, Retval))
    requires Wf(p)
    ensures |r.0.actx.idx| == |p.actx.idx|
    ensures UndeleteRefused(p) ==> r == (p, Error)
    ensures !UndeleteRefused(p) ==> r.1 == Success
    ensures !UndeleteRefused(p) && !p.menu.tagPrefix ==> r.0 == MarkCurrent(p, false, false)
    ensures !UndeleteRefused(p) && p.menu.tagPrefix ==>
              forall i :: 0 <= i < |p.actx.idx| ==>
                (r.0.actx.idx[i].body.deleted <==> p.actx.idx[i].body.deleted && !p.actx.idx[i].body.tagged)
  {
    if UndeleteRefused(p) then (p, Error)
    else if !p.menu.tagPrefix then (MarkCurrent(p, false, false), Success)
    else (MarkTaggedIn(p, |p.actx.idx|, false, false), Success)
  }

  /** The same, with the tagged pass as the source writes it. */
  function OpAttachmentUndeleteAsWritten(p: AttachPrivate): (r: (AttachPrivate, Retval))
    requires Wf(p)
    ensures |r.0.actx.idx| == |p.actx.idx|
    ensures UndeleteRefused(p) ==> r == (p, Error)
    ensures !UndeleteRefused(p) && !p.menu.tagPrefix ==> r == OpAttachmentUndelete(p)
    ensures !UndeleteRefused(p) && p.menu.tagPrefix ==>
              r.1 == Success &&
              forall i :: p.menu.max <= i < |p.actx.idx| ==> r.0.actx.idx[i] == p.actx.idx[i]
  {
    if UndeleteRefused(p) then (p, Error)
    else if !p.menu.tagPrefix then (MarkCurrent(p, false, false), Success)
    else (MarkTaggedIn(p, p.menu.max, false, false), Success)
  }

  /** Deleting and then undeleting the tagged attachments leaves none of
      them deleted and every other attachment as it was. */
  lemma UndeleteAfterDelete(p: AttachPrivate)
    requires Wf(p) && !DeleteRefused(p) && p.menu.tagPrefix
    ensures var q := OpAttachmentDelete(p).0;
            Wf(q) && q.menu.tagPrefix &&
            var u := OpAttachmentUndelete(q).0;
            forall i :: 0 <= i < |p.actx.idx| ==>
              (u.actx.idx[i].body.deleted <==> p.actx.idx[i].body.deleted && !p.actx.idx[i].body.tagged) &&
              u.actx.idx[i].body.tagged == p.actx.idx[i].body.tagged
  {
  }

  /** Deleting the attachment under the cursor and undeleting it again
      (with the cursor back on it) clears its deleted flag. */
  lemma UndeleteCurrentAfterDelete(p: AttachPrivate)
    requires Wf(p) && !DeleteRefused(p) && !p.menu.tagPrefix
    requires p.actx.idx[Cur(p)].parentType == Multipart
    ensures var q := OpAttachmentDelete(p).0.(menu := p.menu);
            Wf(q) &&
            var u := OpAttachmentUndelete(q).0;
            !u.actx.idx[Cur(p)].body.deleted &&
            forall i :: 0 <= i < |p.actx.idx| && i != Cur(p) ==> u.actx.idx[i] == p.actx.idx[i]
  {
  }

  /** A message whose tree has its second part folded: four attachments,
      three lines, and the last attachment tagged. */
  function FoldedMessage(deleted: bool): (p: AttachPrivate)
    ensures Wf(p) && !DeleteRefused(p) && !UndeleteRefused(p) && p.menu.tagPrefix && p.menu.max == 3
  {
    var part := Body(Text, "plain", SevenBit, None, "", false, false, false);
    var rfc822 := Body(Message, "rfc822", SevenBit, None, "", false, false, true);
    var pdf := Body(Application, "pdf", Base64, None, "", true, deleted, false);
    var idx := [AttachPtr(part, Multipart, 0, false), AttachPtr(rfc822, Multipart, 0, true),
                AttachPtr(part, Message, 1, false), AttachPtr(pdf, Multipart, 0, false)];
    var menu := MenuNew(MenuAttach, 10).(max := 3, current := 2, tagPrefix := true);
    AttachPrivate(AttachCtx(Email(false, false, false, false), idx, [0, 1, 3]), menu, Some(MailboxInfo(false, OtherKind)),
                  false, false, false)
  }

  /** In the folded message, the tagged PDF on the last line is a part of
      the multipart body, yet the pass as written leaves it undeleted; the
      full pass deletes it. */
  lemma TaggedDeleteSkipsFoldedTail()
    ensures var p := FoldedMessage(false);
            p.actx.idx[3].body.tagged && p.actx.idx[3].parentType == Multipart &&
            !OpAttachmentDeleteAsWritten(p).0.actx.idx[3].body.deleted &&
            OpAttachmentDelete(p).0.actx.idx[3].body.deleted
  {
    var p := FoldedMessage(false);
    assert p.actx.idx[3].body.tagged && p.actx.idx[3].parentType == Multipart;
  }

  /** Likewise the tagged, deleted PDF stays deleted under the undelete
      pass as written; the full pass restores it. */
  lemma TaggedUndeleteSkipsFoldedTail()
    ensures var p := FoldedMessage(true);
            p.actx.idx[3].body.tagged && p.actx.idx[3].body.deleted &&
            OpAttachmentUndeleteAsWritten(p).0.actx.idx[3].body.deleted &&
            !OpAttachmentUndelete(p).0.actx.idx[3].body.deleted
  {
    var p := FoldedMessage(true);
    assert p.actx.idx[3].body.tagged && p.actx.idx[3].body.deleted;
  }

  // Leaving the menu

  /** Whether some attachment is marked deleted. */
  function AnyDeleted(idx: seq<AttachPtr>): (r: bool)
    ensures r <==> exists i :: 0 <= i < |idx| && idx[i].body.deleted
  {
    if |idx| == 0 then false
    else idx[0].body.deleted || (assert forall i :: 1 <= i < |idx| ==> idx[i] == idx[1..][i - 1]; AnyDeleted(idx[1..]))
  }

  /** Leaves the menu, recording on the email whether attachments are to be
      deleted (which marks the email changed). */
  function OpExit(p: AttachPrivate): (r: (AttachPrivate, Retval))
    ensures r.1 == Done
    ensures r.0.actx.email.attachDel <==> exists i :: 0 <= i < |p.actx.idx| && p.actx.idx[i].body.deleted
    ensures r.0.actx.email.changed <==> p.actx.email.changed || r.0.actx.email.attachDel
    ensures r.0 == p.(actx := p.actx.(email := r.0.actx.email))
    ensures r.0.actx.email == p.actx.email.(attachDel := r.0.actx.email.attachDel, changed := r.0.actx.email.changed)
  {
    var del := AnyDeleted(p.actx.idx);
    var e := p.actx.email.(attachDel := del, changed := p.actx.email.changed || del);
    (p.(actx := p.actx.(email := e)), Done)
  }

  /** Deleting an attachment and leaving marks the email changed. */
  lemma DeleteThenExitChanges(p: AttachPrivate)
    requires Wf(p) && !DeleteRefused(p) && !p.menu.tagPrefix
    requires p.actx.idx[Cur(p)].parentType == Multipart
    ensures var e := OpExit(OpAttachmentDelete(p).0).0.actx.email;
            e.attachDel && e.changed
  {
    var q := OpAttachmentDelete(p).0;
    assert q.actx.idx[Cur(p)].body.deleted;
  }

  // Functions that hand over to other parts of the program

  /** The kinds of reply the reply functions ask for. */
  datatype SendFlags = SendFlags(reply: bool, groupReply: bool, groupChatReply: bool, listReply: bool)

  /** Every reply function replies; the group, group-chat and list
      variants add their own flag. */
  function ReplyFlags(op: int): (f: SendFlags)
    ensures f.reply
    ensures f.groupReply <==> op == Op.GroupReply
    ensures f.groupChatReply <==> op == Op.GroupChatReply
    ensures f.listReply <==> op == Op.ListReply
  {
    SendFlags(true, op == Op.GroupReply, op == Op.GroupChatReply, op == Op.ListReply)
  }

  /** A function that hands the attachments to the send code, which is
      refused while the message is being attached to another one. */
  function HandOver(p: AttachPrivate): (r: (AttachPrivate, Retval))
    ensures p.attachMsg ==> r == (p, Error)
    ensures !p.attachMsg ==> r == (p.(menu := QueueRedraw(Some(p.menu), RedrawFull).value), Success)
  {
    if p.attachMsg then (p, Error) else (p.(menu := QueueRedraw(Some(p.menu), RedrawFull).value), Success)
  }

  /** Saving moves the cursor on with $resolve (not with the tag prefix). */
  function OpAttachmentSave(p: AttachPrivate): (r: (AttachPrivate, Retval))
    ensures r.1 == Success
    ensures !p.menu.tagPrefix && p.resolve && p.menu.current + 1 < p.menu.max ==>
              r.0 == p.(menu := p.menu.(current := p.menu.current + 1))
    ensures !(!p.menu.tagPrefix && p.resolve && p.menu.current + 1 < p.menu.max) ==> r.0 == p
  {
    if !p.menu.tagPrefix && p.resolve && p.menu.current + 1 < p.menu.max then
      (p.(menu := SetIndex(p.menu, p.menu.current + 1)), Success)
    else (p, Success)
  }

  // The function table

  datatype AttachHandler =
    | Collapse | Delete | EditType | Pipe | Print | Save | Undelete | View | ViewMailcap | ViewPager
    | ViewText | Bounce | CheckTraditional | ComposeToSender | Exit | ExtractKeys | Followup
    | ForgetPassphrase | ForwardMessage | ForwardToGroup | Reply | ListSubscribe | Resend

  const AttachFunctionTable: seq<(int, AttachHandler)> := [
    (Op.AttachmentCollapse, Collapse), (Op.AttachmentDelete, Delete),
    (Op.AttachmentEditType, EditType), (Op.AttachmentPipe, Pipe),
    (Op.AttachmentPrint, Print), (Op.AttachmentSave, Save),
    (Op.AttachmentUndelete, Undelete), (Op.AttachmentView, View),
    (Op.AttachmentViewMailcap, ViewMailcap), (Op.AttachmentViewPager, ViewPager),
    (Op.AttachmentViewText, ViewText), (Op.Bounce, Bounce),
    (Op.CheckTraditional, CheckTraditional), (Op.ComposeToSender, ComposeToSender),
    (Op.DisplayHeaders, View), (Op.Exit, Exit),
    (Op.ExtractKeys, ExtractKeys), (Op.Followup, Followup),
    (Op.ForgetPassphrase, ForgetPassphrase), (Op.ForwardMessage, ForwardMessage),
    (Op.ForwardToGroup, ForwardToGroup), (Op.GroupChatReply, Reply),
    (Op.GroupReply, Reply), (Op.ListReply, Reply),
    (Op.ListSubscribe, ListSubscribe), (Op.ListUnsubscribe, ListSubscribe),
    (Op.Reply, Reply), (Op.Resend, Resend)]

  /** The operations the attachment menu has a function for. */
  predicate IsAttachFunction(op: int)
  {
    Op.AttachmentCollapse <= op <= Op.Resend || op == Op.Exit
  }

  /** Runs one function. Viewing asks the caller to carry on with the
      operation the viewer ended with; checking for inline PGP redraws when
      `traditional` says some attachment holds it. */
  method RunHandler(h: AttachHandler, p: AttachPrivate, traditional: bool) returns (r: AttachPrivate, rc: Retval)
    requires Wf(p)
    ensures rc != Unknown
    ensures rc == Continue <==> h == View
    ensures rc == Done <==> h == Exit
    ensures rc == Error ==> r == p
    ensures h != Exit ==> r.actx.email == p.actx.email
  {
    match h
    case Collapse => r, rc := OpAttachmentCollapse(p);
    case Delete => r, rc := OpAttachmentDelete(p).0, OpAttachmentDelete(p).1;
    case EditType => r, rc := p.(menu := QueueRedraw(Some(p.menu), RedrawIndex).value), Success;
    case Pipe => r, rc := p, Success;
    case Print => r, rc := p, Success;
    case Save => r, rc := OpAttachmentSave(p).0, Success;
    case Undelete => r, rc := OpAttachmentUndelete(p).0, OpAttachmentUndelete(p).1;
    case View => r, rc := p.(menu := QueueRedraw(Some(p.menu), RedrawFull).value), Continue;
    case ViewMailcap => r, rc := p.(menu := QueueRedraw(Some(p.menu), RedrawFull).value), Success;
    case ViewPager => r, rc := p.(menu := QueueRedraw(Some(p.menu), RedrawFull).value), Success;
    case ViewText => r, rc := p.(menu := QueueRedraw(Some(p.menu), RedrawFull).value), Success;
    case Bounce => r, rc := HandOver(p).0, HandOver(p).1;
    case CheckTraditional =>
      r := if traditional then p.(menu := QueueRedraw(Some(p.menu), RedrawFull).value) else p;
      rc := Success;
    case ComposeToSender => r, rc := HandOver(p).0, HandOver(p).1;
    case Exit => r, rc := OpExit(p).0, Done;
    case ExtractKeys => r, rc := p.(menu := QueueRedraw(Some(p.menu), RedrawFull).value), Success;
    case Followup => r, rc := HandOver(p).0, HandOver(p).1;
    case ForgetPassphrase => r, rc := p, Success;
    case ForwardMessage => r, rc := HandOver(p).0, HandOver(p).1;
    case ForwardToGroup => r, rc := HandOver(p).0, HandOver(p).1;
    case Reply => r, rc := HandOver(p).0, HandOver(p).1;
    case ListSubscribe => r, rc := p, Success;
    case Resend => r, rc := HandOver(p).0, HandOver(p).1;
  }

  /** Runs the attachment function for `op`. Without the window, its
      private data or its dialog this is an error; an operation without a
      function is unknown and changes nothing. */
  method AttachFunctionDispatcher(winPresent: bool, priv: Option<AttachPrivate>, dialogPresent: bool, op: int,
                                  traditional: bool)
    returns (r: Option<AttachPrivate>, rc: Retval)
    requires winPresent && priv.Some? && dialogPresent ==> Wf(priv.value)
    ensures !winPresent || priv.None? || !dialogPresent ==> r == priv && rc == Error
    ensures winPresent && priv.Some? && dialogPresent ==> (rc == Unknown <==> !IsAttachFunction(op))
    ensures winPresent && priv.Some? && dialogPresent && !IsAttachFunction(op) ==> r == priv
    ensures winPresent && priv.Some? && dialogPresent ==> (rc == Done <==> op == Op.Exit)
    ensures r.Some? <==> priv.Some?
  {
    if !winPresent || priv.None? || !dialogPresent {
      return priv, Error;
    }
    AttachTableCovers();
    match Lookup(AttachFunctionTable, op)
    case None =>
      return priv, Unknown;
    case Some(h) =>
      var s;
      s, rc := RunHandler(h, priv.value, traditional);
      r := Some(s);
  }

  /** The table has a row for exactly the attachment menu's operations,
      and only the exit operation leads to the exit function. */
  lemma AttachTableCovers()
    ensures forall i :: 0 <= i < |AttachFunctionTable| ==> IsAttachFunction(AttachFunctionTable[i].0)
    ensures forall i :: 0 <= i < |AttachFunctionTable| ==> (AttachFunctionTable[i].1 == Exit <==> AttachFunctionTable[i].0 == Op.Exit)
    ensures forall o :: IsAttachFunction(o) ==> exists i :: 0 <= i < |AttachFunctionTable| && AttachFunctionTable[i].0 == o
  {
    forall o | IsAttachFunction(o)
      ensures exists i :: 0 <= i < |AttachFunctionTable| && AttachFunctionTable[i].0 == o
    {
      if o == Op.Exit {
        assert AttachFunctionTable[15].0 == o;
      } else if o <= Op.DisplayHeaders {
        assert AttachFunctionTable[o - Op.AttachmentCollapse].0 == o;
      } else {
        assert AttachFunctionTable[o - Op.AttachmentCollapse + 1].0 == o;
      }
    }
  }
}

=== FILE: browser.dfy ===
/** The file browser's entry list: adding entries, reading a directory into
    the list, placing the cursor after a scan, tagging entries, and the
    path rules for the two remembered directories (the directory shown,
    LastDir, and the one the browser came from, LastDirBackup). */
module Browser {
  import opened Common
  import opened Posix
  import opened Menus
  import Tagging

  /** One browser entry. `delim` is the IMAP hierarchy delimiter ('\0' when
      there is none). */
  datatype FolderFile = FolderFile(
    mode: Mode,
    size: int,
    mtime: int,
    uid: int,
    gid: int,
    nlink: int,
    name: string,
    desc: string,
    hasNewMail: bool,
    msgCount: int,
    msgUnread: int,
    delim: char,
    isImap: bool,
    selectable: bool,
    inferiors: bool,
    hasMailbox: bool,
    local: bool,
    tagged: bool,
    gen: int)

  /** The kinds of mailbox the path probe tells apart. */
  datatype MailboxType =
    | MailboxError | MailboxUnknown | Mbox | Mmdf | Mh | Maildir | Imap | Pop | Notmuch | Nntp | Compressed

  /** A configured mailbox, as far as the browser reads it. */
  datatype Mailbox = Mailbox(
    path: string,
    realpath: string,
    name: Option<string>,
    mtype: MailboxType,
    gen: int,
    hasNew: bool,
    msgCount: int,
    msgUnread: int,
    hidden: bool)

  /** The browser state: the entries shown, whether they come from an IMAP
      server, and whether the view is the list of mailboxes. */
  datatype BrowserState = BrowserState(entries: seq<FolderFile>, imapBrowse: bool, isMailboxList: bool)

  /** A hidden mailbox is left out when there is no menu or the view is the
      mailbox list. */
  predicate HidesMailbox(state: BrowserState, menuPresent: bool, m: Option<Mailbox>)
  {
    (!menuPresent || state.isMailboxList) && m.Some? && m.value.hidden
  }

  /** Adds an entry for `name`: its file data come from `st` when given
      (which makes the entry local), its counters from mailbox `m` when
      given, and its description defaults to its name. */
  function AddFolder(state: BrowserState, menuPresent: bool, name: string, desc: Option<string>,
                     st: Option<Stat>, m: Option<Mailbox>): (r: BrowserState)
    ensures HidesMailbox(state, menuPresent, m) ==> r == state
    ensures !HidesMailbox(state, menuPresent, m) ==>
              r == state.(entries := r.entries) &&
              |r.entries| == |state.entries| + 1 && r.entries[..|state.entries|] == state.entries &&
              var e := r.entries[|state.entries|];
              e.name == name && e.desc == desc.GetOr(name) &&
              (e.local <==> st.Some?) && (e.hasMailbox <==> m.Some?) &&
              (st.Some? ==> e.mode == st.value.mode && e.size == st.value.size && e.mtime == st.value.mtime &&
                            e.uid == st.value.uid && e.gid == st.value.gid && e.nlink == st.value.nlink) &&
              (st.None? ==> e.mode == 0 && e.size == 0) &&
              (m.Some? ==> e.gen == m.value.gen && e.hasNewMail == m.value.hasNew &&
                           e.msgCount == m.value.msgCount && e.msgUnread == m.value.msgUnread) &&
              (m.None? ==> e.msgCount == 0 && e.msgUnread == 0 && !e.hasNewMail) &&
              !e.tagged && !e.isImap && !e.selectable && !e.inferiors
  {
    if HidesMailbox(state, menuPresent, m) then state
    else
      var s := st.GetOr(Stat(0, 0, 0, 0, 0, 0));
      var mb := m.GetOr(Mailbox([], [], None, MailboxUnknown, 0, false, 0, 0, false));
      var e := FolderFile(s.mode, s.size, s.mtime, s.uid, s.gid, s.nlink, name, desc.GetOr(name),
                          mb.hasNew, mb.msgCount, mb.msgUnread, '\0', false, false, false,
                          m.Some?, st.Some?, false, mb.gen);
      state.(entries := state.entries + [e])
  }

  /** Starts a fresh list; the mailbox-list flag is kept. */
  function InitState(state: BrowserState): (r: BrowserState)
    ensures r.entries == [] && !r.imapBrowse && r.isMailboxList == state.isMailboxList
  {
    BrowserState([], false, state.isMailboxList)
  }

  /** Whether `path` (a link, joined to `folder`) leads to a directory. */
  predicate LinkIsDir(fs: FileSystem, folder: string, path: string)
  {
    var full := ConcatPath(folder, path);
    full in fs.stat && IsDir(fs.stat[full].mode)
  }

  // Reading a directory

  /** The walk that recovers from a deleted directory: while `stat` says
      the directory does not exist, it is cut at its last '/', as long as
      that '/' is not the first character. */
  function WalkUp(fs: FileSystem, d: string): (r: string)
    ensures IsPrefix(r, d)
    ensures r != d ==> d[|r|] == '/' && StatOf(fs, d) == Failed(NoEntry)
    ensures StatOf(fs, r) == Failed(NoEntry) ==> forall j :: 0 < j < |r| ==> r[j] != '/'
    decreases |d|
  {
    if StatOf(fs, d) == Failed(NoEntry) then
      match LastIndexOf(d, '/')
      case Some(i) => if i > 0 then WalkUp(fs, d[..i]) else d
      case None => d
    else d
  }

  /** What the scan consults: the file system, the file mask, the
      configured mailboxes and the mailbox that is open (if any). */
  datatype ScanEnv = ScanEnv(fs: FileSystem, mask: string -> bool, mailboxes: seq<Mailbox>, current: Option<Mailbox>)

  /** Whether a directory entry is listed: not ".", starting with the prefix
      when one is given, matching the mask, and a directory, link or
      regular file by `lstat`. */
  predicate Accepts(env: ScanEnv, d: string, prefix: string, name: string)
  {
    name != "." &&
    (prefix == [] || StartsWith(name, prefix)) &&
    env.mask(name) &&
    var full := ConcatPath(d, name);
    full in env.fs.lstat &&
    var mode := env.fs.lstat[full].mode;
    IsDir(mode) || IsLink(mode) || IsRegular(mode)
  }

  /** The first configured mailbox with the given path. */
  function FindMailbox(mbs: seq<Mailbox>, path: string): (r: Option<Mailbox>)
    ensures r.Some? ==> r.value in mbs && r.value.path == path
    ensures r.None? ==> forall k :: 0 <= k < |mbs| ==> mbs[k].path != path
  {
    if |mbs| == 0 then None
    else if mbs[0].path == path then Some(mbs[0])
    else FindMailbox(mbs[1..], path)
  }

  /** The mailbox an entry stands for; when it is the open mailbox its
      counters are taken from the open one. */
  function EntryMailbox(env: ScanEnv, full: string): (r: Option<Mailbox>)
    ensures r.Some? <==> FindMailbox(env.mailboxes, full).Some?
  {
    match FindMailbox(env.mailboxes, full)
    case None => None
    case Some(mb) =>
      if env.current.Some? && mb.realpath == env.current.value.realpath
      then Some(mb.(msgCount := env.current.value.msgCount, msgUnread := env.current.value.msgUnread))
      else Some(mb)
  }

  /** The `lstat` data stored for an entry: directories and links get size 0. */
  function EntryStat(st: Stat): (r: Stat)
    ensures r == st.(size := r.size)
    ensures IsDir(st.mode) || IsLink(st.mode) ==> r.size == 0
    ensures !IsDir(st.mode) && !IsLink(st.mode) ==> r.size == st.size
  {
    if IsDir(st.mode) || IsLink(st.mode) then st.(size := 0) else st
  }

  /** Whether a listed entry would be a hidden mailbox the list drops. */
  predicate Hidden(env: ScanEnv, state: BrowserState, menuPresent: bool, d: string, name: string)
  {
    HidesMailbox(state, menuPresent, EntryMailbox(env, ConcatPath(d, name)))
  }

  /** What an entry made from a directory listing looks like. */
  predicate ScannedEntry(env: ScanEnv, d: string, prefix: string, e: FolderFile)
  {
    Accepts(env, d, prefix, e.name) && e.local && e.desc == e.name && !e.tagged &&
    var st := env.fs.lstat[ConcatPath(d, e.name)];
    e.mode == st.mode && e.size == EntryStat(st).size &&
    (e.hasMailbox <==> FindMailbox(env.mailboxes, ConcatPath(d, e.name)).Some?)
  }

  /** One scan step: one entry is added for a name exactly when it is
      accepted and not a hidden mailbox, and it is a scanned entry. */
  function ScanOne(env: ScanEnv, state: BrowserState, menuPresent: bool, d: string, prefix: string, name: string)
    : (r: BrowserState)
    ensures r.isMailboxList == state.isMailboxList && r.imapBrowse == state.imapBrowse
    ensures |state.entries| <= |r.entries| && r.entries[..|state.entries|] == state.entries
    ensures forall k :: |state.entries| <= k < |r.entries| ==> ScannedEntry(env, d, prefix, r.entries[k])
    ensures if Accepts(env, d, prefix, name) && !Hidden(env, state, menuPresent, d, name)
            then |r.entries| == |state.entries| + 1 && r.entries[|state.entries|].name == name
            else r.entries == state.entries
  {
    if !Accepts(env, d, prefix, name) then state
    else
      var full := ConcatPath(d, name);
      AddFolder(state, menuPresent, name, None, Some(EntryStat(env.fs.lstat[full])), EntryMailbox(env, full))
  }

  /** The names of a listing that get an entry, in listing order: the
      accepted ones that are not hidden mailboxes. */
  function Listed(env: ScanEnv, state: BrowserState, menuPresent: bool, d: string, prefix: string, names: seq<string>)
    : (r: seq<string>)
    ensures |r| <= |names|
    decreases |names|
  {
    if |names| == 0 then []
    else
      var rest := Listed(env, state, menuPresent, d, prefix, names[1..]);
      if Accepts(env, d, prefix, names[0]) && !Hidden(env, state, menuPresent, d, names[0]) then [names[0]] + rest
      else rest
  }

  /** A name is listed exactly when it is in the listing, accepted and not
      a hidden mailbox. */
  lemma {:induction false} ListedMembers(env: ScanEnv, state: BrowserState, menuPresent: bool, d: string, prefix: string,
                                         names: seq<string>, x: string)
    ensures x in Listed(env, state, menuPresent, d, prefix, names) <==>
              x in names && Accepts(env, d, prefix, x) && !Hidden(env, state, menuPresent, d, x)
    decreases |names|
  {
    if |names| > 0 {
      ListedMembers(env, state, menuPresent, d, prefix, names[1..], x);
      assert x in names <==> x == names[0] || x in names[1..];
    }
  }

  /** Adds the accepted names of a listing, in order, after the old
      entries; ScanNamesLists says which entries exactly. */
  function ScanNames(env: ScanEnv, state: BrowserState, menuPresent: bool, d: string, prefix: string, names: seq<string>)
    : (r: BrowserState)
    ensures r.imapBrowse == state.imapBrowse && r.isMailboxList == state.isMailboxList
    ensures |state.entries| <= |r.entries| && r.entries[..|state.entries|] == state.entries
    ensures forall k :: |state.entries| <= k < |r.entries| ==> ScannedEntry(env, d, prefix, r.entries[k])
    decreases |names|
  {
    if |names| == 0 then state
    else
      var s1 := ScanOne(env, state, menuPresent, d, prefix, names[0]);
      var r := ScanNames(env, s1, menuPresent, d, prefix, names[1..]);
      KeepsScanned(env, d, prefix, state.entries, s1.entries, r.entries);
      assert r.entries[..|state.entries|] == state.entries by {
        assert r.entries[..|s1.entries|][..|state.entries|] == state.entries;
      }
      r
  }

  /** A scan adds exactly one entry for each name of Listed, in its order,
      and nothing else. */
  lemma {:induction false} ScanNamesLists(env: ScanEnv, state: BrowserState, menuPresent: bool, d: string, prefix: string,
                                          names: seq<string>)
    ensures var r := ScanNames(env, state, menuPresent, d, prefix, names);
            Names(r.entries[|state.entries|..]) == Listed(env, state, menuPresent, d, prefix, names)
    decreases |names|
  {
    var r := ScanNames(env, state, menuPresent, d, prefix, names);
    if |names| == 0 {
      assert r.entries[|state.entries|..] == [];
    } else {
      var s1 := ScanOne(env, state, menuPresent, d, prefix, names[0]);
      assert r == ScanNames(env, s1, menuPresent, d, prefix, names[1..]);
      ScanNamesLists(env, s1, menuPresent, d, prefix, names[1..]);
      ListedSameView(env, s1, state, menuPresent, d, prefix, names[1..]);
      ConsListed(state.entries, s1.entries, r.entries, names[0],
                 Accepts(env, d, prefix, names[0]) && !Hidden(env, state, menuPresent, d, names[0]),
                 Listed(env, state, menuPresent, d, prefix, names[1..]), Listed(env, state, menuPresent, d, prefix, names));
    }
  }

  /** Every accepted name that is not a hidden mailbox gets an entry. */
  lemma ScanNamesComplete(env: ScanEnv, state: BrowserState, menuPresent: bool, d: string, prefix: string,
                          names: seq<string>, j: int)
    requires 0 <= j < |names| && Accepts(env, d, prefix, names[j]) && !Hidden(env, state, menuPresent, d, names[j])
    ensures HasEntryNamed(ScanNames(env, state, menuPresent, d, prefix, names).entries, |state.entries|, names[j])
  {
    assert names[j] in names;
    ListedMembers(env, state, menuPresent, d, prefix, names, names[j]);
    ScanNamesLists(env, state, menuPresent, d, prefix, names);
    NamedIn(ScanNames(env, state, menuPresent, d, prefix, names).entries, |state.entries|,
            Listed(env, state, menuPresent, d, prefix, names), names[j]);
  }

  /** ScanNamesComplete for every name of the listing at once. */
  lemma ScanAllComplete(env: ScanEnv, state: BrowserState, menuPresent: bool, d: string, prefix: string,
                        names: seq<string>)
    ensures forall j :: 0 <= j < |names| ==>
              (Accepts(env, d, prefix, names[j]) && !Hidden(env, state, menuPresent, d, names[j]) ==>
               HasEntryNamed(ScanNames(env, state, menuPresent, d, prefix, names).entries, |state.entries|, names[j]))
  {
    forall j | 0 <= j < |names| && Accepts(env, d, prefix, names[j]) && !Hidden(env, state, menuPresent, d, names[j])
      ensures HasEntryNamed(ScanNames(env, state, menuPresent, d, prefix, names).entries, |state.entries|, names[j])
    {
      ScanNamesComplete(env, state, menuPresent, d, prefix, names, j);
    }
  }

  /** Some entry at or after `from` carries the name `x`. */
  predicate HasEntryNamed(es: seq<FolderFile>, from: nat, x: string)
  {
    exists k :: from <= k < |es| && es[k].name == x
  }

  /** A name listed for the tail of a list of entries is the name of one
      of the entries in that tail. */
  lemma NamedIn(es: seq<FolderFile>, from: nat, listed: seq<string>, x: string)
    requires from <= |es| && Names(es[from..]) == listed && x in listed
    ensures HasEntryNamed(es, from, x)
  {
    var i :| 0 <= i < |listed| && listed[i] == x;
    assert es[from..][i] == es[from + i];
  }

  /** The entries a scan step adds, and those of the rest of the scan,
      are scanned entries. */
  lemma KeepsScanned(env: ScanEnv, d: string, prefix: string,
                     before: seq<FolderFile>, mid: seq<FolderFile>, after: seq<FolderFile>)
    requires |before| <= |mid| <= |after| && after[..|mid|] == mid
    requires forall k :: |before| <= k < |mid| ==> ScannedEntry(env, d, prefix, mid[k])
    requires forall k :: |mid| <= k < |after| ==> ScannedEntry(env, d, prefix, after[k])
    ensures forall k :: |before| <= k < |after| ==> ScannedEntry(env, d, prefix, after[k])
  {
    forall k | |before| <= k < |mid|
      ensures ScannedEntry(env, d, prefix, after[k])
    {
      assert after[k] == mid[k];
    }
  }

  /** The names of a list of entries. */
  function Names(es: seq<FolderFile>): (r: seq<string>)
    ensures |r| == |es| && forall k :: 0 <= k < |es| ==> r[k] == es[k].name
  {
    seq(|es|, k requires 0 <= k < |es| => es[k].name)
  }

  /** The bookkeeping of one scan step, on the entry sequences alone. */
  lemma ConsListed(before: seq<FolderFile>, mid: seq<FolderFile>, after: seq<FolderFile>,
                   name: string, added: bool, rest: seq<string>, listed: seq<string>)
    requires |before| <= |mid| && mid[..|before|] == before
    requires if added then |mid| == |before| + 1 && mid[|before|].name == name else mid == before
    requires |mid| <= |after| && after[..|mid|] == mid
    requires Names(after[|mid|..]) == rest
    requires listed == if added then [name] + rest else rest
    ensures |before| <= |after| && after[..|before|] == before
    ensures Names(after[|before|..]) == listed
  {
    assert after[..|before|] == after[..|mid|][..|before|];
    if added {
      assert after[|before|..] == [after[|before|]] + after[|mid|..];
      assert after[|before|] == mid[|before|];
    }
  }

  /** Which names are listed depends on the state only through the
      mailbox-list flag. */
  lemma {:induction false} ListedSameView(env: ScanEnv, a: BrowserState, b: BrowserState, menuPresent: bool, d: string,
                                          prefix: string, names: seq<string>)
    requires a.isMailboxList == b.isMailboxList
    ensures Listed(env, a, menuPresent, d, prefix, names) == Listed(env, b, menuPresent, d, prefix, names)
    decreases |names|
  {
    if |names| > 0 {
      ListedSameView(env, a, b, menuPresent, d, prefix, names[1..]);
    }
  }

  /** The outcome of reading a directory: 0 or -1, the new state (the old
      one on failure), and the directory actually read — the directory
      argument is cut in place while recovering from a deleted directory. */
  datatype Examined = Examined(rc: int, state: BrowserState, dir: string)

  /** Reads directory `d` into a fresh list (the local case). */
  function ExamineDirectory(env: ScanEnv, state: BrowserState, menuPresent: bool, d: string, prefix: string)
    : (r: Examined)
    ensures r.rc == 0 || r.rc == -1
    ensures r.dir == WalkUp(env.fs, d) && IsPrefix(r.dir, d)
    ensures r.rc == -1 ==> r.state == state
    ensures r.rc == 0 <==> r.dir in env.fs.stat && IsDir(env.fs.stat[r.dir].mode) && r.dir in env.fs.dirs
    ensures r.rc == 0 ==> !r.state.imapBrowse && r.state.isMailboxList == state.isMailboxList
    ensures r.rc == 0 ==> forall k :: 0 <= k < |r.state.entries| ==> ScannedEntry(env, r.dir, prefix, r.state.entries[k])
    ensures r.rc == 0 ==> forall j :: 0 <= j < |env.fs.dirs[r.dir]| ==>
              (Accepts(env, r.dir, prefix, env.fs.dirs[r.dir][j]) &&
               !Hidden(env, InitState(state), menuPresent, r.dir, env.fs.dirs[r.dir][j]) ==>
               HasEntryNamed(r.state.entries, 0, env.fs.dirs[r.dir][j]))
  {
    var dir := WalkUp(env.fs, d);
    if dir !in env.fs.stat || !IsDir(env.fs.stat[dir].mode) || dir !in env.fs.dirs then Examined(-1, state, dir)
    else
      var s0 := InitState(state);
      var r := ScanNames(env, s0, menuPresent, dir, prefix, env.fs.dirs[dir]);
      ScanAllComplete(env, s0, menuPresent, dir, prefix, env.fs.dirs[dir]);
      Examined(0, r, dir)
  }

  /** The entries of a directory read are the listed names of the
      directory, one entry each, in the order of the listing. */
  lemma ExamineDirectoryLists(env: ScanEnv, state: BrowserState, menuPresent: bool, d: string, prefix: string)
    ensures var r := ExamineDirectory(env, state, menuPresent, d, prefix);
            r.rc == 0 ==> Names(r.state.entries) == Listed(env, InitState(state), menuPresent, r.dir, prefix, env.fs.dirs[r.dir])
  {
    var r := ExamineDirectory(env, state, menuPresent, d, prefix);
    if r.rc == 0 {
      ScanNamesLists(env, InitState(state), menuPresent, r.dir, prefix, env.fs.dirs[r.dir]);
      assert r.state.entries[|InitState(state).entries|..] == r.state.entries;
    }
  }

  // Placing the cursor

  /** Whether the first entry is the way up (described ".." or "../"). */
  predicate ParentFirst(entries: seq<FolderFile>)
  {
    |entries| > 0 && (entries[0].desc == ".." || entries[0].desc == "../")
  }

  /** The default cursor: the second entry when the first is the way up and
      there is another, otherwise the first; the view scrolls to the top. */
  function HighlightDefault(entries: seq<FolderFile>, m: Menu): (r: Menu)
    ensures r == m.(top := 0, current := r.current)
    ensures r.current == 0 || r.current == 1
    ensures r.current == 1 <==> ParentFirst(entries) && m.max > 1
  {
    if ParentFirst(entries) then SetIndex(m, if m.max > 1 then 1 else 0).(top := 0)
    else SetIndex(m, 0).(top := 0)
  }

  /** Position of the first entry called `name`. */
  function FindName(entries: seq<FolderFile>, name: string): (r: Option<nat>)
    ensures r.Some? ==> r.value < |entries| && entries[r.value].name == name &&
                        forall k :: 0 <= k < r.value ==> entries[k].name != name
    ensures r.None? ==> forall k :: 0 <= k < |entries| ==> entries[k].name != name
  {
    if |entries| == 0 then None
    else if entries[0].name == name then Some(0)
    else match FindName(entries[1..], name)
      case None => None
      case Some(k) => Some(k + 1)
  }

  /** The entry the cursor returns to: the last component of LastDirBackup,
      or for an IMAP path the cleaned-up path itself. */
  function TrackTarget(lastDirBackup: string, backupIsImap: bool, imapClean: string -> string): string
  {
    if backupIsImap then imapClean(lastDirBackup) else AfterLastSlash(lastDirBackup)
  }

  /** The cursor after a new list of `max` entries is in place: the old
      cursor is clamped into the list (to -1 when it is empty) and the view
      goes to the top when it was below the cursor. */
  function ClampCursor(m: Menu, max: nat): (r: Menu)
    ensures r == m.(max := max, current := r.current, top := r.top)
    ensures max > 0 ==> 0 <= r.current < max
    ensures 0 <= m.current < max ==> r.current == m.current
    ensures r.top == m.top || r.top == 0
  {
    var index := m.current;
    var m1 := m.(max := max);
    var m2 := if index >= max then SetIndex(m1, max - 1) else m1;
    var m3 := if index < 0 then SetIndex(m2, 0) else m2;
    if m3.top > index then m3.(top := 0) else m3
  }

  /** Places the cursor on the entry for the directory the browser came
      from when LastDir is a prefix of LastDirBackup and that entry is
      listed, on the default entry otherwise. */
  function PlaceCursor(entries: seq<FolderFile>, m: Menu, lastDir: string, lastDirBackup: string,
                       backupIsImap: bool, imapClean: string -> string): (r: Menu)
    requires m.max == |entries|
    ensures r == m.(current := r.current, top := r.top)
    ensures |entries| > 0 ==> 0 <= r.current < |entries|
    ensures |entries| == 0 ==> r.current == 0
    ensures StartsWith(lastDirBackup, lastDir) &&
            FindName(entries, TrackTarget(lastDirBackup, backupIsImap, imapClean)).Some? ==>
              r.current == FindName(entries, TrackTarget(lastDirBackup, backupIsImap, imapClean)).value && r.top == m.top
    ensures !(StartsWith(lastDirBackup, lastDir) &&
              FindName(entries, TrackTarget(lastDirBackup, backupIsImap, imapClean)).Some?) ==>
              r == HighlightDefault(entries, m)
  {
    if StartsWith(lastDirBackup, lastDir) then
      match FindName(entries, TrackTarget(lastDirBackup, backupIsImap, imapClean))
      case Some(k) => SetIndex(m, k)
      case None => HighlightDefault(entries, m)
    else HighlightDefault(entries, m)
  }

  /** Sets the menu up for a new list: it counts the entries, clears the
      tags, places the cursor and asks for a full redraw. */
  function InitMenu(state: BrowserState, m: Menu, lastDir: string, lastDirBackup: string,
                    backupIsImap: bool, imapClean: string -> string): (r: Menu)
    ensures r.max == |state.entries| && r.numTagged == 0
    ensures r.redraw & RedrawFull != 0 && r.redraw & m.redraw == m.redraw
    ensures r.mtype == m.mtype && r.tagPrefix == m.tagPrefix && r.dialog == m.dialog && r.keys == m.keys
    ensures |state.entries| > 0 ==> 0 <= r.current < |state.entries|
    ensures |state.entries| == 0 ==> r.current == 0
    ensures StartsWith(lastDirBackup, lastDir) &&
            FindName(state.entries, TrackTarget(lastDirBackup, backupIsImap, imapClean)).Some? ==>
              r.current == FindName(state.entries, TrackTarget(lastDirBackup, backupIsImap, imapClean)).value
    ensures !(StartsWith(lastDirBackup, lastDir) &&
              FindName(state.entries, TrackTarget(lastDirBackup, backupIsImap, imapClean)).Some?) ==>
              r.top == 0 && (r.current == 1 <==> ParentFirst(state.entries) && |state.entries| > 1)
  {
    var m1 := ClampCursor(m, |state.entries|).(numTagged := 0);
    var m2 := PlaceCursor(state.entries, m1, lastDir, lastDirBackup, backupIsImap, imapClean);
    QueueRedraw(Some(m2), RedrawFull).value
  }

  /** Coming back up from a subdirectory puts the cursor on that
      subdirectory's entry. */
  lemma TrackingReturnsToChild(state: BrowserState, m: Menu, lastDir: string, child: string, k: nat, imapClean: string -> string)
    requires |lastDir| > 0 && |child| > 0 && !Contains(child, '/')
    requires FindName(state.entries, child) == Some(k)
    ensures InitMenu(state, m, lastDir, ConcatPath(lastDir, child), false, imapClean).current == k
  {
    ConcatPathBasename(lastDir, child);
  }

  // Tagging

  /** Whether an entry is a directory, or a link to one, from LastDir. */
  predicate DirLike(fs: FileSystem, lastDir: string, e: FolderFile)
  {
    IsDir(e.mode) || (IsLink(e.mode) && LinkIsDir(fs, lastDir, e.name))
  }

  /** The browser's tag callback: directories cannot be tagged. */
  function FileTag(entries: seq<FolderFile>, fs: FileSystem, lastDir: string, sel: int, act: int)
    : (r: (seq<FolderFile>, int))
    requires 0 <= sel < |entries|
    ensures |r.0| == |entries|
    ensures forall k :: 0 <= k < |entries| && k != sel ==> r.0[k] == entries[k]
    ensures r.0[sel] == entries[sel].(tagged := r.0[sel].tagged)
    ensures DirLike(fs, lastDir, entries[sel]) ==> r == (entries, 0)
    ensures !DirLike(fs, lastDir, entries[sel]) ==>
              Honours(entries[sel].tagged, act, r.0[sel].tagged) &&
              NetChange(entries[sel].tagged, r.0[sel].tagged, r.1)
  {
    if DirLike(fs, lastDir, entries[sel]) then (entries, 0)
    else
      var after := if act >= 0 then act != 0 else !entries[sel].tagged;
      (entries[sel := entries[sel].(tagged := after)], Bit(after) - Bit(entries[sel].tagged))
  }

  /** How the generic tagging code sees the browser's entries. */
  function Rows(entries: seq<FolderFile>, fs: FileSystem, lastDir: string): (r: seq<Tagging.Row>)
    ensures |r| == |entries|
    ensures forall k :: 0 <= k < |entries| ==>
              r[k] == Tagging.Row(entries[k].tagged, !DirLike(fs, lastDir, entries[k]))
  {
    seq(|entries|, k requires 0 <= k < |entries| => Tagging.Row(entries[k].tagged, !DirLike(fs, lastDir, entries[k])))
  }

  /** The browser's tag callback is the generic one on rows whose
      directories refuse tags. */
  lemma FileTagIsTagRow(entries: seq<FolderFile>, fs: FileSystem, lastDir: string, sel: int, act: int)
    requires 0 <= sel < |entries|
    ensures Rows(FileTag(entries, fs, lastDir, sel, act).0, fs, lastDir) ==
            Tagging.TagRow(Rows(entries, fs, lastDir), sel, act).0
    ensures FileTag(entries, fs, lastDir, sel, act).1 == Tagging.TagRow(Rows(entries, fs, lastDir), sel, act).1
  {
    var a := Rows(FileTag(entries, fs, lastDir, sel, act).0, fs, lastDir);
    var b := Tagging.TagRow(Rows(entries, fs, lastDir), sel, act).0;
    assert |a| == |b|;
    forall k | 0 <= k < |a| ensures a[k] == b[k] {
    }
  }

  // Paths

  /** The parent of a local path: one trailing '/' is dropped and the path
      is cut at its last '/'; when that '/' is the first character or there
      is none, the parent is the root. */
  function LocalParent(p: string): (r: string)
    ensures p == [] ==> r == []
    ensures p != [] ==> r == "/" || (|r| < |p| && IsPrefix(r, p) && |r| > 0 && p[|r|] == '/')
  {
    if |p| == 0 then p
    else
      var q := if p[|p| - 1] == '/' then p[..|p| - 1] else p;
      match LastIndexOf(q, '/')
      case Some(i) => if i > 0 then q[..i] else "/"
      case None => "/"
  }

  /** The parent of `ConcatPath(d, n)` is `d`, for a plain name `n`. */
  lemma {:induction false} LocalParentOfChild(d: string, n: string)
    requires d == "/" || (|d| > 0 && d[|d| - 1] != '/')
    requires |n| > 0 && !Contains(n, '/')
    ensures LocalParent(ConcatPath(d, n)) == d
  {
    var p := ConcatPath(d, n);
    if d == "/" {
      assert p == "/" + n;
      assert p[0] == '/';
      assert LastIndexOf(p, '/') == Some(0);
    } else {
      assert p == d + "/" + n;
      assert p[|d|] == '/';
      assert LastIndexOf(p, '/') == Some(|d|);
    }
  }

  /** The parent path by mailbox kind: IMAP and notmuch have rules of their
      own (the IMAP rule is not part of this model; notmuch gives $folder). */
  function ParentPath(p: string, kind: MailboxType, imapParent: string -> string, folder: Option<string>): (r: string)
    ensures kind == Imap ==> r == imapParent(p)
    ensures kind == Notmuch ==> r == folder.GetOr([])
    ensures kind != Imap && kind != Notmuch && p != [] ==>
              r == "/" || (|r| < |p| && IsPrefix(r, p) && |r| > 0 && p[|r|] == '/')
  {
    if kind == Imap then imapParent(p)
    else if kind == Notmuch then folder.GetOr([])
    else LocalParent(p)
  }

  /** Remembering a selected path: LastDirBackup becomes the path, LastDir
      its parent. */
  function SelectDir(f: string, kind: MailboxType, imapParent: string -> string, folder: Option<string>)
    : (r: (string, string))
    ensures r.1 == f
    ensures r.0 == ParentPath(f, kind, imapParent, folder)
  {
    (ParentPath(f, kind, imapParent, folder), f)
  }

  /** After remembering a local path inside a directory, the browser shows
      that directory and tracks its entry. */
  lemma SelectDirTracks(d: string, n: string, imapParent: string -> string, folder: Option<string>)
    requires |d| > 0 && d[0] == '/' && (d == "/" || d[|d| - 1] != '/')
    requires |n| > 0 && !Contains(n, '/')
    ensures var (lastDir, backup) := SelectDir(ConcatPath(d, n), Mbox, imapParent, folder);
            lastDir == d && StartsWith(backup, lastDir) && AfterLastSlash(backup) == n
  {
    LocalParentOfChild(d, n);
    ConcatPathBasename(d, n);
  }

  /** Index of the last '/' after the first character, or 0 when there is
      none. */
  function LastSlashAfterFirst(s: string): (i: nat)
    ensures i < |s| || (i == 0 && s == [])
    ensures i > 0 ==> s[i] == '/' && forall j :: i < j < |s| ==> s[j] != '/'
    ensures i == 0 ==> forall j :: 0 < j < |s| ==> s[j] != '/'
  {
    if |s| == 0 then 0
    else match LastIndexOf(s[1..], '/')
      case Some(k) => k + 1
      case None => 0
  }

  /** Splits the path the browser is started with into the directory to
      show and the prefix its entries must start with; a relative path is
      taken from the working directory `cwd`. */
  function SplitFile(file: string, cwd: string): (r: (string, string))
    ensures IsSuffix(r.1, file) && !Contains(r.1, '/')
    ensures |file| > 0 && file[0] == '/' ==> r.0 == "/" || (|r.0| < |file| && IsPrefix(r.0, file) && file[|r.0|] == '/')
    ensures !(|file| > 0 && file[0] == '/') ==> IsPrefix(cwd, r.0)
  {
    var i := LastSlashAfterFirst(file);
    var absolute := |file| > 0 && file[0] == '/';
    var lastDir :=
      if i > 0 then (if absolute then file[..i] else cwd + "/" + file[..i])
      else if absolute then "/" else cwd;
    var prefix := if i == 0 && !absolute then file else file[i + 1..];
    (lastDir, prefix)
  }

  /** The split loses nothing: joining directory and prefix again gives
      the path back (relative paths gain the working directory). */
  lemma SplitFileRoundTrip(file: string, cwd: string)
    requires |file| > 0
    ensures var (lastDir, prefix) := SplitFile(file, cwd);
            !Contains(prefix, '/') &&
            (file[0] == '/' && LastSlashAfterFirst(file) > 0 ==> lastDir + "/" + prefix == file) &&
            (file[0] == '/' && LastSlashAfterFirst(file) == 0 ==> lastDir == "/" && lastDir + prefix == file) &&
            (file[0] != '/' && LastSlashAfterFirst(file) > 0 ==> lastDir + "/" + prefix == cwd + "/" + file) &&
            (file[0] != '/' && LastSlashAfterFirst(file) == 0 ==> lastDir == cwd && prefix == file)
  {
    var i := LastSlashAfterFirst(file);
    if i > 0 {
      assert file[..i] + "/" + file[i + 1..] == file;
    } else if file[0] == '/' {
      assert "/" + file[1..] == file;
    }
  }

  /** The other direction: a directory and a '/'-free name joined by '/'
      split back into the two. */
  lemma {:induction false} SplitFileOfJoin(d: string, n: string, cwd: string)
    requires |d| > 0 && d[0] == '/' && !Contains(n, '/')
    ensures SplitFile(d + "/" + n, cwd) == (d, n)
  {
    var f := d + "/" + n;
    assert f[|d|] == '/';
    forall j | |d| < j < |f| ensures f[j] != '/' { assert f[j] == n[j - |d| - 1]; }
    assert LastSlashAfterFirst(f) == |d|;
    assert f[..|d|] == d && f[|d| + 1..] == n;
  }

  /** Drops every trailing '/'. */
  function StripTrailingSlashes(s: string): (r: string)
    ensures IsPrefix(r, s)
    ensures r == [] || r[|r| - 1] != '/'
    ensures forall j :: |r| <= j < |s| ==> s[j] == '/'
    decreases |s|
  {
    if |s| > 0 && s[|s| - 1] == '/' then StripTrailingSlashes(s[..|s| - 1]) else s
  }
}

=== FILE: browser_format.dfy ===
/** The expandos of $folder_format that depend only on the entry: its
    number, its name with a type mark, its permission string, and the new
    mail and tag marks. Field widths and padding are not part of the model. */
module BrowserFormat {
  import opened Common
  import opened Posix
  import opened Browser

  /** The mark after a local entry's name: '@' for a link, '/' for a
      directory, '*' for a file the owner may execute. */
  function TypeMark(e: FolderFile): (r: string)
    ensures r == "@" <==> e.local && IsLink(e.mode)
    ensures r == "/" <==> e.local && IsDir(e.mode)
    ensures r == "*" <==> e.local && !IsLink(e.mode) && !IsDir(e.mode) && HasBit(e.mode, UserExec)
    ensures r == "" <==> !e.local || (!IsLink(e.mode) && !IsDir(e.mode) && !HasBit(e.mode, UserExec))
  {
    if !e.local then ""
    else if IsLink(e.mode) then "@"
    else if IsDir(e.mode) then "/"
    else if HasBit(e.mode, UserExec) then "*"
    else ""
  }

  /** One permission character: `shown` when the bit is set, '-' otherwise. */
  function Flag(m: Mode, bit: Mode, shown: char): (c: char)
    requires shown != '-'
    ensures c == shown <==> HasBit(m, bit)
    ensures c == shown || c == '-'
  {
    if HasBit(m, bit) then shown else '-'
  }

  /** An execute position: `special` when the special bit is set (whatever
      the execute bit), 'x' when only the execute bit is. */
  function ExecFlag(m: Mode, specialBit: Mode, special: char, execBit: Mode): (c: char)
    requires special != 'x' && special != '-'
    ensures c == special <==> HasBit(m, specialBit)
    ensures c == 'x' <==> !HasBit(m, specialBit) && HasBit(m, execBit)
  {
    if HasBit(m, specialBit) then special else if HasBit(m, execBit) then 'x' else '-'
  }

  /** The file-type character: 'd' for a directory, 'l' for a link. */
  function TypeChar(m: Mode): (c: char)
    ensures c == 'd' <==> IsDir(m)
    ensures c == 'l' <==> IsLink(m)
    ensures c == '-' <==> !IsDir(m) && !IsLink(m)
  {
    if IsDir(m) then 'd' else if IsLink(m) then 'l' else '-'
  }

  /** The ten-character permission string of `ls -l`. */
  function Permissions(m: Mode): (r: string)
    ensures |r| == 10
    ensures r[0] == 'd' <==> IsDir(m)
    ensures r[0] == 'l' <==> IsLink(m)
    ensures r[0] == '-' <==> !IsDir(m) && !IsLink(m)
    ensures (r[1] == 'r' <==> HasBit(m, UserRead)) && (r[4] == 'r' <==> HasBit(m, GroupRead)) &&
            (r[7] == 'r' <==> HasBit(m, OtherRead))
    ensures (r[2] == 'w' <==> HasBit(m, UserWrite)) && (r[5] == 'w' <==> HasBit(m, GroupWrite)) &&
            (r[8] == 'w' <==> HasBit(m, OtherWrite))
    ensures (r[3] == 's' <==> HasBit(m, SetUid)) && (r[3] == 'x' <==> !HasBit(m, SetUid) && HasBit(m, UserExec))
    ensures (r[6] == 's' <==> HasBit(m, SetGid)) && (r[6] == 'x' <==> !HasBit(m, SetGid) && HasBit(m, GroupExec))
    ensures (r[9] == 't' <==> HasBit(m, Sticky)) && (r[9] == 'x' <==> !HasBit(m, Sticky) && HasBit(m, OtherExec))
  {
    [TypeChar(m),
     Flag(m, UserRead, 'r'), Flag(m, UserWrite, 'w'), ExecFlag(m, SetUid, 's', UserExec),
     Flag(m, GroupRead, 'r'), Flag(m, GroupWrite, 'w'), ExecFlag(m, SetGid, 's', GroupExec),
     Flag(m, OtherRead, 'r'), Flag(m, OtherWrite, 'w'), ExecFlag(m, Sticky, 't', OtherExec)]
  }

  /** Reads the permission bits back from a permission string. The special
      bits hide the execute bits under them. */
  function PermissionBits(s: string): (m: Mode)
    requires |s| == 10
  {
    (if s[1] == 'r' then UserRead else 0) | (if s[2] == 'w' then UserWrite else 0) |
    (if s[3] == 's' then SetUid else if s[3] == 'x' then UserExec else 0) |
    (if s[4] == 'r' then GroupRead else 0) | (if s[5] == 'w' then GroupWrite else 0) |
    (if s[6] == 's' then SetGid else if s[6] == 'x' then GroupExec else 0) |
    (if s[7] == 'r' then OtherRead else 0) | (if s[8] == 'w' then OtherWrite else 0) |
    (if s[9] == 't' then Sticky else if s[9] == 'x' then OtherExec else 0)
  }

  /** Without special bits, the permission string shows every permission
      bit: reading it back gives the mode's permission bits. */
  lemma PermissionsRoundTrip(m: Mode)
    requires m & (SetUid | SetGid | Sticky) == 0
    ensures PermissionBits(Permissions(m)) == m & 0x1FF
  {
  }

  /** The expandos modelled: %C (1-based number), %f (name and mark), %F
      (permissions, or "IMAP +" for an IMAP folder holding both mail and
      subfolders), %i (description and mark), %N (new mail), %t (tagged).
      Any other character stands for itself. */
  function Expando(op: char, e: FolderFile, num: int): (r: string)
  {
    match op
    case 'C' => IntToString(num + 1)
    case 'f' => e.name + TypeMark(e)
    case 'F' =>
      if e.local then Permissions(e.mode)
      else if e.isImap then "IMAP " + [if e.inferiors && e.selectable then '+' else ' ']
      else ""
    case 'i' => e.desc + TypeMark(e)
    case 'N' => [if e.hasNewMail then 'N' else ' ']
    case 't' => [if e.tagged then '*' else ' ']
    case _ => [op]
  }

  /** %C shows the entry's 1-based number. */
  lemma NumberShown(e: FolderFile, num: int)
    requires 0 <= num < IntMax
    ensures ParseInt(Expando('C', e, num)) == Some(num + 1)
  {
    IntToStringRoundTrip(num + 1);
  }

  /** %f shows the name, then one mark telling the local entry's type. */
  lemma NameShown(e: FolderFile)
    ensures IsPrefix(e.name, Expando('f', e, 0))
    ensures |Expando('f', e, 0)| <= |e.name| + 1
    ensures Expando('f', e, 0) == e.name + "/" ==> e.local && IsDir(e.mode)
  {
    assert Expando('f', e, 0)[..|e.name|] == e.name;
  }

  /** %t and %N show a mark exactly when the entry is tagged or has new
      mail. */
  lemma MarksShown(e: FolderFile)
    ensures Expando('t', e, 0) == "*" <==> e.tagged
    ensures Expando('N', e, 0) == "N" <==> e.hasNewMail
    ensures |Expando('t', e, 0)| == 1 && |Expando('N', e, 0)| == 1
  {
  }
}

=== FILE: browser_functions.dfy ===
/** The file browser's functions: moving between directories, choosing
    entries, the file mask, sorting, switching to the mailbox list or to
    $folder, the IMAP mailbox operations, and the table that dispatches
    them. Every function returns what it did and the session it leaves. */
module BrowserFunctions {
  import opened Common
  import opened Posix
  import Op = Opcodes
  import opened Menus
  import opened Browser
  import opened BrowserSession

  /** The replies the user gives to the prompts a function may ask:
      a text prompt, the sort menu (-1 when aborted, else 1 to 7), a yes/no
      question, whether the server accepted a request, and whether the file
      to view could be read. */
  datatype Answers = Answers(reply: Reply, choice: int, confirm: bool, serverOk: bool, viewable: bool)

  /** The entry under the cursor. */
  function Selected(s: Session): FolderFile
    requires Wf(s) && |s.state.entries| > 0
  {
    s.state.entries[s.menu.current]
  }

  // New file, tell, view

  /** Asks for a new file name (the prompt starts as LastDir and a '/');
      the answer becomes the chosen file and ends the browser. */
  function OpNewFile(s: Session, reply: Reply): (r: (Session, Retval))
    ensures reply.ok ==> r == (s.(file := reply.text), Done)
    ensures !reply.ok ==> r == (s, NoAction)
  {
    if reply.ok then (s.(file := reply.text), Done) else (s, NoAction)
  }

  /** Shows the selected entry's name; an empty list is an error. */
  function OpTell(s: Session): (r: Retval)
    ensures r == Error <==> |s.state.entries| == 0
    ensures r == Success || r == Error
  {
    if |s.state.entries| == 0 then Error else Success
  }

  /** Views the selected file. An IMAP folder that can be selected is
      chosen instead; a directory cannot be viewed. */
  function OpViewFile(s: Session, env: Env, viewable: bool): (r: (Session, Retval))
    requires Wf(s)
    ensures |s.state.entries| == 0 ==> r == (s, Error)
    ensures r.1 == Done <==> |s.state.entries| > 0 && Selected(s).selectable
    ensures r.1 == Done ==> r.0 == s.(file := Selected(s).name)
    ensures r.1 != Done ==> r.1 == Error && r.0 == s.(menu := r.0.menu) && r.0.menu == s.menu.(redraw := r.0.menu.redraw)
  {
    if |s.state.entries| == 0 then (s, Error)
    else
      var e := Selected(s);
      if e.selectable then (s.(file := e.name), Done)
      else if DirLike(env.fs, s.lastDir, e) then (s, Error)
      else if viewable then (s.(menu := QueueRedraw(Some(s.menu), RedrawFull).value), Error)
      else (s, Error)
  }

  // Moving between directories

  /** The directory ".." leads to from `d`: a path already ending in ".."
      gets another "/.."; otherwise the path is cut at its last '/' after
      the first character; a path without one becomes the root when it is
      absolute and gets "/.." when it is relative. */
  function Ascend(d: string): (r: string)
    ensures |d| > 1 && IsSuffix("..", d) ==> r == d + "/.."
    ensures !(|d| > 1 && IsSuffix("..", d)) ==>
              r == "/" || r == d + "/.." || (|r| < |d| && IsPrefix(r, d) && |r| > 0 && d[|r|] == '/')
  {
    if |d| > 1 && IsSuffix("..", d) then d + "/.."
    else
      var p := if |d| > 1 then LastSlashAfterFirst(d) else 0;
      if p > 0 then d[..p]
      else if |d| > 0 && d[0] == '/' then "/"
      else d + "/.."
  }

  /** Going down into `n` and back up with ".." returns to the same
      directory. */
  lemma {:induction false} AscendAfterDescend(d: string, n: string)
    requires d == "/" || (|d| > 0 && d[|d| - 1] != '/')
    requires |n| > 0 && !Contains(n, '/') && !IsSuffix("..", n)
    ensures Ascend(ConcatPath(d, n)) == d
  {
    var a := if d == "/" then "/" else d + "/";
    assert ConcatPath(d, n) == a + n;
    JoinedNotDotDot(a, n);
    LastSlashOfJoin(a, n);
    if d != "/" {
      assert (a + n)[..|d|] == d;
    }
  }

  /** A name not ending in ".." still does not after a directory part. */
  lemma JoinedNotDotDot(a: string, n: string)
    requires |a| > 0 && a[|a| - 1] == '/' && |n| > 0 && !IsSuffix("..", n)
    ensures !IsSuffix("..", a + n)
  {
    var s := a + n;
    if |n| == 1 {
      assert s[|s| - 2] == '/';
    } else {
      assert s[|s| - 2..] == n[|n| - 2..];
    }
  }

  /** The last '/' of a directory part followed by a '/'-free name is the
      one that ends the directory part. */
  lemma LastSlashOfJoin(a: string, n: string)
    requires |a| > 0 && a[|a| - 1] == '/' && !Contains(n, '/')
    ensures LastSlashAfterFirst(a + n) == |a| - 1
  {
    var s := a + n;
    var i := LastSlashAfterFirst(s);
    assert forall j :: |a| <= j < |s| ==> s[j] != '/' by {
      forall j | |a| <= j < |s| ensures s[j] != '/' {
        assert s[j] == n[j - |a|];
      }
    }
    assert s[|a| - 1] == '/';
  }

  /** Entering a subdirectory `n` of a local directory and then entering
      ".." returns LastDir to where it was, when both directories can be
      read and are their own real paths. */
  lemma DescendThenAscend(s: Session, env: Env, e: FolderFile, up: FolderFile)
    requires !s.state.imapBrowse && !s.state.isMailboxList
    requires s.lastDir == "/" || (|s.lastDir| > 0 && s.lastDir[|s.lastDir| - 1] != '/')
    requires |e.name| > 0 && !Contains(e.name, '/') && !IsSuffix("..", e.name) && up.name == ".."
    requires ReadableDir(env.fs, ConcatPath(s.lastDir, e.name)) && ReadableDir(env.fs, s.lastDir)
    requires env.realpath(ConcatPath(s.lastDir, e.name)) == Some(ConcatPath(s.lastDir, e.name))
    requires env.realpath(s.lastDir) == Some(s.lastDir)
    ensures var down := Enter(s, env, e).0;
            down.lastDir == ConcatPath(s.lastDir, e.name) && Enter(down, env, up).0.lastDir == s.lastDir
  {
    var c := ConcatPath(s.lastDir, e.name);
    assert e.name != "..";
    var p := Prepared(s, env, e);
    assert p.lastDir == c;
    ReadableExamined(env, p, c, p.prefix);
    var down := Enter(s, env, e).0;
    assert !down.state.imapBrowse;
    AscendAfterDescend(s.lastDir, e.name);
    var p2 := Prepared(down, env, up);
    assert p2.lastDir == s.lastDir;
    ReadableExamined(env, p2, s.lastDir, p2.prefix);
  }

  /** The directory an entry leads to. */
  function DescendTarget(s: Session, env: Env, e: FolderFile): (r: string)
    ensures e.name == ".." ==> r == Ascend(s.lastDir)
    ensures e.name != ".." && s.state.isMailboxList ==> r == env.expand(e.name)
    ensures e.name != ".." && !s.state.isMailboxList && s.state.imapBrowse ==>
              r == e.name || r == e.name + [e.delim]
    ensures e.name != ".." && !s.state.isMailboxList && !s.state.imapBrowse ==>
              IsPrefix(s.lastDir, r) && IsSuffix(e.name, r)
    ensures e.name != ".." && !s.state.isMailboxList && !s.state.imapBrowse &&
              |s.lastDir| > 0 && |e.name| > 0 && !Contains(e.name, '/') ==>
              AfterLastSlash(r) == e.name
  {
    if e.name == ".." then Ascend(s.lastDir)
    else if s.state.isMailboxList then env.expand(e.name)
    else if s.state.imapBrowse then
      (if env.imapHasPath(e.name) && e.delim != '\0' then e.name + [e.delim] else e.name)
    else
      JoinedBasename(s.lastDir, e.name);
      ConcatPath(s.lastDir, e.name)
  }

  /** Enters the directory an entry leads to. A local directory that cannot
      be read sends the browser back to where it was, and when that fails
      too, LastDir becomes the home directory and the browser ends. The
      browser also ends after a successful move, with the swapped-out
      directory of the $folder toggle forgotten. */
  function Enter(s: Session, env: Env, e: FolderFile): (r: (Session, Retval))
    ensures r.1 == Done
    ensures r.0.oldLastDir == s.lastDir
    ensures !r.0.state.isMailboxList
    ensures r.0.prefix == (if s.killPrefix then [] else s.prefix) && !r.0.killPrefix
    ensures s.state.imapBrowse ==>
              r.0.lastDir == DescendTarget(s, env, e) && r.0.state.entries == env.imapList(r.0.lastDir) &&
              r.0.gotoSwapper == [] && Wf(r.0)
    ensures !s.state.imapBrowse ==>
              var p := Prepared(s, env, e);
              var ex := Examine(env, p, p.lastDir, p.prefix);
              var ex2 := Examine(env, p, s.lastDir, p.prefix);
              (ex.rc == 0 && env.realpath(ex.dir).Some? ==>
                 r.0.state == ex.state && r.0.lastDir == env.realpath(ex.dir).value && r.0.gotoSwapper == [] && Wf(r.0)) &&
              (ex.rc == -1 && ex2.rc == -1 ==> r.0.lastDir == env.home)
    ensures !s.state.imapBrowse ==>
              var p := Prepared(s, env, e);
              var ex := Examine(env, p, p.lastDir, p.prefix);
              var ex2 := Examine(env, p, s.lastDir, p.prefix);
              (ex.rc == 0 && env.realpath(ex.dir).None? ==> r.0.state == ex.state && r.0.lastDir == ex.dir) &&
              (ex.rc == -1 && ex2.rc == 0 && env.realpath(ex2.dir).Some? ==>
                 r.0.state == ex2.state && r.0.lastDir == env.realpath(ex2.dir).value && r.0.gotoSwapper == [] && Wf(r.0)) &&
              (ex.rc == -1 && ex2.rc == 0 && env.realpath(ex2.dir).None? ==>
                 r.0.state == ex2.state && r.0.lastDir == ex2.dir)
  {
    var s3 := Prepared(s, env, e);
    var target := s3.lastDir;
    if s3.state.imapBrowse then
      var s4 := ImapRelist(env, s3, target);
      (Refresh(env, s4.(menu := HighlightDefault(s4.state.entries, s4.menu))).(gotoSwapper := []), Done)
    else
      var ex := Examine(env, s3, target, s3.prefix);
      if ex.rc == -1 then
        var ex2 := Examine(env, s3, s.lastDir, s3.prefix);
        if ex2.rc == -1 then (s3.(lastDir := env.home), Done)
        else Resolved(env, s3.(state := ex2.state, lastDir := ex2.dir))
      else Resolved(env, s3.(state := ex.state, lastDir := ex.dir))
  }

  /** The session just before the new directory is read: the old LastDir
      saved, the new one set, the list emptied, the file-name prefix of the
      start dropped when asked for, and the directory view on. */
  function Prepared(s: Session, env: Env, e: FolderFile): (r: Session)
    ensures r.lastDir == DescendTarget(s, env, e) && r.oldLastDir == s.lastDir
    ensures r.state == s.state.(entries := [], isMailboxList := false)
    ensures r.prefix == (if s.killPrefix then [] else s.prefix) && !r.killPrefix
    ensures r.mask == s.mask && r.gotoSwapper == s.gotoSwapper
  {
    var s1 := Destroy(s).(oldLastDir := s.lastDir, lastDir := DescendTarget(s, env, e));
    var s2 := if s1.killPrefix then s1.(prefix := [], killPrefix := false) else s1;
    s2.(state := s2.state.(isMailboxList := false))
  }

  /** Resolves LastDir to its real path after a move; when that fails the
      browser ends where it is. */
  function Resolved(env: Env, s: Session): (r: (Session, Retval))
    ensures r.1 == Done
    ensures r.0.state == s.state
    ensures env.realpath(s.lastDir).None? ==> r.0 == s
    ensures env.realpath(s.lastDir).Some? ==> r.0.lastDir == env.realpath(s.lastDir).value && r.0.gotoSwapper == [] && Wf(r.0)
  {
    match env.realpath(s.lastDir)
    case None => (s, Done)
    case Some(p) =>
      var s1 := s.(lastDir := p);
      (Refresh(env, s1.(menu := HighlightDefault(s1.state.entries, s1.menu))).(gotoSwapper := []), Done)
  }

  /** The path the chosen entry stands for. */
  function ChosenPath(s: Session, env: Env, e: FolderFile): (r: string)
    ensures s.state.isMailboxList ==> r == env.expand(e.name)
    ensures !s.state.isMailboxList && s.state.imapBrowse ==> r == e.name
    ensures !s.state.isMailboxList && !s.state.imapBrowse ==> IsPrefix(s.lastDir, r) && IsSuffix(e.name, r)
    ensures !s.state.isMailboxList && !s.state.imapBrowse &&
              |s.lastDir| > 0 && |e.name| > 0 && !Contains(e.name, '/') ==>
              AfterLastSlash(r) == e.name
  {
    if s.state.isMailboxList then env.expand(e.name)
    else if s.state.imapBrowse then e.name
    else
      JoinedBasename(s.lastDir, e.name);
      ConcatPath(s.lastDir, e.name)
  }

  /** Selects the entry under the cursor: a directory (or a link to one,
      or an IMAP folder with subfolders) is entered when descending is
      asked for or it is not a mailbox; anything else is chosen, which
      ends the browser. Descending into a non-directory is an error. */
  function OpGenericSelectEntry(s: Session, env: Env, op: int): (r: (Session, Retval))
    requires Wf(s)
    ensures |s.state.entries| == 0 ==> r == (s, Error)
    ensures r.1 == Done || r.1 == Error
    ensures r.1 == Error && |s.state.entries| > 0 ==>
              (r.0 == s && op == Op.DescendDirectory &&
               !DirLike(env.fs, s.lastDir, Selected(s)) && !Selected(s).inferiors)
    ensures |s.state.entries| > 0 && !(DirLike(env.fs, s.lastDir, Selected(s)) || Selected(s).inferiors) &&
            op != Op.DescendDirectory ==>
              r == OpExit(s.(file := ChosenPath(s, env, Selected(s))), env)
    ensures |s.state.entries| > 0 && (DirLike(env.fs, s.lastDir, Selected(s)) || Selected(s).inferiors) ==>
              var kind := env.probe(ChosenPath(s, env, Selected(s)));
              r == (if op == Op.DescendDirectory || kind == MailboxError || kind == MailboxUnknown || Selected(s).inferiors
                    then Enter(s, env, Selected(s))
                    else OpExit(s.(file := ChosenPath(s, env, Selected(s))), env))
  {
    if |s.state.entries| == 0 then (s, Error)
    else
      var e := Selected(s);
      if DirLike(env.fs, s.lastDir, e) || e.inferiors then
        var kind := env.probe(ChosenPath(s, env, e));
        if op == Op.DescendDirectory || kind == MailboxError || kind == MailboxUnknown || e.inferiors then
          Enter(s, env, e)
        else OpExit(s.(file := ChosenPath(s, env, e)), env)
      else if op == Op.DescendDirectory then (s, Error)
      else OpExit(s.(file := ChosenPath(s, env, e)), env)
  }

  /** Descending into a readable local subdirectory enters it: LastDir
      becomes the subdirectory and the list holds exactly the names of its
      listing that the scan accepts. */
  lemma DescendSelectsSubdirectory(s: Session, env: Env)
    requires Wf(s) && |s.state.entries| > 0
    requires !s.state.imapBrowse && !s.state.isMailboxList
    requires DirLike(env.fs, s.lastDir, Selected(s))
    requires var n := Selected(s).name;
             |s.lastDir| > 0 && |n| > 0 && !Contains(n, '/') && n != ".."
    requires ReadableDir(env.fs, ConcatPath(s.lastDir, Selected(s).name))
    requires env.realpath(ConcatPath(s.lastDir, Selected(s).name)) == Some(ConcatPath(s.lastDir, Selected(s).name))
    ensures var r := OpGenericSelectEntry(s, env, Op.DescendDirectory);
            var c := ConcatPath(s.lastDir, Selected(s).name);
            var p := Prepared(s, env, Selected(s));
            r.1 == Done && r.0.lastDir == c && r.0.oldLastDir == s.lastDir && Wf(r.0) &&
            Names(r.0.state.entries) == Listed(ScanEnvOf(env, s.mask), InitState(p.state), true, c, p.prefix, env.fs.dirs[c])
  {
    var e := Selected(s);
    var c := ConcatPath(s.lastDir, e.name);
    var p := Prepared(s, env, e);
    assert p.lastDir == c;
    ReadableExamined(env, p, c, p.prefix);
    ExamineDirectoryLists(ScanEnvOf(env, p.mask), p.state, true, c, p.prefix);
  }

  /** Changes directory (to the answer of the prompt) or goes to the
      parent. The prompt and the parent start from LastDir with a '/'
      added when it has none (outside IMAP). A relative answer is taken
      from LastDir; the result is resolved with `realpath` (the browser
      ends when that fails) and read when it is a directory; when reading
      fails the browser reads LastDir again and ends if that fails too. */
  function OpChangeDirectory(s: Session, env: Env, op: int, reply: Reply): (r: (Session, Retval))
    ensures op == Op.ChangeDirectory && !reply.ok && reply.text == [] ==> r == (s, NoAction)
    ensures op == Op.ChangeDirectory && (reply.ok || reply.text != []) ==> r == Chdir(s, env, reply.text)
    ensures op == Op.GotoParent ==>
              r == Chdir(s, env, ParentPath(Slashed(s), env.probe(Slashed(s)), env.imapParent, env.folder))
    ensures op != Op.ChangeDirectory && op != Op.GotoParent ==> r == Chdir(s, env, Slashed(s))
    ensures r.1 == NoAction || r.1 == Error || r.1 == Done
    ensures r.1 != Done && Wf(s) ==> Wf(r.0)
  {
    var base := Slashed(s);
    if op == Op.ChangeDirectory && !reply.ok && reply.text == [] then (s, NoAction)
    else
      var buf := if op == Op.ChangeDirectory then reply.text
                 else if op == Op.GotoParent then ParentPath(base, env.probe(base), env.imapParent, env.folder)
                 else base;
      Chdir(s, env, buf)
  }

  /** LastDir as the prompt and the parent see it: with a '/' added when
      it has none, outside IMAP. */
  function Slashed(s: Session): (r: string)
    ensures s.state.imapBrowse || s.lastDir == [] || s.lastDir[|s.lastDir| - 1] == '/' ==> r == s.lastDir
    ensures !s.state.imapBrowse && s.lastDir != [] && s.lastDir[|s.lastDir| - 1] != '/' ==>
              r == s.lastDir + "/" && r[..|s.lastDir|] == s.lastDir && r[|r| - 1] == '/'
  {
    if !s.state.imapBrowse && |s.lastDir| > 0 && s.lastDir[|s.lastDir| - 1] != '/' then s.lastDir + "/" else s.lastDir
  }

  /** Where a path typed or computed for a directory change leads: nothing
      is an error; an IMAP path is listed and becomes LastDir; a local one
      is taken from LastDir when relative, resolved with `realpath` (the
      browser ends when that fails) and read by ChangeTo. */
  function Chdir(s: Session, env: Env, buf: string): (r: (Session, Retval))
    ensures buf == [] ==> r == (s, Error)
    ensures buf != [] && env.probe(env.expand(buf)) == Imap ==>
              r.1 == Error && Wf(r.0) && r.0.lastDir == env.expand(buf) &&
              r.0.state.imapBrowse && r.0.state.entries == env.imapList(env.expand(buf))
    ensures buf != [] && env.probe(env.expand(buf)) != Imap ==>
              var q := env.realpath(FromLastDir(s.lastDir, env.expand(buf)));
              (q.None? ==> r == (s.(state := s.state.(isMailboxList := false)), Done)) &&
              (q.Some? ==> r == ChangeTo(s.(state := s.state.(isMailboxList := false)), env, q.value))
    ensures r.1 == Error || r.1 == Done
    ensures r.1 != Done && Wf(s) ==> Wf(r.0)
  {
    if buf == [] then (s, Error)
    else
      var s1 := s.(state := s.state.(isMailboxList := false));
      var path := env.expand(buf);
      if env.probe(path) == Imap then
        var s2 := ImapRelist(env, Destroy(s1).(lastDir := path), path);
        (Refresh(env, s2.(menu := HighlightDefault(s2.state.entries, s2.menu))), Error)
      else
        match env.realpath(FromLastDir(s.lastDir, path))
        case None => (s1, Done)
        case Some(resolved) => ChangeTo(s1, env, resolved)
  }

  /** A path as seen from LastDir: absolute ones stay, relative ones are
      joined to LastDir (not to the working directory). */
  function FromLastDir(lastDir: string, path: string): (r: string)
    ensures |path| > 0 && path[0] == '/' ==> r == path
    ensures !(|path| > 0 && path[0] == '/') ==> IsPrefix(lastDir, r) && IsSuffix(path, r)
  {
    if |path| > 0 && path[0] == '/' then path else ConcatPath(lastDir, path)
  }

  /** The relative path `p` given to the prompt is looked up from LastDir:
      the browser ends when that cannot be resolved, and otherwise reads
      the resolved directory, which becomes LastDir when it can be read. */
  lemma ChangeDirectoryRelative(s: Session, env: Env, p: string)
    requires p != [] && p[0] != '/' && env.expand(p) == p && env.probe(p) != Imap
    ensures var r := OpChangeDirectory(s, env, Op.ChangeDirectory, Reply(true, p));
            var q := env.realpath(ConcatPath(s.lastDir, p));
            (q.None? ==> r.1 == Done) &&
            (q.Some? && ReadableDir(env.fs, q.value) ==> r.1 == Error && r.0.lastDir == q.value && Wf(r.0))
  {
    var r := OpChangeDirectory(s, env, Op.ChangeDirectory, Reply(true, p));
    assert r == Chdir(s, env, p);
    assert FromLastDir(s.lastDir, p) == ConcatPath(s.lastDir, p);
    var q := env.realpath(ConcatPath(s.lastDir, p));
    if q.Some? && ReadableDir(env.fs, q.value) {
      var s1 := s.(state := s.state.(isMailboxList := false));
      assert r == ChangeTo(s1, env, q.value);
      ReadableExamined(env, Destroy(s1), q.value, s1.prefix);
    }
  }

  /** A readable directory is read as itself. */
  lemma ReadableExamined(env: Env, s: Session, d: string, prefix: string)
    requires ReadableDir(env.fs, d)
    ensures Examine(env, s, d, prefix).rc == 0 && Examine(env, s, d, prefix).dir == d
  {
    assert StatOf(env.fs, d).Found?;
  }

  /** Going to the parent of a local directory `d/n` lands in `d` when `d`
      can be read and is its own real path. */
  lemma {:induction false} ParentOfChildDirectory(s: Session, env: Env, d: string, n: string, reply: Reply)
    requires !s.state.imapBrowse
    requires |d| > 0 && d[0] == '/' && (d == "/" || d[|d| - 1] != '/')
    requires |n| > 0 && !Contains(n, '/') && s.lastDir == ConcatPath(d, n)
    requires env.probe(Slashed(s)) != Imap && env.probe(Slashed(s)) != Notmuch
    requires env.expand(d) == d && env.probe(d) != Imap && env.realpath(d) == Some(d) && ReadableDir(env.fs, d)
    ensures var r := OpChangeDirectory(s, env, Op.GotoParent, reply);
            r.1 == Error && r.0.lastDir == d && Wf(r.0)
  {
    var c := ConcatPath(d, n);
    assert c[|c| - 1] == n[|n| - 1] != '/';
    assert Slashed(s) == c + "/";
    assert LocalParent(c + "/") == LocalParent(c) by {
      assert (c + "/")[..|c|] == c;
    }
    LocalParentOfChild(d, n);
    ReadableExamined(env, Destroy(s.(state := s.state.(isMailboxList := false))), d, s.prefix);
  }

  /** Reads directory `resolved` for the prompt of OpChangeDirectory. */
  function ChangeTo(s: Session, env: Env, resolved: string): (r: (Session, Retval))
    ensures r.1 == Error || r.1 == Done
    ensures r.1 == Error && Wf(s) ==> Wf(r.0)
    ensures !(StatOf(env.fs, resolved).Found? && IsDir(StatOf(env.fs, resolved).st.mode)) ==> r == (s, Error)
    ensures StatOf(env.fs, resolved).Found? && IsDir(StatOf(env.fs, resolved).st.mode) && Examine(env, Destroy(s), resolved, s.prefix).rc == 0 ==>
              r.1 == Error && Wf(r.0) && r.0.lastDir == Examine(env, Destroy(s), resolved, s.prefix).dir &&
              r.0.state == Examine(env, Destroy(s), resolved, s.prefix).state
  {
    if StatOf(env.fs, resolved).Found? && IsDir(StatOf(env.fs, resolved).st.mode) then
      var s1 := Destroy(s);
      var ex := Examine(env, s1, resolved, s.prefix);
      if ex.rc == 0 then
        var s2 := s1.(state := ex.state, lastDir := ex.dir);
        (Refresh(env, s2.(menu := HighlightDefault(s2.state.entries, s2.menu))), Error)
      else
        var ex2 := Examine(env, s1, s.lastDir, s.prefix);
        if ex2.rc == -1 then (s1.(lastDir := ex2.dir), Done)
        else
          var s2 := s1.(state := ex2.state, lastDir := ex2.dir);
          (Refresh(env, s2.(menu := HighlightDefault(s2.state.entries, s2.menu))), Error)
    else (s, Error)
  }

  // Mask, exit, sort

  /** Sets a new file mask (an empty one shows everything, ".") and reads
      LastDir again. The prompt being cancelled changes nothing; a mask
      that does not compile ends the browser, and so does an empty result. */
  function OpEnterMask(s: Session, env: Env, reply: Reply): (r: (Session, Retval))
    ensures !reply.ok ==> r == (s, NoAction)
    ensures reply.ok ==> !r.0.state.isMailboxList
    ensures reply.ok && env.maskValid(if reply.text == [] then "." else reply.text) ==>
              r.0.mask == (if reply.text == [] then "." else reply.text)
    ensures reply.ok && !env.maskValid(if reply.text == [] then "." else reply.text) ==>
              r == (s.(state := s.state.(isMailboxList := false)), Done)
    ensures r.1 == Error ==> Wf(r.0) && |r.0.state.entries| > 0 && !r.0.killPrefix
    ensures r.1 == NoAction || r.1 == Done || r.1 == Error
    ensures reply.ok && env.maskValid(if reply.text == [] then "." else reply.text) ==>
              var s2 := Destroy(s.(state := s.state.(isMailboxList := false))).(mask := if reply.text == [] then "." else reply.text);
              var ex := Examine(env, s2, s.lastDir, []);
              (s.state.imapBrowse ==>
                 r.0.state == ImapRelist(env, s2, s.lastDir).state && r.0.lastDir == s.lastDir &&
                 (r.1 == Done <==> |r.0.state.entries| == 0)) &&
              (!s.state.imapBrowse && ex.rc == -1 ==> r.1 == Done && r.0.lastDir == ex.dir) &&
              (!s.state.imapBrowse && ex.rc == 0 ==>
                 r.0.state == ex.state && r.0.lastDir == ex.dir && Wf(r.0) &&
                 (r.1 == Done <==> |ex.state.entries| == 0))
  {
    if !reply.ok then (s, NoAction)
    else
      var pattern := if reply.text == [] then "." else reply.text;
      var s1 := s.(state := s.state.(isMailboxList := false));
      if !env.maskValid(pattern) then (s1, Done)
      else MaskReread(env, Destroy(s1).(mask := pattern))
  }

  /** Lists LastDir again once the new mask is set, on the IMAP server or
      from disk (the browser ends when the disk read fails); the browser
      also ends when nothing is left. */
  function MaskReread(env: Env, s2: Session): (r: (Session, Retval))
    ensures r.1 == Done || r.1 == Error
    ensures r.1 == Error ==> Wf(r.0) && |r.0.state.entries| > 0 && !r.0.killPrefix
    ensures r.0.mask == s2.mask && r.0.state.isMailboxList == s2.state.isMailboxList
    ensures s2.state.imapBrowse ==>
              r.0.state == ImapRelist(env, s2, s2.lastDir).state && r.0.lastDir == s2.lastDir &&
              (r.1 == Done <==> |r.0.state.entries| == 0)
    ensures !s2.state.imapBrowse ==>
              var ex := Examine(env, s2, s2.lastDir, []);
              (ex.rc == -1 ==> r.1 == Done && r.0.lastDir == ex.dir) &&
              (ex.rc == 0 ==> r.0.state == ex.state && r.0.lastDir == ex.dir && Wf(r.0) &&
                              (r.1 == Done <==> |ex.state.entries| == 0))
  {
    if s2.state.imapBrowse then
      var s3 := Refresh(env, ImapRelist(env, s2, s2.lastDir)).(killPrefix := false);
      if |s3.state.entries| == 0 then (s3, Done) else (s3, Error)
    else
      var ex := Examine(env, s2, s2.lastDir, []);
      if ex.rc == -1 then (s2.(lastDir := ex.dir), Done)
      else
        var s3 := Refresh(env, s2.(state := ex.state, lastDir := ex.dir)).(killPrefix := false);
        if |s3.state.entries| == 0 then (s3, Done) else (s3, Error)
  }

  /** After a new mask is set on a readable local directory, the list holds
      exactly the names of its listing the new mask lets through, and the
      browser ends exactly when there are none. */
  lemma MaskRelists(s: Session, env: Env, text: string)
    requires !s.state.imapBrowse && env.maskValid(if text == [] then "." else text)
    requires ReadableDir(env.fs, s.lastDir)
    ensures var mask := if text == [] then "." else text;
            var r := OpEnterMask(s, env, Reply(true, text));
            var listed := Listed(ScanEnvOf(env, mask), BrowserState([], false, false), true, s.lastDir, [], env.fs.dirs[s.lastDir]);
            r.0.mask == mask && r.0.lastDir == s.lastDir && Names(r.0.state.entries) == listed &&
            (r.1 == Done <==> listed == [])
  {
    var mask := if text == [] then "." else text;
    var s2 := Destroy(s.(state := s.state.(isMailboxList := false))).(mask := mask);
    ReadableExamined(env, s2, s.lastDir, []);
    ExamineDirectoryLists(ScanEnvOf(env, mask), s2.state, true, s.lastDir, []);
  }

  /** The paths of the tagged entries, in list order. */
  function TaggedPaths(entries: seq<FolderFile>, lastDir: string, expand: string -> string): (r: seq<string>)
    ensures |r| <= |entries|
    ensures forall k :: 0 <= k < |entries| && entries[k].tagged ==> expand(ConcatPath(lastDir, entries[k].name)) in r
    ensures forall p :: p in r ==> exists k :: 0 <= k < |entries| && entries[k].tagged && p == expand(ConcatPath(lastDir, entries[k].name))
    decreases |entries|
  {
    if |entries| == 0 then []
    else
      var rest := TaggedPaths(entries[1..], lastDir, expand);
      assert forall k :: 1 <= k < |entries| ==> entries[k] == entries[1..][k - 1];
      if entries[0].tagged then [expand(ConcatPath(lastDir, entries[0].name))] + rest else rest
  }

  /** The number of tagged entries. */
  function CountTaggedEntries(entries: seq<FolderFile>): nat
  {
    if |entries| == 0 then 0 else Bit(entries[0].tagged) + CountTaggedEntries(entries[1..])
  }

  /** Tagged entries keep their order: the paths of two lists one after the
      other are the paths of the first, then those of the second; and there
      is one path per tagged entry. */
  lemma {:induction false} TaggedPathsAppend(a: seq<FolderFile>, b: seq<FolderFile>, lastDir: string, expand: string -> string)
    ensures TaggedPaths(a + b, lastDir, expand) == TaggedPaths(a, lastDir, expand) + TaggedPaths(b, lastDir, expand)
    ensures |TaggedPaths(a, lastDir, expand)| == CountTaggedEntries(a)
    decreases |a|
  {
    if |a| > 0 {
      assert (a + b)[1..] == a[1..] + b;
      TaggedPathsAppend(a[1..], b, lastDir, expand);
    } else {
      assert a + b == b;
    }
  }

  /** Leaves the browser. With several files allowed, it hands back the
      tagged entries (joined to LastDir and expanded) or, with none tagged,
      the chosen file when there is one. */
  function OpExit(s: Session, env: Env): (r: (Session, Retval))
    ensures r.1 == Done
    ensures !s.multiple ==> r.0 == s
    ensures s.multiple && s.menu.numTagged != 0 ==>
              r.0 == s.(files := Some(TaggedPaths(s.state.entries, s.lastDir, env.expand)))
    ensures s.multiple && s.menu.numTagged == 0 && s.file != [] ==>
              r.0 == s.(file := env.expand(s.file), files := Some([env.expand(s.file)]))
    ensures s.multiple && s.menu.numTagged == 0 && s.file == [] ==> r.0 == s
  {
    if !s.multiple then (s, Done)
    else if s.menu.numTagged != 0 then (s.(files := Some(TaggedPaths(s.state.entries, s.lastDir, env.expand))), Done)
    else if s.file != [] then
      var f := env.expand(s.file);
      (s.(file := f, files := Some([f])), Done)
    else (s, Done)
  }

  /** The sort menu's choices d, a, z, e, c, w, n, numbered from 1. */
  function SortChoice(choice: int): (k: SortKey)
    requires 1 <= choice <= 7
    ensures SortLetter(k) == "dazecwn"[choice - 1]
  {
    match choice
    case 1 => ByDate
    case 2 => ByAlpha
    case 3 => BySize
    case 4 => ByDesc
    case 5 => ByCount
    case 6 => ByUnread
    case _ => Unsorted
  }

  /** The letter the sort prompt highlights for each key: (d)ate, (a)lpha,
      si(z)e, d(e)scription, (c)ount, ne(w) count, do(n)'t sort. */
  function SortLetter(k: SortKey): char
  {
    match k
    case ByDate => 'd'
    case ByAlpha => 'a'
    case BySize => 'z'
    case ByDesc => 'e'
    case ByCount => 'c'
    case ByUnread => 'w'
    case Unsorted => 'n'
  }

  /** Every sort key has exactly one choice. */
  lemma SortChoiceBijective(k: SortKey)
    ensures exists c :: 1 <= c <= 7 && SortChoice(c) == k
    ensures forall c1, c2 :: 1 <= c1 <= 7 && 1 <= c2 <= 7 && SortChoice(c1) == SortChoice(c2) ==> c1 == c2
  {
    match k
    case ByDate => assert SortChoice(1) == k;
    case ByAlpha => assert SortChoice(2) == k;
    case BySize => assert SortChoice(3) == k;
    case ByDesc => assert SortChoice(4) == k;
    case ByCount => assert SortChoice(5) == k;
    case ByUnread => assert SortChoice(6) == k;
    case Unsorted => assert SortChoice(7) == k;
  }

  /** Sets $sort_browser from the menu choice, reversed for the reverse
      sort, and puts the cursor on the default entry. Aborting the menu
      changes nothing. */
  function OpSort(s: Session, op: int, choice: int): (r: (Session, Retval))
    requires choice == -1 || 1 <= choice <= 7
    ensures choice == -1 ==> r == (s, NoAction)
    ensures choice != -1 ==> r.1 == Success
    ensures choice != -1 ==> r.0.sortBrowser == BrowserSort(SortChoice(choice), op == Op.SortReverse)
    ensures choice != -1 ==> r.0.state == s.state && r.0.lastDir == s.lastDir && r.0.menu.top == 0
    ensures choice != -1 ==> r.0.menu.redraw & RedrawFull != 0
    ensures choice != -1 && Wf(s) ==> Wf(r.0)
  {
    if choice == -1 then (s, NoAction)
    else
      var s1 := s.(sortBrowser := BrowserSort(SortChoice(choice), op == Op.SortReverse));
      (s1.(menu := QueueRedraw(Some(HighlightDefault(s1.state.entries, s1.menu)), RedrawFull).value), Success)
  }

  // Mailbox list and $folder

  /** The $folder toggle: from anywhere else it remembers LastDir and goes
      to $folder; pressed again it goes back. LastDirBackup keeps the
      directory left, for tracking. Nothing happens without $folder. */
  function GotoSwap(s: Session, folder: Option<string>): (r: Session)
    ensures folder.None? ==> r == s
    ensures folder.Some? && s.gotoSwapper == [] && s.lastDir != folder.value ==>
              r == s.(gotoSwapper := s.lastDir, lastDirBackup := s.lastDir, lastDir := folder.value)
    ensures folder.Some? && s.gotoSwapper == [] && s.lastDir == folder.value ==> r == s
    ensures folder.Some? && s.gotoSwapper != [] ==>
              r == s.(lastDirBackup := s.lastDir, lastDir := s.gotoSwapper, gotoSwapper := [])
  {
    match folder
    case None => s
    case Some(f) =>
      if s.gotoSwapper == [] then
        if s.lastDir != f then s.(gotoSwapper := s.lastDir, lastDirBackup := s.lastDir, lastDir := f) else s
      else s.(lastDirBackup := s.lastDir, lastDir := s.gotoSwapper, gotoSwapper := [])
  }

  /** Pressing the toggle twice comes back to the directory left, with the
      slot empty again; this needs LastDir to be non-empty, since an empty
      remembered directory reads as an empty slot. */
  lemma GotoSwapTwice(s: Session, f: string)
    requires s.gotoSwapper == [] && s.lastDir != f && s.lastDir != []
    ensures GotoSwap(GotoSwap(s, Some(f)), Some(f)) == s.(lastDirBackup := f)
  {
  }

  /** With LastDir empty the slot cannot hold it: the second press does not
      come back. */
  lemma GotoSwapEmptyLastDir(s: Session, f: string)
    requires s.gotoSwapper == [] && s.lastDir == [] && f != []
    ensures GotoSwap(GotoSwap(s, Some(f)), Some(f)).lastDir == f
  {
  }

  /** The session after the view switch, before the list is read again:
      the mailbox-list cursor remembered, the view toggled or the $folder
      toggle applied, the list emptied and the file-name prefix dropped. */
  function Switched(s: Session, env: Env, op: int): (r: Session)
    ensures r.state.entries == [] && r.state.imapBrowse == s.state.imapBrowse
    ensures r.prefix == [] && !r.killPrefix
    ensures r.lastSelectedMailbox == (if s.state.isMailboxList then s.menu.current else s.lastSelectedMailbox)
    ensures r.state.isMailboxList == (if op == Op.ToggleMailboxes then !s.state.isMailboxList else s.state.isMailboxList)
    ensures r.lastDir == (if op == Op.GotoFolder then GotoSwap(s, env.folder).lastDir else s.lastDir)
    ensures r.gotoSwapper == (if op == Op.GotoFolder then GotoSwap(s, env.folder).gotoSwapper else s.gotoSwapper)
  {
    var s1 := if s.state.isMailboxList then s.(lastSelectedMailbox := s.menu.current) else s;
    var s2 := if op == Op.ToggleMailboxes then s1.(state := s1.state.(isMailboxList := !s1.state.isMailboxList)) else s1;
    var s3 := if op == Op.GotoFolder then GotoSwap(s2, env.folder) else s2;
    Destroy(s3).(prefix := [], killPrefix := false)
  }

  /** Lists what the view shows: the mailboxes, an IMAP folder, or LastDir
      read from disk (the browser ends when that cannot be read). */
  function Relist(env: Env, s: Session): (r: (Session, Retval))
    ensures r.1 == Error || r.1 == Done
    ensures r.0 == s.(state := r.0.state, menu := r.0.menu, lastDir := r.0.lastDir)
    ensures r.0.state.isMailboxList == s.state.isMailboxList
    ensures s.state.isMailboxList ==> r.1 == Error && r.0.state.entries == env.mailboxList && r.0.lastDir == s.lastDir
    ensures !s.state.isMailboxList && env.probe(s.lastDir) == Imap ==>
              r.1 == Error && r.0.state.entries == env.imapList(s.lastDir) && r.0.lastDir == s.lastDir
    ensures IsPrefix(r.0.lastDir, s.lastDir)
    ensures r.1 == Error ==> Wf(r.0)
  {
    if s.state.isMailboxList then
      (Refresh(env, s.(state := BrowserState(env.mailboxList, false, true))), Error)
    else if env.probe(s.lastDir) == Imap then
      (Refresh(env, ImapRelist(env, s, s.lastDir)), Error)
    else
      var ex := Examine(env, s, s.lastDir, s.prefix);
      if ex.rc == -1 then (s.(lastDir := ex.dir), Done)
      else (Refresh(env, s.(state := ex.state, lastDir := ex.dir)), Error)
  }

  /** Switches between the directory and the mailbox list, re-reads the
      mailboxes, or goes to (or back from) $folder, and lists the result. */
  function OpToggleMailboxes(s: Session, env: Env, op: int): (r: (Session, Retval))
    ensures r.1 == Error || r.1 == Done
    ensures r.0.prefix == [] && !r.0.killPrefix
    ensures s.state.isMailboxList ==> r.0.lastSelectedMailbox == s.menu.current
    ensures r.0.state.isMailboxList == (if op == Op.ToggleMailboxes then !s.state.isMailboxList else s.state.isMailboxList)
    ensures op == Op.GotoFolder ==> IsPrefix(r.0.lastDir, GotoSwap(s, env.folder).lastDir)
    ensures op == Op.GotoFolder ==> r.0.gotoSwapper == GotoSwap(s, env.folder).gotoSwapper
    ensures r.1 == Error ==> Wf(r.0)
  {
    Relist(env, Switched(s, env, op))
  }

  /** Switching to the mailbox list and back returns to the directory
      view of the same readable local directory, listing exactly the
      names of its listing the mask lets through, with the mailbox-list
      cursor remembered. */
  lemma ToggleMailboxesTwice(s: Session, env: Env)
    requires !s.state.isMailboxList && !s.state.imapBrowse
    requires env.probe(s.lastDir) != Imap && ReadableDir(env.fs, s.lastDir)
    ensures var r1 := OpToggleMailboxes(s, env, Op.ToggleMailboxes);
            var r2 := OpToggleMailboxes(r1.0, env, Op.ToggleMailboxes);
            r1.1 == Error && r1.0.state.isMailboxList && r1.0.state.entries == env.mailboxList &&
            r2.1 == Error && !r2.0.state.isMailboxList && r2.0.lastDir == s.lastDir &&
            r2.0.lastSelectedMailbox == r1.0.menu.current &&
            Names(r2.0.state.entries) ==
              Listed(ScanEnvOf(env, s.mask), BrowserState([], false, false), true, s.lastDir, [], env.fs.dirs[s.lastDir])
  {
    var r1 := OpToggleMailboxes(s, env, Op.ToggleMailboxes);
    var s2 := Switched(r1.0, env, Op.ToggleMailboxes);
    assert s2.lastDir == s.lastDir && s2.mask == s.mask && s2.prefix == [];
    ReadableExamined(env, s2, s.lastDir, []);
    ExamineDirectoryLists(ScanEnvOf(env, s.mask), s2.state, true, s.lastDir, []);
  }

  // IMAP mailboxes

  /** Creates a mailbox on the IMAP server and lists LastDir again. */
  function OpCreateMailbox(s: Session, env: Env, serverOk: bool): (r: (Session, Retval))
    ensures !s.state.imapBrowse || !serverOk ==> r == (s, Error)
    ensures s.state.imapBrowse && serverOk ==> r.1 == Success && Wf(r.0) && r.0.state.entries == env.imapList(s.lastDir)
  {
    if !s.state.imapBrowse || !serverOk then (s, Error)
    else
      var s1 := ImapRelist(env, s, s.lastDir);
      (Refresh(env, s1.(menu := HighlightDefault(s1.state.entries, s1.menu))), Success)
  }

  /** Deletes the selected IMAP mailbox after asking; the open mailbox
      cannot be deleted. */
  function OpDeleteMailbox(s: Session, env: Env, confirm: bool, serverOk: bool): (r: (Session, Retval))
    requires Wf(s) && |s.state.entries| > 0
    ensures !Selected(s).isImap ==> r == (s, Error)
    ensures Selected(s).isImap && env.current.Some? && env.current.value.path == Selected(s).name ==> r == (s, Error)
    ensures r.1 == NoAction ==> r.0 == s && !confirm
    ensures r.1 == Success ==> confirm && serverOk && Wf(r.0)
    ensures r.1 == Success ==>
              r.0.state.entries == s.state.entries[..s.menu.current] + s.state.entries[s.menu.current + 1..]
    ensures r.1 == Success || r.1 == Error || r.1 == NoAction
    ensures r.1 != Success ==> r.0 == s
  {
    var e := Selected(s);
    if !e.isImap then (s, Error)
    else if env.current.Some? && env.current.value.path == e.name then (s, Error)
    else if !confirm then (s, NoAction)
    else if !serverOk then (s, Error)
    else
      var i := s.menu.current;
      var s1 := s.(state := s.state.(entries := s.state.entries[..i] + s.state.entries[i + 1..]));
      (Refresh(env, s1), Success)
  }

  /** Deleting removes exactly the selected entry: every other entry keeps
      its place relative to the others. */
  lemma DeleteKeepsOthers(s: Session, env: Env, k: int)
    requires Wf(s) && |s.state.entries| > 0
    requires OpDeleteMailbox(s, env, true, true).1 == Success
    requires 0 <= k < |s.state.entries| && k != s.menu.current
    ensures var out := OpDeleteMailbox(s, env, true, true).0.state.entries;
            out[if k < s.menu.current then k else k - 1] == s.state.entries[k]
  {
  }

  /** Renames the selected IMAP mailbox and lists LastDir again. */
  function OpRenameMailbox(s: Session, env: Env, serverOk: bool): (r: (Session, Retval))
    requires Wf(s) && |s.state.entries| > 0
    ensures !Selected(s).isImap || !serverOk ==> r == (s, Error)
    ensures Selected(s).isImap && serverOk ==> r.1 == Success && Wf(r.0) && r.0.state.entries == env.imapList(s.lastDir)
  {
    if !Selected(s).isImap || !serverOk then (s, Error)
    else
      var s1 := ImapRelist(env, s, s.lastDir);
      (Refresh(env, s1.(menu := HighlightDefault(s1.state.entries, s1.menu))), Success)
  }

  /** Creating a mailbox and renaming one, once the server agrees, both
      leave the browser showing the server's listing of LastDir, with no
      tags and the cursor where a fresh listing puts it: on the directory
      the browser came from when it is listed, otherwise on the first entry,
      or the second when the first is ".." and there are two or more. */
  lemma CreateAndRenameRelistAlike(s: Session, env: Env)
    requires Wf(s) && |s.state.entries| > 0 && s.state.imapBrowse && Selected(s).isImap
    ensures OpCreateMailbox(s, env, true) == OpRenameMailbox(s, env, true)
    ensures OpCreateMailbox(s, env, true).0.lastDir == s.lastDir
    ensures var m := OpCreateMailbox(s, env, true).0.menu;
            var list := env.imapList(s.lastDir);
            var back := FindName(list, TrackTarget(s.lastDirBackup, env.probe(s.lastDirBackup) == Imap, env.imapClean));
            m.max == |list| && m.numTagged == 0 &&
            (StartsWith(s.lastDirBackup, s.lastDir) && back.Some? ==> m.current == back.value) &&
            (!(StartsWith(s.lastDirBackup, s.lastDir) && back.Some?) ==>
               m.top == 0 && (m.current == 1 <==> ParentFirst(list) && |list| > 1))
  {
    var s1 := ImapRelist(env, s, s.lastDir);
    var s2 := s1.(menu := HighlightDefault(s1.state.entries, s1.menu));
    assert OpCreateMailbox(s, env, true).0 == Refresh(env, s2);
  }

  // The function table

  datatype BrowserHandler =
    | ToggleMailboxes | NewFile | Subscribe | Tell | ToggleLsub | ViewFile | Catchup | ChangeDirectory
    | CreateMailbox | DeleteMailbox | SelectEntry | EnterMask | Exit | LoadActive | MailboxList
    | RenameMailbox | Sort | SubscribePattern

  const BrowserFunctionTable: seq<(int, BrowserHandler)> := [
    (Op.GotoFolder, ToggleMailboxes), (Op.BrowserNewFile, NewFile),
    (Op.BrowserSubscribe, Subscribe), (Op.BrowserTell, Tell),
    (Op.BrowserToggleLsub, ToggleLsub), (Op.BrowserUnsubscribe, Subscribe),
    (Op.BrowserViewFile, ViewFile), (Op.Catchup, Catchup),
    (Op.ChangeDirectory, ChangeDirectory), (Op.CheckNew, ToggleMailboxes),
    (Op.CreateMailbox, CreateMailbox), (Op.DeleteMailbox, DeleteMailbox),
    (Op.DescendDirectory, SelectEntry), (Op.EnterMask, EnterMask),
    (Op.Exit, Exit), (Op.GenericSelectEntry, SelectEntry),
    (Op.GotoParent, ChangeDirectory), (Op.LoadActive, LoadActive),
    (Op.MailboxList, MailboxList), (Op.RenameMailbox, RenameMailbox),
    (Op.Sort, Sort), (Op.SortReverse, Sort),
    (Op.SubscribePattern, SubscribePattern), (Op.ToggleMailboxes, ToggleMailboxes),
    (Op.Uncatchup, Catchup), (Op.UnsubscribePattern, SubscribePattern)]

  /** The operations the browser has a function for. */
  predicate IsBrowserFunction(op: int)
  {
    Op.GotoFolder <= op <= Op.UnsubscribePattern
  }

  /** The functions that read the entry under the cursor without checking
      that there is one. */
  predicate NeedsEntry(h: BrowserHandler)
  {
    h == Subscribe || h == DeleteMailbox || h == RenameMailbox
  }

  /** Runs one function. The news-server functions report that they are
      not available (news mode is not part of the model); subscribing only
      talks to the IMAP server, and toggling the subscribed view changes an
      option and queues a check-new key, neither of which is modelled. */
  function RunHandler(h: BrowserHandler, s: Session, env: Env, op: int, a: Answers): (r: (Session, Retval))
    requires Wf(s)
    requires NeedsEntry(h) ==> |s.state.entries| > 0
    requires h == Sort ==> a.choice == -1 || 1 <= a.choice <= 7
    ensures r.1 != Unknown
    ensures r.1 != Done ==> Wf(r.0)
  {
    match h
    case ToggleMailboxes => OpToggleMailboxes(s, env, op)
    case NewFile => OpNewFile(s, a.reply)
    case Subscribe => (s, Success)
    case Tell => (s, OpTell(s))
    case ToggleLsub => (s, Success)
    case ViewFile => OpViewFile(s, env, a.viewable)
    case Catchup => (s, NotImpl)
    case ChangeDirectory => OpChangeDirectory(s, env, op, a.reply)
    case CreateMailbox => OpCreateMailbox(s, env, a.serverOk)
    case DeleteMailbox => OpDeleteMailbox(s, env, a.confirm, a.serverOk)
    case SelectEntry => OpGenericSelectEntry(s, env, op)
    case EnterMask => OpEnterMask(s, env, a.reply)
    case Exit => OpExit(s, env)
    case LoadActive => (s, NotImpl)
    case MailboxList => (s, Success)
    case RenameMailbox => OpRenameMailbox(s, env, a.serverOk)
    case Sort => OpSort(s, op, a.choice)
    case SubscribePattern => (s, NotImpl)
  }

  /** What the dispatcher needs for the function `op` would run. */
  predicate CanRun(s: Session, op: int, a: Answers)
  {
    Wf(s) &&
    ((op == Op.BrowserSubscribe || op == Op.BrowserUnsubscribe || op == Op.DeleteMailbox ||
      op == Op.RenameMailbox) ==> |s.state.entries| > 0) &&
    ((op == Op.Sort || op == Op.SortReverse) ==> a.choice == -1 || 1 <= a.choice <= 7)
  }

  /** Runs the browser function for `op`. Without the browser window or its
      private data this is an error; an operation without a function is
      unknown and changes nothing. */
  function BrowserFunctionDispatcher(winPresent: bool, priv: Option<Session>, op: int, env: Env, a: Answers)
    : (r: (Option<Session>, Retval))
    requires winPresent && priv.Some? ==> CanRun(priv.value, op, a)
    ensures !winPresent || priv.None? ==> r == (priv, Error)
    ensures winPresent && priv.Some? ==> r.0.Some?
    ensures winPresent && priv.Some? ==> (r.1 == Unknown <==> !IsBrowserFunction(op))
    ensures winPresent && priv.Some? && !IsBrowserFunction(op) ==> r.0 == priv
    ensures winPresent && priv.Some? && r.1 != Done ==> Wf(r.0.value)
  {
    if !winPresent || priv.None? then (priv, Error)
    else
      BrowserTableCovers();
      match Lookup(BrowserFunctionTable, op)
      case None => (priv, Unknown)
      case Some(h) =>
        var (s, rc) := RunHandler(h, priv.value, env, op, a);
        (Some(s), rc)
  }

  /** The table has a row for exactly the browser's operations, and the
      functions that read the entry under the cursor are the ones listed. */
  lemma BrowserTableCovers()
    ensures forall i :: 0 <= i < |BrowserFunctionTable| ==> IsBrowserFunction(BrowserFunctionTable[i].0)
    ensures forall i :: 0 <= i < |BrowserFunctionTable| && NeedsEntry(BrowserFunctionTable[i].1) ==>
              BrowserFunctionTable[i].0 in {Op.BrowserSubscribe, Op.BrowserUnsubscribe, Op.DeleteMailbox, Op.RenameMailbox}
    ensures forall i :: 0 <= i < |BrowserFunctionTable| && BrowserFunctionTable[i].1 == Sort ==>
              BrowserFunctionTable[i].0 == Op.Sort || BrowserFunctionTable[i].0 == Op.SortReverse
    ensures forall o :: IsBrowserFunction(o) ==>
              exists i :: 0 <= i < |BrowserFunctionTable| && BrowserFunctionTable[i].0 == o
  {
    forall o | IsBrowserFunction(o)
      ensures exists i :: 0 <= i < |BrowserFunctionTable| && BrowserFunctionTable[i].0 == o
    {
      var i := o - Op.GotoFolder;
      assert BrowserFunctionTable[i].0 == o;
    }
  }
}

=== FILE: browser_session.dfy ===
/** One run of the file browser: its private record (with the two
    remembered directories made explicit), what it consults outside
    itself, the helpers its functions share, and how a run starts from the
    path it is given. */
module BrowserSession {
  import opened Common
  import opened Posix
  import opened Menus
  import opened Browser

  /** The keys $sort_browser can name (the sort itself is not part of the
      model). */
  datatype SortKey = ByDate | ByAlpha | BySize | ByDesc | ByCount | ByUnread | Unsorted
  datatype BrowserSort = BrowserSort(key: SortKey, reverse: bool)

  /** The browser's record together with the globals it works on:
      LastDir and LastDirBackup, the $mask and $sort_browser settings, and
      the list of chosen files handed back (None until there is one). */
  datatype Session = Session(
    state: BrowserState,
    menu: Menu,
    lastDir: string,
    lastDirBackup: string,
    gotoSwapper: string,
    oldLastDir: string,
    prefix: string,
    killPrefix: bool,
    multiple: bool,
    folder: bool,
    file: string,
    lastSelectedMailbox: int,
    files: Option<seq<string>>,
    mask: string,
    sortBrowser: BrowserSort)

  /** What the browser consults outside itself: the file system, the mask
      matcher (pattern, name) and whether a pattern compiles, the configured
      and the open mailbox, path expansion, `realpath` (None on failure),
      the mailbox-type probe, the IMAP client (listing, whether a listing
      succeeds, the folder a listing is of, path cleaning, parent, whether a name has a path part), the
      mailbox list a mailbox scan yields, $folder, $spool_file, the home
      and working directories. */
  datatype Env = Env(
    fs: FileSystem,
    maskMatches: (string, string) -> bool,
    maskValid: string -> bool,
    mailboxes: seq<Mailbox>,
    current: Option<Mailbox>,
    expand: string -> string,
    realpath: string -> Option<string>,
    probe: string -> MailboxType,
    imapList: string -> seq<FolderFile>,
    imapBrowseOk: string -> bool,
    imapFolder: string -> string,
    imapClean: string -> string,
    imapParent: string -> string,
    imapHasPath: string -> bool,
    mailboxList: seq<FolderFile>,
    folder: Option<string>,
    spoolFile: Option<string>,
    home: string,
    cwd: string)

  /** What a text prompt hands back: whether it was confirmed, and the text
      it holds afterwards. */
  datatype Reply = Reply(ok: bool, text: string)

  /** The session's shape the functions rely on: the menu counts the
      entries and its cursor is on one of them. */
  predicate Wf(s: Session)
  {
    s.menu.max == |s.state.entries| &&
    (|s.state.entries| > 0 ==> 0 <= s.menu.current < |s.state.entries|)
  }

  /** What a directory scan under the file mask `mask` consults. */
  function ScanEnvOf(env: Env, mask: string): ScanEnv
  {
    ScanEnv(env.fs, name => env.maskMatches(mask, name), env.mailboxes, env.current)
  }

  /** Reads a local directory into the list (the menu is present). */
  function Examine(env: Env, s: Session, d: string, prefix: string): Examined
  {
    ExamineDirectory(ScanEnvOf(env, s.mask), s.state, true, d, prefix)
  }

  /** A directory that exists, is a directory and can be listed. */
  predicate ReadableDir(fs: FileSystem, d: string)
  {
    d in fs.stat && IsDir(fs.stat[d].mode) && d in fs.dirs
  }

  /** Empties the list. */
  function Destroy(s: Session): (r: Session)
    ensures r == s.(state := s.state.(entries := []))
  {
    s.(state := s.state.(entries := []))
  }

  /** Sets the menu up for the current list. */
  function Refresh(env: Env, s: Session): (r: Session)
    ensures r == s.(menu := r.menu) && Wf(r) && r.menu.numTagged == 0
  {
    s.(menu := InitMenu(s.state, s.menu, s.lastDir, s.lastDirBackup,
                        env.probe(s.lastDirBackup) == Imap, env.imapClean))
  }

  /** Lists `dir` on the IMAP server. */
  function ImapRelist(env: Env, s: Session, dir: string): (r: Session)
    ensures r.state.imapBrowse && r.state.entries == env.imapList(dir)
    ensures r.state.isMailboxList == s.state.isMailboxList
  {
    s.(state := BrowserState(env.imapList(dir), true, s.state.isMailboxList))
  }

  // Starting a run

  /** The sort keys under which the browser tracks the directory it came
      from. */
  predicate Tracks(sort: BrowserSort)
  {
    sort.key == ByDesc || sort.key == ByAlpha || sort.key == Unsorted
  }

  /** Mailbox kinds for which the first run starts in $folder. */
  predicate LocalKind(k: MailboxType)
  {
    k == Imap || k == Maildir || k == Mbox || k == Mh || k == Mmdf
  }

  /** How the browser may be started: to pick a mailbox, several files, or
      a folder. */
  datatype SelectFlags = SelectFlags(mailbox: bool, multi: bool, folder: bool)

  /** The two remembered directories, which outlive a run. */
  datatype Globals = Globals(lastDir: string, lastDirBackup: string)

  /** How a run starts: with a session, or by bailing out (when the first
      directory cannot be read), leaving the remembered directories as they
      became. */
  datatype Start = Started(session: Session) | Bailed(globals: Globals)

  function SelectPath(env: Env, f: string): (string, string)
  {
    SelectDir(f, env.probe(f), env.imapParent, env.folder)
  }

  /** Chooses the remembered directories in folder mode with nothing
      given: on the first run the browser starts in $folder (or next to
      $spool_file) for the usual mailbox kinds, next to the open folder
      otherwise; later runs follow the open folder when it moved. Without
      tracking, LastDirBackup is cleared. */
  function FolderModeDirs(env: Env, g: Globals, currentFolder: Option<string>, sort: BrowserSort): (r: Globals)
    ensures !Tracks(sort) ==> r.lastDirBackup == []
    ensures currentFolder.None? ==> r.lastDir == g.lastDir
    ensures currentFolder.Some? && g.lastDir != [] && currentFolder.value != g.lastDirBackup && Tracks(sort) ==>
              r == Globals(SelectPath(env, currentFolder.value).0, currentFolder.value)
  {
    var g1 :=
      match currentFolder
      case None => g
      case Some(cf) =>
        if g.lastDir == [] then
          if LocalKind(env.probe(cf)) then
            match env.folder
            case Some(f) => g.(lastDir := f)
            case None =>
              match env.spoolFile
              case Some(sp) => var (d, b) := SelectPath(env, sp); Globals(d, b)
              case None => g
          else var (d, b) := SelectPath(env, cf); Globals(d, b)
        else if cf != g.lastDirBackup then var (d, b) := SelectPath(env, cf); Globals(d, b)
        else g;
    if Tracks(sort) then g1 else g1.(lastDirBackup := [])
  }

  /** The session a run starts from, before its first directory is read.
      A path given is expanded: an IMAP path is listed on the server (LastDir
      becomes the folder listed when that succeeds); a local one is split
      into LastDir and a file-name prefix dropped on the first move. With no
      path, LastDir is the working directory, or in folder mode the
      directory FolderModeDirs chooses; an IMAP one is listed, a local one
      loses its trailing slashes (nothing left means the working
      directory). */
  function StartSession(env: Env, file: string, flags: SelectFlags, g: Globals, currentFolder: Option<string>,
                        mask: string, sort: BrowserSort, menu: Menu): (r: Session)
    ensures r.menu == menu && r.mask == mask && r.sortBrowser == sort
    ensures r.file == [] && r.gotoSwapper == [] && r.multiple == flags.multi && r.folder == flags.folder &&
            r.lastSelectedMailbox == -1 && r.files.None?
    ensures r.state.isMailboxList == (flags.mailbox && flags.folder)
    ensures !r.state.imapBrowse ==> r.state.entries == []
    ensures file != [] && env.probe(env.expand(file)) == Imap ==>
              r.state.imapBrowse && r.state.entries == env.imapList(env.expand(file)) &&
              r.lastDir == (if env.imapBrowseOk(env.expand(file)) then env.imapFolder(env.expand(file)) else g.lastDir)
    ensures file != [] && env.probe(env.expand(file)) != Imap ==>
              !r.state.imapBrowse && r.lastDir == SplitFile(env.expand(file), env.cwd).0 &&
              r.prefix == SplitFile(env.expand(file), env.cwd).1 && r.killPrefix && r.lastDirBackup == g.lastDirBackup
    ensures file == [] ==>
              var g1 := if flags.folder then FolderModeDirs(env, g, currentFolder, sort) else g.(lastDir := env.cwd);
              r.prefix == [] && !r.killPrefix && r.lastDirBackup == g1.lastDirBackup &&
              (!(flags.mailbox && flags.folder) && env.probe(g1.lastDir) == Imap ==>
                 r.state.imapBrowse && r.lastDir == g1.lastDir && r.state.entries == env.imapList(g1.lastDir)) &&
              ((flags.mailbox && flags.folder) || env.probe(g1.lastDir) != Imap ==>
                 !r.state.imapBrowse &&
                 r.lastDir == (if StripTrailingSlashes(g1.lastDir) == [] then env.cwd else StripTrailingSlashes(g1.lastDir)))
  {
    var isMailboxList := flags.mailbox && flags.folder;
    var base := Session(BrowserState([], false, isMailboxList), menu, g.lastDir, g.lastDirBackup, [], [], [],
                        false, flags.multi, flags.folder, [], -1, None, mask, sort);
    if file != [] then
      var f := env.expand(file);
      if env.probe(f) == Imap then
        ImapRelist(env, base, f).(lastDir := if env.imapBrowseOk(f) then env.imapFolder(f) else g.lastDir)
      else
        var (d, p) := SplitFile(f, env.cwd);
        base.(lastDir := d, prefix := p, killPrefix := true)
    else
      var g1 := if flags.folder then FolderModeDirs(env, g, currentFolder, sort) else g.(lastDir := env.cwd);
      var b1 := base.(lastDir := g1.lastDir, lastDirBackup := g1.lastDirBackup);
      if !isMailboxList && env.probe(g1.lastDir) == Imap then ImapRelist(env, b1, g1.lastDir)
      else
        var stripped := StripTrailingSlashes(g1.lastDir);
        b1.(lastDir := if stripped == [] then env.cwd else stripped)
  }

  /** Starts a run for `file` (possibly empty) with a fresh menu `menu`:
      the mailbox list is shown in mailbox-list mode, an IMAP listing as it
      is, and otherwise the start directory is read (walking up to the
      nearest existing directory). A run bails out exactly when that read
      fails, leaving LastDir where the walk ended. */
  function StartBrowser(env: Env, file: string, flags: SelectFlags, g: Globals, currentFolder: Option<string>,
                        mask: string, sort: BrowserSort, menu: Menu): (r: Start)
    ensures r.Started? ==> Wf(r.session) && r.session.file == [] && r.session.gotoSwapper == [] &&
                           r.session.multiple == flags.multi && r.session.folder == flags.folder &&
                           r.session.lastSelectedMailbox == -1 && r.session.files.None?
    ensures r.Started? && file == [] && flags.folder && !Tracks(sort) ==> r.session.lastDirBackup == []
    ensures r.Started? && file != [] && env.probe(env.expand(file)) != Imap ==>
              r.session.prefix == SplitFile(env.expand(file), env.cwd).1 && r.session.killPrefix
    ensures file != [] && env.probe(env.expand(file)) == Imap && !(flags.mailbox && flags.folder) ==>
              r.Started? && r.session.state.imapBrowse &&
              r.session.lastDir == (if env.imapBrowseOk(env.expand(file)) then env.imapFolder(env.expand(file)) else g.lastDir)
    ensures flags.mailbox && flags.folder ==>
              r.Started? && r.session.state.entries == env.mailboxList && r.session.state.isMailboxList
    ensures var s0 := StartSession(env, file, flags, g, currentFolder, mask, sort, menu);
            !(flags.mailbox && flags.folder) && s0.state.imapBrowse ==>
              r.Started? && r.session.state == s0.state && r.session.lastDir == s0.lastDir
    ensures var s0 := StartSession(env, file, flags, g, currentFolder, mask, sort, menu);
            var ex := Examine(env, s0, s0.lastDir, s0.prefix);
            !(flags.mailbox && flags.folder) && !s0.state.imapBrowse ==>
              (r.Bailed? <==> ex.rc == -1) &&
              (r.Bailed? ==> r.globals == Globals(ex.dir, s0.lastDirBackup)) &&
              (r.Started? ==> r.session.state == ex.state && r.session.lastDir == ex.dir &&
                              r.session.prefix == s0.prefix && r.session.lastDirBackup == s0.lastDirBackup)
  {
    var s1 := StartSession(env, file, flags, g, currentFolder, mask, sort, menu);
    if s1.state.isMailboxList then
      Started(Refresh(env, s1.(state := BrowserState(env.mailboxList, false, true))))
    else if s1.state.imapBrowse then
      Started(Refresh(env, s1))
    else
      var ex := Examine(env, s1, s1.lastDir, s1.prefix);
      if ex.rc == -1 then Bailed(Globals(ex.dir, s1.lastDirBackup))
      else Started(Refresh(env, s1.(state := ex.state, lastDir := ex.dir)))
  }

  /** Started on the path `d/n` of a readable local directory `d`, the
      browser starts in `d` with `n` as the file-name prefix and lists
      exactly the names of `d` the scan accepts under that prefix. */
  lemma StartInDirectory(env: Env, file: string, d: string, n: string, flags: SelectFlags, g: Globals,
                         currentFolder: Option<string>, mask: string, sort: BrowserSort, menu: Menu)
    requires file != [] && env.expand(file) == d + "/" + n && env.probe(d + "/" + n) != Imap
    requires |d| > 0 && d[0] == '/' && !Contains(n, '/') && !(flags.mailbox && flags.folder)
    requires ReadableDir(env.fs, d)
    ensures var r := StartBrowser(env, file, flags, g, currentFolder, mask, sort, menu);
            r.Started? && r.session.lastDir == d && r.session.prefix == n && r.session.killPrefix &&
            Names(r.session.state.entries) == Listed(ScanEnvOf(env, mask), BrowserState([], false, false), true, d, n, env.fs.dirs[d])
  {
    SplitFileOfJoin(d, n, env.cwd);
    var s0 := StartSession(env, file, flags, g, currentFolder, mask, sort, menu);
    assert s0.lastDir == d && s0.prefix == n;
    assert StatOf(env.fs, d).Found?;
    ExamineDirectoryLists(ScanEnvOf(env, mask), s0.state, true, d, n);
  }
}

=== FILE: common.dfy ===
/** Shared vocabulary of the model: optional values, the return codes of the
    function dispatchers, and the string helpers (prefix tests, last
    occurrence of a character, path joining, decimal numbers, common
    prefixes) that the file browser, the menu and path completion use. */
module Common {

  datatype Option<T> = None | Some(value: T)
  {
    function GetOr(default: T): T
    {
      match this
      case Some(v) => v
      case None => default
    }
  }

  /** What a function dispatcher reports back (IndexRetval). `Unknown` means
      that no handler of that dispatcher knows the operation. */
  datatype Retval = Unknown | Success | NoAction | Error | Done | NotImpl | Continue

  /** The smallest and largest values of a C `int`. */
  const IntMin: int := -0x8000_0000
  const IntMax: int := 0x7FFF_FFFF

  predicate IsPrefix(p: string, s: string)
  {
    |p| <= |s| && s[..|p|] == p
  }

  predicate IsSuffix(p: string, s: string)
  {
    |p| <= |s| && s[|s| - |p|..] == p
  }

  predicate Contains(s: string, c: char)
  {
    exists i :: 0 <= i < |s| && s[i] == c
  }

  /** The string library's prefix test: an empty string or an empty prefix
      never matches. */
  predicate StartsWith(s: string, prefix: string)
  {
    |s| > 0 && |prefix| > 0 && IsPrefix(prefix, s)
  }

  /** Position of the last occurrence of `c` in `s` (strrchr). */
  function LastIndexOf(s: string, c: char): (r: Option<nat>)
    ensures r.Some? ==> r.value < |s| && s[r.value] == c
    ensures r.Some? ==> forall j :: r.value < j < |s| ==> s[j] != c
    ensures r.None? ==> forall j :: 0 <= j < |s| ==> s[j] != c
  {
    if |s| == 0 then None
    else if s[|s| - 1] == c then Some(|s| - 1)
    else LastIndexOf(s[..|s| - 1], c)
  }

  /** The text after the last '/', or the whole string when it has none. */
  function AfterLastSlash(s: string): (r: string)
    ensures IsSuffix(r, s)
    ensures !Contains(r, '/')
    ensures Contains(s, '/') ==> |r| < |s| && s[|s| - |r| - 1] == '/'
  {
    match LastIndexOf(s, '/')
    case Some(i) => s[i + 1..]
    case None => s
  }

  /** Joins a directory and a file name with one '/' between them; an empty
      side yields the other side, and a directory that already ends in '/'
      gets no second one. */
  function ConcatPath(dir: string, name: string): (r: string)
    ensures IsPrefix(dir, r) && IsSuffix(name, r)
    ensures |r| <= |dir| + |name| + 1
    ensures |dir| > 0 && |name| > 0 && dir[|dir| - 1] != '/' ==> |r| == |dir| + |name| + 1 && r[|dir|] == '/'
  {
    if |dir| == 0 then name
    else if |name| == 0 then dir
    else if dir[|dir| - 1] == '/' then dir + name
    else dir + "/" + name
  }

  /** Joining a directory and a plain name (no '/') and then taking the text
      after the last '/' gives the name back. */
  lemma {:induction false} ConcatPathBasename(dir: string, name: string)
    requires |dir| > 0 && |name| > 0 && !Contains(name, '/')
    ensures AfterLastSlash(ConcatPath(dir, name)) == name
  {
    var r := ConcatPath(dir, name);
    var slash := |r| - |name| - 1;
    assert r[slash] == '/';
    assert r[slash + 1..] == name;
  }

  /** ConcatPathBasename, for any directory and name. */
  lemma JoinedBasename(dir: string, name: string)
    ensures |dir| > 0 && |name| > 0 && !Contains(name, '/') ==> AfterLastSlash(ConcatPath(dir, name)) == name
  {
    if |dir| > 0 && |name| > 0 && !Contains(name, '/') {
      ConcatPathBasename(dir, name);
    }
  }

  // Decimal numbers

  predicate IsDigit(c: char)
  {
    '0' <= c <= '9'
  }

  predicate AllDigits(s: string)
  {
    forall i :: 0 <= i < |s| ==> IsDigit(s[i])
  }

  function DigitChar(d: nat): (c: char)
    requires d < 10
    ensures IsDigit(c) && c as int - '0' as int == d
  {
    (48 + d) as char
  }

  /** The value of a string of decimal digits. */
  function DigitsValue(s: string): nat
    requires AllDigits(s)
  {
    if |s| == 0 then 0 else DigitsValue(s[..|s| - 1]) * 10 + (s[|s| - 1] as int - '0' as int)
  }

  /** Decimal rendering of a natural number, without leading zeros. */
  function NatToString(n: nat): (r: string)
    ensures |r| > 0 && AllDigits(r)
    ensures DigitsValue(r) == n
    decreases n
  {
    if n < 10 then [DigitChar(n)]
    else
      var r := NatToString(n / 10) + [DigitChar(n % 10)];
      assert r[..|r| - 1] == NatToString(n / 10);
      r
  }

  /** Decimal rendering of an integer (the printf "%d" conversion). */
  function IntToString(n: int): string
  {
    if n < 0 then "-" + NatToString(-n) else NatToString(n)
  }

  /** The white space `strtol` skips before a number (`isspace` in the C
      locale). */
  predicate IsSpace(c: char)
  {
    c == ' ' || c == '\t' || c == '\n' || c == '\U{B}' || c == '\U{C}' || c == '\r'
  }

  /** The number of white-space characters `s` starts with, counted on
      from `i`. */
  function LeadingSpace(s: string, i: nat): (k: nat)
    requires i <= |s| && forall j :: 0 <= j < i ==> IsSpace(s[j])
    ensures i <= k <= |s|
    ensures forall j :: 0 <= j < k ==> IsSpace(s[j])
    ensures k < |s| ==> !IsSpace(s[k])
    decreases |s| - i
  {
    if i < |s| && IsSpace(s[i]) then LeadingSpace(s, i + 1) else i
  }

  /** `s` without its leading white space. */
  function SkipSpace(s: string): (r: string)
    ensures IsSuffix(r, s)
    ensures |r| > 0 ==> !IsSpace(r[0])
    ensures forall i :: 0 <= i < |s| - |r| ==> IsSpace(s[i])
  {
    s[LeadingSpace(s, 0)..]
  }

  /** The count of leading white space is the position of the first
      character that is not white space. */
  lemma {:induction false} LeadingSpaceIs(s: string, i: nat, m: nat)
    requires i <= m <= |s| && forall j :: 0 <= j < m ==> IsSpace(s[j])
    requires m < |s| ==> !IsSpace(s[m])
    ensures LeadingSpace(s, i) == m
    decreases m - i
  {
    if i < m {
      LeadingSpaceIs(s, i + 1, m);
    }
  }

  /** White space in front of text that does not start with white space is
      skipped entirely. */
  lemma SkipSpaceOf(w: string, x: string)
    requires forall i :: 0 <= i < |w| ==> IsSpace(w[i])
    requires |x| > 0 ==> !IsSpace(x[0])
    ensures SkipSpace(w + x) == x
  {
    LeadingSpaceIs(w + x, 0, |w|);
    assert (w + x)[|w|..] == x;
  }

  function Abs(v: int): nat
  {
    if v < 0 then -v else v
  }

  predicate AllZeros(s: string)
  {
    forall i :: 0 <= i < |s| ==> s[i] == '0'
  }

  /** What may stand in front of the digits of `v` once white space is
      skipped: a sign ('-' only when `v` is not positive, and required when
      it is negative), then leading zeros. */
  predicate SignedLead(x: string, v: int)
  {
    var signed := |x| > 0 && (x[0] == '-' || x[0] == '+');
    AllZeros(if signed then x[1..] else x) &&
    (signed && x[0] == '-' ==> v <= 0) &&
    (v < 0 ==> signed && x[0] == '-')
  }

  /** Whether `s` is a way of writing `v` that `strtol` reads completely:
      the decimal digits of |v| at the end, and in front of them white
      space and then an allowed sign and zeros. */
  predicate WritesNumber(s: string, v: int)
  {
    WritesWith(s, NatToString(Abs(v)), v)
  }

  /** `s` ends in `digits`, with white space, a sign and zeros allowed for
      `v` in front. */
  predicate WritesWith(s: string, digits: string, v: int)
  {
    IsSuffix(digits, s) && SignedLead(SkipSpace(s[..|s| - |digits|]), v)
  }

  /** Leading zeros do not change the value of a digit string. */
  lemma {:induction false} ZerosValue(z: string, x: string)
    requires AllZeros(z) && AllDigits(x)
    ensures AllDigits(z + x) && DigitsValue(z + x) == DigitsValue(x)
    decreases |x| + |z|
  {
    if |x| == 0 {
      assert z + x == z;
      if |z| > 0 {
        assert z[..|z| - 1] + [] == z[..|z| - 1];
        ZerosValue(z[..|z| - 1], []);
      }
    } else {
      assert (z + x)[..|z + x| - 1] == z + x[..|x| - 1];
      ZerosValue(z, x[..|x| - 1]);
    }
  }

  /** A digit string not starting with '0' has a positive value. */
  lemma {:induction false} LeadingDigitPositive(x: string)
    requires |x| > 0 && AllDigits(x) && x[0] != '0'
    ensures DigitsValue(x) > 0
    decreases |x|
  {
    if |x| > 1 {
      LeadingDigitPositive(x[..|x| - 1]);
    }
  }

  /** A digit string without leading zeros is the rendering of its value. */
  lemma {:induction false} Canonical(x: string)
    requires |x| > 0 && AllDigits(x) && (|x| == 1 || x[0] != '0')
    ensures NatToString(DigitsValue(x)) == x
    decreases |x|
  {
    if |x| > 1 {
      var y := x[..|x| - 1];
      LeadingDigitPositive(y);
      Canonical(y);
      var n := DigitsValue(x);
      assert n / 10 == DigitsValue(y) && n % 10 == x[|x| - 1] as int - '0' as int;
      assert NatToString(n) == y + [x[|x| - 1]];
    }
  }

  /** Every non-empty digit string is zeros followed by the rendering of
      its value. */
  lemma {:induction false} SplitZeros(x: string) returns (k: nat)
    requires |x| > 0 && AllDigits(x)
    ensures k < |x| && AllZeros(x[..k]) && x[k..] == NatToString(DigitsValue(x))
    decreases |x|
  {
    if |x| == 1 || x[0] != '0' {
      Canonical(x);
      k := 0;
    } else {
      var y := x[1..];
      assert AllDigits(y);
      var k' := SplitZeros(y);
      k := k' + 1;
      assert x == [x[0]] + y;
      ZerosValue([x[0]], y);
      assert DigitsValue(x) == DigitsValue(y);
      assert x[k..] == y[k'..];
      assert x[..k] == [x[0]] + y[..k'];
    }
  }

  /** Conversion of an optional sign and digits, with nothing after them. */
  function ParseSigned(t: string): Option<int>
  {
    var signed := |t| > 0 && (t[0] == '-' || t[0] == '+');
    var body := if signed then t[1..] else t;
    if |body| == 0 || !AllDigits(body) then None
    else
      var v: int := if signed && t[0] == '-' then 0 - DigitsValue(body) as int else DigitsValue(body);
      if IntMin <= v <= IntMax then Some(v) else None
  }

  /** What the signed conversion accepts is a sign, zeros and the digits
      of the value. */
  lemma SignedWrites(t: string, v: int)
    requires ParseSigned(t) == Some(v)
    ensures IsSuffix(NatToString(Abs(v)), t) && SignedLead(t[..|t| - |NatToString(Abs(v))|], v)
  {
    if |t| > 0 && (t[0] == '-' || t[0] == '+') {
      SignWrites(t, v);
    } else {
      UnsignedWrites(t, v);
    }
  }

  lemma UnsignedWrites(t: string, v: int)
    requires ParseSigned(t) == Some(v) && !(|t| > 0 && (t[0] == '-' || t[0] == '+'))
    ensures IsSuffix(NatToString(Abs(v)), t) && SignedLead(t[..|t| - |NatToString(Abs(v))|], v)
  {
    assert AllDigits(t) && |t| > 0 && DigitsValue(t) == v && v >= 0;
    var k := SplitZeros(t);
    var digits := t[k..];
    assert NatToString(Abs(v)) == digits;
    assert t == t[..k] + digits;
    assert AllZeros(t[..k]);
    assert t[..|t| - |digits|] == t[..k];
  }

  lemma SignWrites(t: string, v: int)
    requires ParseSigned(t) == Some(v) && |t| > 0 && (t[0] == '-' || t[0] == '+')
    ensures IsSuffix(NatToString(Abs(v)), t) && SignedLead(t[..|t| - |NatToString(Abs(v))|], v)
  {
    var body := t[1..];
    assert AllDigits(body) && |body| > 0 && DigitsValue(body) == Abs(v);
    var k := SplitZeros(body);
    var digits := body[k..];
    var x := t[..k + 1];
    assert t == x + digits;
    assert x[0] == t[0] && x[1..] == body[..k];
    assert SignedLead(x, v);
  }

  /** Conversely, a sign, zeros and the digits of an `int` convert to it. */
  lemma WrittenSigned(t: string, v: int)
    requires IntMin <= v <= IntMax
    requires IsSuffix(NatToString(Abs(v)), t) && SignedLead(t[..|t| - |NatToString(Abs(v))|], v)
    ensures ParseSigned(t) == Some(v)
  {
    var digits := NatToString(Abs(v));
    var x := t[..|t| - |digits|];
    assert t == x + digits;
    SignedDigits(x, digits, v);
  }

  lemma SignedDigits(x: string, digits: string, v: int)
    requires IntMin <= v <= IntMax && SignedLead(x, v)
    requires |digits| > 0 && AllDigits(digits) && DigitsValue(digits) == Abs(v)
    ensures ParseSigned(x + digits) == Some(v)
  {
    if |x| > 0 && (x[0] == '-' || x[0] == '+') {
      SignDigits(x[0], x[1..], digits, v);
      assert x == [x[0]] + x[1..];
      assert x + digits == [x[0]] + x[1..] + digits;
    } else {
      UnsignedDigits(x, digits, v);
    }
  }

  lemma SignDigits(c: char, z: string, digits: string, v: int)
    requires c == '-' || c == '+'
    requires IntMin <= v <= IntMax && (c == '-' ==> v <= 0) && (c == '+' ==> v >= 0) && AllZeros(z)
    requires |digits| > 0 && AllDigits(digits) && DigitsValue(digits) == Abs(v)
    ensures ParseSigned([c] + z + digits) == Some(v)
  {
    ZerosValue(z, digits);
    var body := z + digits;
    assert [c] + z + digits == [c] + body;
    WithSign(c, body, v);
  }

  lemma UnsignedDigits(x: string, digits: string, v: int)
    requires IntMin <= v <= IntMax && SignedLead(x, v) && !(|x| > 0 && (x[0] == '-' || x[0] == '+'))
    requires |digits| > 0 && AllDigits(digits) && DigitsValue(digits) == Abs(v)
    ensures ParseSigned(x + digits) == Some(v)
  {
    ZerosValue(x, digits);
    WithoutSign(x + digits, v);
  }

  lemma WithoutSign(body: string, v: int)
    requires 0 <= v <= IntMax
    requires |body| > 0 && AllDigits(body) && DigitsValue(body) == v
    ensures ParseSigned(body) == Some(v)
  {
    assert IsDigit(body[0]);
  }

  lemma WithSign(c: char, body: string, v: int)
    requires c == '-' || c == '+'
    requires IntMin <= v <= IntMax && (c == '-' ==> v <= 0) && (c == '+' ==> v >= 0)
    requires |body| > 0 && AllDigits(body) && DigitsValue(body) == Abs(v)
    ensures ParseSigned([c] + body) == Some(v)
  {
    assert ([c] + body)[1..] == body;
  }

  /** Whole-string conversion to a C `int` (the string library's `atoi`
      on top of `strtol`): leading white space, an optional sign, at least
      one digit and nothing after the digits; a value outside the `int`
      range is refused. */
  function ParseInt(s: string): (r: Option<int>)
    ensures r.Some? ==> IntMin <= r.value <= IntMax
    ensures r.Some? ==> WritesNumber(s, r.value)
  {
    var t := SkipSpace(s);
    match ParseSigned(t)
    case None => None
    case Some(v) =>
      ReadNumberWrites(s, t, v);
      Some(v)
  }

  lemma ReadNumberWrites(s: string, t: string, v: int)
    requires t == SkipSpace(s) && ParseSigned(t) == Some(v)
    ensures IntMin <= v <= IntMax && WritesNumber(s, v)
  {
    SignedWrites(t, v);
    var digits := NatToString(Abs(v));
    var ws := SkippedSpace(s);
    SpaceBefore(ws, t, digits, v);
  }

  /** What SkipSpace skips is white space in front of what it keeps. */
  lemma SkippedSpace(s: string) returns (ws: string)
    ensures s == ws + SkipSpace(s)
    ensures forall i :: 0 <= i < |ws| ==> IsSpace(ws[i])
  {
    var t := SkipSpace(s);
    ws := s[..|s| - |t|];
    assert s == ws + t;
    forall i | 0 <= i < |ws| ensures IsSpace(ws[i]) { assert ws[i] == s[i]; }
  }

  /** White space in front of a signed number keeps it a written number. */
  lemma SpaceBefore(ws: string, t: string, digits: string, v: int)
    requires forall i :: 0 <= i < |ws| ==> IsSpace(ws[i])
    requires |t| > 0 ==> !IsSpace(t[0])
    requires IsSuffix(digits, t) && SignedLead(t[..|t| - |digits|], v)
    ensures WritesWith(ws + t, digits, v)
  {
    var x := t[..|t| - |digits|];
    assert t == x + digits;
    assert |x| > 0 ==> x[0] == t[0];
    var s := ws + t;
    assert s == (ws + x) + digits;
    assert s[..|s| - |digits|] == ws + x && s[|s| - |digits|..] == digits;
    SkipSpaceOf(ws, x);
    assert SkipSpace(s[..|s| - |digits|]) == x;
  }

  /** Conversely, every way of writing an `int` that `strtol` reads
      completely converts to it: together with ParseInt's contract,
      ParseInt(s) == Some(v) exactly when `s` writes `v` in range. */
  lemma ParseIntReadsWritten(s: string, v: int)
    requires IntMin <= v <= IntMax && WritesNumber(s, v)
    ensures ParseInt(s) == Some(v)
  {
    var digits := NatToString(Abs(v));
    assert |digits| > 0 && IsDigit(digits[0]) && AllDigits(digits) && DigitsValue(digits) == Abs(v);
    assert WritesWith(s, digits, v);
    var lead := SkipSpace(s[..|s| - |digits|]);
    assert SignedLead(lead, v);
    var x := SkipSpaceAhead(s, digits);
    assert x == lead;
    SignedDigits(x, digits, v);
    ParseIntOfSigned(s, v);
  }

  lemma ParseIntOfSigned(s: string, v: int)
    requires ParseSigned(SkipSpace(s)) == Some(v)
    ensures ParseInt(s) == Some(v)
  {
  }

  /** Skipping the white space of a written number leaves the sign, the
      zeros and the digits. */
  lemma SkipSpaceAhead(s: string, digits: string) returns (x: string)
    requires IsSuffix(digits, s) && |digits| > 0 && IsDigit(digits[0])
    ensures x == SkipSpace(s[..|s| - |digits|]) && SkipSpace(s) == x + digits
  {
    var lead := s[..|s| - |digits|];
    x := SkipSpace(lead);
    var ws := lead[..|lead| - |x|];
    assert lead == ws + x;
    assert s == ws + (x + digits);
    SkipSpaceOf(ws, x + digits);
  }

  /** Rendering a number in C `int` range and converting it back is the
      identity. */
  lemma IntToStringRoundTrip(n: int)
    requires IntMin <= n <= IntMax
    ensures ParseInt(IntToString(n)) == Some(n)
  {
    var s := IntToString(n);
    var digits := NatToString(Abs(n));
    assert IsSuffix(digits, s);
    if n < 0 {
      assert s[..|s| - |digits|] == "-";
      SkipSpaceOf([], "-");
      assert [] + "-" == "-";
    } else {
      assert s[..|s| - |digits|] == [];
      SkipSpaceOf([], []);
    }
    ParseIntReadsWritten(s, n);
  }

  // Common prefixes

  /** Length of the longest common prefix of `a` and `b`, searched from `i`. */
  function CommonPrefixFrom(a: string, b: string, i: nat): (n: nat)
    requires i <= |a| && i <= |b| && a[..i] == b[..i]
    ensures i <= n <= |a| && n <= |b| && a[..n] == b[..n]
    ensures n == |a| || n == |b| || a[n] != b[n]
    decreases |a| - i
  {
    if i == |a| || i == |b| || a[i] != b[i] then i
    else
      assert a[..i + 1] == a[..i] + [a[i]] && b[..i + 1] == b[..i] + [b[i]];
      CommonPrefixFrom(a, b, i + 1)
  }

  /** `a` cut at the first position where it differs from `b`. */
  function CommonPrefix(a: string, b: string): (r: string)
    ensures IsPrefix(r, a) && IsPrefix(r, b)
    ensures |r| == |a| || |r| == |b| || a[|r|] != b[|r|]
  {
    a[..CommonPrefixFrom(a, b, 0)]
  }

  /** Every common prefix of `a` and `b` is a prefix of CommonPrefix(a, b). */
  lemma CommonPrefixLongest(a: string, b: string, p: string)
    requires IsPrefix(p, a) && IsPrefix(p, b)
    ensures IsPrefix(p, CommonPrefix(a, b))
  {
  }

  // Function tables

  /** The handler of the first row of a function table whose operation is
      `op`; the tables end at the first row whose operation is zero, which
      the model leaves out of the sequence. */
  function Lookup<H(==)>(table: seq<(int, H)>, op: int): (r: Option<H>)
    ensures r.None? <==> forall i :: 0 <= i < |table| ==> table[i].0 != op
    ensures r.Some? ==> exists i :: 0 <= i < |table| && table[i].0 == op && table[i].1 == r.value &&
                          forall j :: 0 <= j < i ==> table[j].0 != op
  {
    if |table| == 0 then None
    else if table[0].0 == op then Some(table[0].1)
    else
      var r := Lookup(table[1..], op);
      assert r.Some? ==> exists i :: 1 <= i < |table| && table[i].0 == op && table[i].1 == r.value &&
                          forall j :: 0 <= j < i ==> table[j].0 != op by {
        if r.Some? {
          var k :| 0 <= k < |table| - 1 && table[1..][k].0 == op && table[1..][k].1 == r.value &&
                   forall j :: 0 <= j < k ==> table[1..][j].0 != op;
          assert forall j :: 1 <= j < k + 1 ==> table[j].0 != op by {
            forall j | 1 <= j < k + 1 ensures table[j].0 != op {
              assert table[j] == table[1..][j - 1];
            }
          }
        }
      }
      r
  }
}

=== FILE: complete.dfy ===
/** Completion of a partly typed path: the text is split into a directory
    part and a file part, the directory is read, and the file part is
    extended to the longest prefix shared by the entries that start with
    it. */
module Complete {
  import opened Common
  import opened Posix

  /** What completion consults: the file system, $folder and $spool_file
      (empty when unset), path expansion, and the test for IMAP paths. */
  datatype CompleteEnv = CompleteEnv(
    fs: FileSystem,
    folder: string,
    spoolFile: string,
    expand: string -> string,
    isImap: string -> bool)

  /** The pieces of the typed text: the directory part as typed, the
      directory it stands for, the file part, and the directory to read. */
  datatype Parts = Parts(dirpart: string, expDirpart: string, filepart: string, openPath: string)

  predicate IsMailboxShortcut(c: char)
  {
    c == '=' || c == '+' || c == '!'
  }

  /** Splits the typed text at its last '/'. A leading '=' or '+' stands for
      $folder and '!' for $spool_file, joined to the rest of the directory
      part with a '/' whenever both are non-empty (even when $folder ends in
      one); a single leading '/' is the root; text without '/' names
      something in the current directory. */
  function SplitBuffer(buf: string, env: CompleteEnv): (p: Parts)
    ensures |buf| > 0 && IsMailboxShortcut(buf[0]) ==> |p.dirpart| > 0 && p.dirpart[0] == buf[0]
    ensures |buf| > 0 && IsMailboxShortcut(buf[0]) ==>
              IsPrefix(if buf[0] == '!' then env.spoolFile else env.folder, p.expDirpart)
    ensures !Contains(p.filepart, '/')
    ensures IsSuffix(p.filepart, buf)
  {
    if |buf| > 0 && IsMailboxShortcut(buf[0]) then
      var base := if buf[0] == '!' then env.spoolFile else env.folder;
      match LastIndexOf(buf, '/')
      case Some(i) =>
        assert i >= 1;
        var exp := if |base| > 0 && i > 1 then base + "/" + buf[1..i] else base + buf[1..i];
        Parts(buf[..i + 1], exp, buf[i + 1..], exp)
      case None =>
        Parts([buf[0]], base, buf[1..], base)
    else
      match LastIndexOf(buf, '/')
      case Some(i) =>
        if i == 0 then Parts("/", "", buf[1..], "/")
        else
          var exp := env.expand(buf[..i]);
          Parts(buf[..i], exp, buf[i + 1..], exp)
      case None => Parts("", "", buf, ".")
  }

  /** Puts the directory part back in front of the file part, with a '/'
      between them unless the directory part is the root or a $folder
      shortcut. */
  function Join(dirpart: string, filepart: string): (r: string)
    ensures IsSuffix(filepart, r)
    ensures IsPrefix(dirpart, r)
  {
    if |dirpart| == 0 then filepart
    else if dirpart != "/" && dirpart[0] != '=' && dirpart[0] != '+' then dirpart + "/" + filepart
    else dirpart + filepart
  }

  /** Splitting and joining again gives back the typed text, unless it
      starts with the $spool_file shortcut '!' (which gains a '/') or with
      two slashes before the file part (which lose one). */
  lemma SplitJoinRoundTrip(buf: string, env: CompleteEnv)
    requires |buf| == 0 || buf[0] != '!'
    requires SplitBuffer(buf, env).dirpart != "/" || (buf[0] == '/' && !Contains(buf[1..], '/'))
    ensures Join(SplitBuffer(buf, env).dirpart, SplitBuffer(buf, env).filepart) == buf
  {
    var p := SplitBuffer(buf, env);
    if |buf| > 0 && IsMailboxShortcut(buf[0]) {
      match LastIndexOf(buf, '/')
      case Some(i) =>
        assert buf[..i + 1] + buf[i + 1..] == buf;
      case None =>
        assert [buf[0]] + buf[1..] == buf;
    } else {
      match LastIndexOf(buf, '/')
      case Some(i) =>
        if i == 0 {
          assert "/" + buf[1..] == buf;
        } else {
          assert buf[..i] + "/" + buf[i + 1..] == buf;
        }
      case None =>
    }
  }

  // Reading the directory

  function Min(a: nat, b: nat): nat { if a < b then a else b }

  /** Whether two strings agree on their first `n` characters, the end of a
      string counting as a character of its own (strncmp == 0). */
  predicate StrnEqual(a: string, b: string, n: nat)
  {
    a[..Min(n, |a|)] == b[..Min(n, |b|)]
  }

  /** The file part being built, and whether some entry has matched yet. */
  datatype ScanState = ScanState(filepart: string, init: bool)

  /** One directory entry: an entry that agrees with the file part on the
      first `len` characters either seeds the file part (with a '/' when it
      is a directory) or cuts the file part down to what they share. */
  function Step(name: string, len: nat, st: ScanState, isDir: string -> bool): ScanState
  {
    if !StrnEqual(name, st.filepart, len) then st
    else if st.init then ScanState(CommonPrefix(st.filepart, name), true)
    else ScanState(if isDir(name) then name + "/" else name, true)
  }

  function ScanEntries(names: seq<string>, len: nat, st: ScanState, isDir: string -> bool): ScanState
    decreases |names|
  {
    if |names| == 0 then st else ScanEntries(names[1..], len, Step(names[0], len, st, isDir), isDir)
  }

  predicate IsDotEntry(name: string)
  {
    name == "." || name == ".."
  }

  function FirstNonDot(names: seq<string>): (r: Option<nat>)
    ensures r.Some? ==> r.value < |names| && !IsDotEntry(names[r.value]) &&
                        forall j :: 0 <= j < r.value ==> IsDotEntry(names[j])
    ensures r.None? ==> forall j :: 0 <= j < |names| ==> IsDotEntry(names[j])
    decreases |names|
  {
    if |names| == 0 then None
    else if !IsDotEntry(names[0]) then Some(0)
    else match FirstNonDot(names[1..])
      case None => None
      case Some(k) => Some(k + 1)
  }

  /** Completes the file part `typed` against the directory entries
      `names`. With nothing typed, the first entry other than "." and ".."
      seeds the file part; `isDir` says which entries the directory test
      accepts. */
  function CompleteFilepart(names: seq<string>, typed: string, isDir: string -> bool): (r: ScanState)
    ensures r.init ==> IsPrefix(typed, r.filepart)
    ensures !r.init ==> r.filepart == typed
  {
    if |typed| == 0 then
      match FirstNonDot(names)
      case None => ScanState(typed, false)
      case Some(k) =>
        SeededScan(names[k + 1..], typed, ScanState(names[k], true), isDir);
        ScanEntries(names[k + 1..], 0, ScanState(names[k], true), isDir)
    else
      TypedScan(names, typed, isDir);
      ScanEntries(names, |typed|, ScanState(typed, false), isDir)
  }

  /** With something typed, the scan either matched and extends what was
      typed, or matched nothing and leaves it as typed. */
  lemma TypedScan(names: seq<string>, typed: string, isDir: string -> bool)
    requires |typed| > 0
    ensures var r := ScanEntries(names, |typed|, ScanState(typed, false), isDir);
            (r.init ==> Extends(r, typed)) && (!r.init ==> r.filepart == typed)
  {
    if k :| 0 <= k < |names| && IsPrefix(typed, names[k]) {
      var first := FirstMatch(names, typed, k);
      UnseededScanFirst(names, typed, isDir, first);
      SeededScan(names[first + 1..], typed, ScanState(SeedOf(names[first], isDir), true), isDir);
    } else {
      UnseededScanNone(names, typed, isDir);
    }
  }

  // Properties of the scan

  /** While the file part still begins with what was typed, the entry test
      is "starts with what was typed". */
  lemma StrnEqualIsPrefix(name: string, fp: string, typed: string)
    requires |fp| >= |typed| && fp[..|typed|] == typed
    ensures StrnEqual(name, fp, |typed|) <==> IsPrefix(typed, name)
  {
  }

  predicate Extends(st: ScanState, typed: string)
  {
    IsPrefix(typed, st.filepart)
  }

  /** Once seeded, the scan keeps what was typed, only ever shortens the
      file part, and leaves it a prefix of every later entry that starts
      with what was typed. */
  lemma {:induction false} SeededScan(names: seq<string>, typed: string, st: ScanState, isDir: string -> bool)
    requires st.init && Extends(st, typed)
    ensures ScanEntries(names, |typed|, st, isDir).init
    ensures Extends(ScanEntries(names, |typed|, st, isDir), typed)
    ensures IsPrefix(ScanEntries(names, |typed|, st, isDir).filepart, st.filepart)
    ensures forall j :: 0 <= j < |names| && IsPrefix(typed, names[j]) ==>
              IsPrefix(ScanEntries(names, |typed|, st, isDir).filepart, names[j])
    decreases |names|
  {
    if |names| > 0 {
      var len := |typed|;
      StrnEqualIsPrefix(names[0], st.filepart, typed);
      var next := Step(names[0], len, st, isDir);
      if IsPrefix(typed, names[0]) {
        CommonPrefixLongest(st.filepart, names[0], typed);
      }
      SeededScan(names[1..], typed, next, isDir);
      var r := ScanEntries(names, len, st, isDir);
      assert r == ScanEntries(names[1..], len, next, isDir);
      forall j | 0 <= j < |names| && IsPrefix(typed, names[j])
        ensures IsPrefix(r.filepart, names[j])
      {
        if j > 0 {
          assert names[1..][j - 1] == names[j];
        }
      }
    }
  }

  /** ... and it is the longest such prefix: whatever is a prefix of the
      seeded file part and of every later matching entry is a prefix of the
      result. */
  lemma {:induction false} SeededScanLongest(names: seq<string>, typed: string, st: ScanState, isDir: string -> bool, p: string)
    requires st.init && Extends(st, typed)
    requires IsPrefix(p, st.filepart)
    requires forall j :: 0 <= j < |names| && IsPrefix(typed, names[j]) ==> IsPrefix(p, names[j])
    ensures IsPrefix(p, ScanEntries(names, |typed|, st, isDir).filepart)
    decreases |names|
  {
    if |names| > 0 {
      var len := |typed|;
      StrnEqualIsPrefix(names[0], st.filepart, typed);
      var next := Step(names[0], len, st, isDir);
      if IsPrefix(typed, names[0]) {
        CommonPrefixLongest(st.filepart, names[0], typed);
        CommonPrefixLongest(st.filepart, names[0], p);
      }
      forall j | 0 <= j < |names[1..]| && IsPrefix(typed, names[1..][j])
        ensures IsPrefix(p, names[1..][j])
      {
        assert names[1..][j] == names[j + 1];
      }
      SeededScanLongest(names[1..], typed, next, isDir, p);
    }
  }

  /** Before any entry matched, entries that do not start with what was
      typed are skipped ... */
  lemma {:induction false} UnseededScanNone(names: seq<string>, typed: string, isDir: string -> bool)
    requires |typed| > 0
    requires forall j :: 0 <= j < |names| ==> !IsPrefix(typed, names[j])
    ensures ScanEntries(names, |typed|, ScanState(typed, false), isDir) == ScanState(typed, false)
    decreases |names|
  {
    if |names| > 0 {
      StrnEqualIsPrefix(names[0], typed, typed);
      forall j | 0 <= j < |names[1..]| ensures !IsPrefix(typed, names[1..][j]) {
        assert names[1..][j] == names[j + 1];
      }
      UnseededScanNone(names[1..], typed, isDir);
    }
  }

  /** ... and the first entry that does start with it seeds the file part. */
  lemma {:induction false} UnseededScanFirst(names: seq<string>, typed: string, isDir: string -> bool, k: nat)
    requires |typed| > 0
    requires k < |names| && IsPrefix(typed, names[k])
    requires forall j :: 0 <= j < k ==> !IsPrefix(typed, names[j])
    ensures ScanEntries(names, |typed|, ScanState(typed, false), isDir) ==
            ScanEntries(names[k + 1..], |typed|, ScanState(SeedOf(names[k], isDir), true), isDir)
    decreases k
  {
    StrnEqualIsPrefix(names[0], typed, typed);
    if k == 0 {
      assert names[0 + 1..] == names[1..];
    } else {
      assert names[1..][k - 1] == names[k];
      assert names[1..][k - 1 + 1..] == names[k + 1..];
      forall j | 0 <= j < k - 1 ensures !IsPrefix(typed, names[1..][j]) {
        assert names[1..][j] == names[j + 1];
      }
      UnseededScanFirst(names[1..], typed, isDir, k - 1);
    }
  }

  /** The seed an entry gives: its name, with a '/' when it is a directory. */
  function SeedOf(name: string, isDir: string -> bool): string
  {
    if isDir(name) then name + "/" else name
  }

  /** Completion succeeds exactly when there is something to complete to:
      any entry other than "." and ".." when nothing was typed, otherwise
      an entry that starts with what was typed; and a success never loses
      the typed text. */
  lemma CompleteFilepartFinds(names: seq<string>, typed: string, isDir: string -> bool)
    ensures CompleteFilepart(names, typed, isDir).init <==>
            if |typed| == 0 then exists j :: 0 <= j < |names| && !IsDotEntry(names[j])
            else exists j :: 0 <= j < |names| && IsPrefix(typed, names[j])
    ensures CompleteFilepart(names, typed, isDir).init ==> Extends(CompleteFilepart(names, typed, isDir), typed)
    ensures !CompleteFilepart(names, typed, isDir).init ==> CompleteFilepart(names, typed, isDir).filepart == typed
  {
    if |typed| == 0 {
      match FirstNonDot(names)
      case None =>
      case Some(k) =>
        SeededScan(names[k + 1..], typed, ScanState(names[k], true), isDir);
    } else {
      if k :| 0 <= k < |names| && IsPrefix(typed, names[k]) {
        var first := FirstMatch(names, typed, k);
        UnseededScanFirst(names, typed, isDir, first);
        SeededScan(names[first + 1..], typed, ScanState(SeedOf(names[first], isDir), true), isDir);
      } else {
        UnseededScanNone(names, typed, isDir);
      }
    }
  }

  /** The first entry that starts with `typed`, given that entry `k` does. */
  function FirstMatch(names: seq<string>, typed: string, k: nat): (f: nat)
    requires k < |names| && IsPrefix(typed, names[k])
    ensures f <= k && IsPrefix(typed, names[f])
    ensures forall j :: 0 <= j < f ==> !IsPrefix(typed, names[j])
  {
    if exists j :: 0 <= j < k && IsPrefix(typed, names[j]) then
      var j :| 0 <= j < k && IsPrefix(typed, names[j]);
      FirstMatch(names, typed, j)
    else k
  }

  /** The completed file part is the longest common prefix of the seed and
      of every later entry that starts with what was typed: it is a prefix
      of each of them, and every common prefix of them is a prefix of it. */
  lemma CompletionIsLongestCommonPrefix(names: seq<string>, typed: string, isDir: string -> bool, k: nat, p: string)
    requires k < |names| && IsPrefix(typed, names[k]) && |typed| > 0
    requires forall j :: 0 <= j < k ==> !IsPrefix(typed, names[j])
    ensures var r := CompleteFilepart(names, typed, isDir).filepart;
            IsPrefix(r, SeedOf(names[k], isDir)) &&
            (forall j :: k < j < |names| && IsPrefix(typed, names[j]) ==> IsPrefix(r, names[j]))
    ensures IsPrefix(p, SeedOf(names[k], isDir)) &&
            (forall j :: k < j < |names| && IsPrefix(typed, names[j]) ==> IsPrefix(p, names[j])) ==>
            IsPrefix(p, CompleteFilepart(names, typed, isDir).filepart)
  {
    UnseededScanFirst(names, typed, isDir, k);
    var seed := ScanState(SeedOf(names[k], isDir), true);
    var rest := names[k + 1..];
    SeededScan(rest, typed, seed, isDir);
    forall j | k < j < |names| && IsPrefix(typed, names[j])
      ensures IsPrefix(CompleteFilepart(names, typed, isDir).filepart, names[j])
    {
      assert rest[j - k - 1] == names[j];
    }
    if IsPrefix(p, SeedOf(names[k], isDir)) &&
       (forall j :: k < j < |names| && IsPrefix(typed, names[j]) ==> IsPrefix(p, names[j])) {
      forall j | 0 <= j < |rest| && IsPrefix(typed, rest[j]) ensures IsPrefix(p, rest[j]) {
        assert rest[j] == names[j + k + 1];
      }
      SeededScanLongest(rest, typed, seed, isDir, p);
    }
  }

  /** With nothing typed, the first entry other than "." and ".." seeds the
      file part and every later entry, dots included, cuts it down: the
      result is the longest common prefix of that entry and all that follow
      it. */
  lemma EmptyCompletionIsLongestCommonPrefix(names: seq<string>, isDir: string -> bool, k: nat, p: string)
    requires k < |names| && !IsDotEntry(names[k])
    requires forall j :: 0 <= j < k ==> IsDotEntry(names[j])
    ensures CompleteFilepart(names, "", isDir).init
    ensures var r := CompleteFilepart(names, "", isDir).filepart;
            IsPrefix(r, names[k]) && (forall j :: k < j < |names| ==> IsPrefix(r, names[j]))
    ensures IsPrefix(p, names[k]) && (forall j :: k < j < |names| ==> IsPrefix(p, names[j])) ==>
            IsPrefix(p, CompleteFilepart(names, "", isDir).filepart)
  {
    assert FirstNonDot(names) == Some(k);
    var seed := ScanState(names[k], true);
    var rest := names[k + 1..];
    SeededScan(rest, "", seed, isDir);
    forall j | k < j < |names|
      ensures IsPrefix(CompleteFilepart(names, "", isDir).filepart, names[j])
    {
      assert rest[j - k - 1] == names[j];
      assert IsPrefix("", rest[j - k - 1]);
    }
    if IsPrefix(p, names[k]) && (forall j :: k < j < |names| ==> IsPrefix(p, names[j])) {
      forall j | 0 <= j < |rest| && IsPrefix("", rest[j]) ensures IsPrefix(p, rest[j]) {
        assert rest[j] == names[j + k + 1];
      }
      SeededScanLongest(rest, "", seed, isDir, p);
    }
  }

  // The whole completion

  /** What completion does with the text: either it rewrites it and reports
      0 (something matched) or -1, or the text names an IMAP mailbox and the
      IMAP completer takes over with the given path. */
  datatype Outcome = Completed(rc: int, buf: string) | ImapCompletion(path: string)

  /** The directory test used when an entry seeds the file part: `stat` the
      entry and test its mode. `strict` selects the file-type test; otherwise
      any mode with the directory bit set passes, as the code has it. */
  function EntryIsDir(env: CompleteEnv, p: Parts, strict: bool): string -> bool
  {
    name =>
      var path := (if |p.dirpart| == 0 then "" else p.expDirpart + "/") + name;
      match StatOf(env.fs, path)
      case Found(st) => if strict then IsDir(st.mode) else HasBit(st.mode, TypeDir)
      case Failed(_) => false
  }

  /** The path the IMAP test is applied to. */
  function ImapPath(buf: string, env: CompleteEnv): string
  {
    if |buf| > 0 && IsMailboxShortcut(buf[0]) then
      ConcatPath(if buf[0] == '!' then env.spoolFile else env.folder, buf[1..])
    else buf
  }

  function CompleteWith(buf: string, env: CompleteEnv, strict: bool): (r: Outcome)
    ensures r.Completed? && r.rc == 0 ==> IsPrefix(SplitBuffer(buf, env).dirpart, r.buf)
  {
    if env.isImap(ImapPath(buf, env)) then ImapCompletion(ImapPath(buf, env))
    else
      var p := SplitBuffer(buf, env);
      if p.openPath !in env.fs.dirs then Completed(-1, buf)
      else
        var st := CompleteFilepart(env.fs.dirs[p.openPath], p.filepart, EntryIsDir(env, p, strict));
        Completed(if st.init then 0 else -1, Join(p.dirpart, st.filepart))
  }

  /** Completion as the code has it: the directory test accepts any mode
      with the directory bit, so block devices and sockets count too. */
  function MuttCompleteAsWritten(buf: string, env: CompleteEnv): (r: Outcome)
    ensures r.ImapCompletion? <==> env.isImap(ImapPath(buf, env))
    ensures r.Completed? ==> (r.rc == 0 || r.rc == -1)
    ensures r.Completed? && r.rc == 0 ==>
              var p := SplitBuffer(buf, env);
              p.openPath in env.fs.dirs &&
              r.buf == Join(p.dirpart, CompleteFilepart(env.fs.dirs[p.openPath], p.filepart, EntryIsDir(env, p, false)).filepart)
    ensures r.Completed? && !(SplitBuffer(buf, env).openPath in env.fs.dirs) ==> r == Completed(-1, buf)
  {
    CompleteWith(buf, env, false)
  }

  /** Completion with the directory test meaning "is a directory". */
  function MuttComplete(buf: string, env: CompleteEnv): (r: Outcome)
    ensures r.Completed? ==> (r.rc == 0 || r.rc == -1)
    ensures r.Completed? && r.rc == 0 ==>
              var p := SplitBuffer(buf, env);
              p.openPath in env.fs.dirs &&
              r.buf == Join(p.dirpart, CompleteFilepart(env.fs.dirs[p.openPath], p.filepart, EntryIsDir(env, p, true)).filepart)
    ensures r.Completed? && !(SplitBuffer(buf, env).openPath in env.fs.dirs) ==> r == Completed(-1, buf)
  {
    CompleteWith(buf, env, true)
  }

  /** A successful completion keeps the whole typed text in front: the
      directory part, then the typed file part, then what was added. */
  lemma CompletionExtendsTypedText(buf: string, env: CompleteEnv)
    requires MuttComplete(buf, env).Completed? && MuttComplete(buf, env).rc == 0
    ensures var p := SplitBuffer(buf, env);
            IsPrefix(Join(p.dirpart, p.filepart), MuttComplete(buf, env).buf)
  {
    var p := SplitBuffer(buf, env);
    var names := env.fs.dirs[p.openPath];
    var isDir := EntryIsDir(env, p, true);
    CompleteFilepartFinds(names, p.filepart, isDir);
    var fp := CompleteFilepart(names, p.filepart, isDir).filepart;
    JoinExtends(p.dirpart, p.filepart, fp);
  }

  /** Joining keeps prefixes: a longer file part gives a longer path. */
  lemma JoinExtends(d: string, a: string, b: string)
    requires IsPrefix(a, b)
    ensures IsPrefix(Join(d, a), Join(d, b))
  {
    if |d| == 0 {
    } else if d != "/" && d[0] != '=' && d[0] != '+' {
      PrefixUnder(d + "/", a, b);
    } else {
      PrefixUnder(d, a, b);
    }
  }

  /** The same text in front keeps a prefix a prefix. */
  lemma PrefixUnder(pre: string, a: string, b: string)
    requires IsPrefix(a, b)
    ensures IsPrefix(pre + a, pre + b)
  {
    var c := b[|a|..];
    assert b == a + c;
    assert pre + b == (pre + a) + c;
    assert (pre + b)[..|pre + a|] == pre + a;
  }

  /** A block device in the directory: typing "/dev/sd" next to it. */
  function BlockDeviceEnv(): CompleteEnv
  {
    CompleteEnv(
      FileSystem(map["/dev/sda" := Stat(TypeBlock | UserRead | UserWrite | GroupRead | GroupWrite, 0, 0, 0, 6, 1)],
                 {}, map[], map["/dev" := ["sda"]]),
      "", "", s => s, s => false)
  }

  /** As the code has it, completing "/dev/sd" next to the block device
      /dev/sda appends a '/' as if it were a directory; the corrected test
      does not. */
  lemma BlockDeviceCompletesAsDirectory()
    ensures MuttCompleteAsWritten("/dev/sd", BlockDeviceEnv()) == Completed(0, "/dev/sda/")
    ensures MuttComplete("/dev/sd", BlockDeviceEnv()) == Completed(0, "/dev/sda")
  {
    BlockDeviceAsWritten();
    BlockDeviceCorrected();
  }

  /** The split of "/dev/sd": the directory "/dev" and the file part "sd". */
  lemma BlockDeviceSplit()
    ensures SplitBuffer("/dev/sd", BlockDeviceEnv()) == Parts("/dev", "/dev", "sd", "/dev")
    ensures EntryIsDir(BlockDeviceEnv(), Parts("/dev", "/dev", "sd", "/dev"), false)("sda")
    ensures !EntryIsDir(BlockDeviceEnv(), Parts("/dev", "/dev", "sd", "/dev"), true)("sda")
  {
    var buf := "/dev/sd";
    assert LastIndexOf(buf, '/') == Some(4) by {
      assert buf[4] == '/' && buf[5] != '/' && buf[6] != '/';
      assert LastIndexOf(buf[..6], '/') == LastIndexOf(buf[..5], '/');
    }
    BlockDeviceModes();
  }

  /** The block device /dev/sda has the directory bit pattern's bit set
      without being a directory. */
  lemma BlockDeviceModes()
    ensures EntryIsDir(BlockDeviceEnv(), Parts("/dev", "/dev", "sd", "/dev"), false)("sda")
    ensures !EntryIsDir(BlockDeviceEnv(), Parts("/dev", "/dev", "sd", "/dev"), true)("sda")
  {
    var env := BlockDeviceEnv();
    var parts := Parts("/dev", "/dev", "sd", "/dev");
    var mode: Mode := TypeBlock | UserRead | UserWrite | GroupRead | GroupWrite;
    assert mode == 0x61B0;
    assert HasBit(mode, TypeDir) && !IsDir(mode);
    assert ("/dev" + "/") + "sda" == "/dev/sda";
    assert "/dev/sda" in env.fs.stat && env.fs.stat["/dev/sda"].mode == mode;
    assert StatOf(env.fs, "/dev/sda") == Found(env.fs.stat["/dev/sda"]);
    assert EntryIsDir(env, parts, false)("sda") == HasBit(mode, TypeDir);
    assert EntryIsDir(env, parts, true)("sda") == IsDir(mode);
  }

  lemma BlockDeviceAsWritten()
    ensures MuttCompleteAsWritten("/dev/sd", BlockDeviceEnv()) == Completed(0, "/dev/sda/")
  {
    var env := BlockDeviceEnv();
    BlockDeviceSplit();
    var p := SplitBuffer("/dev/sd", env);
    var names := ["sda"];
    assert IsPrefix("sd", names[0]);
    UnseededScanFirst(names, "sd", EntryIsDir(env, p, false), 0);
    assert names[1..] == [];
  }

  lemma BlockDeviceCorrected()
    ensures MuttComplete("/dev/sd", BlockDeviceEnv()) == Completed(0, "/dev/sda")
  {
    var env := BlockDeviceEnv();
    BlockDeviceSplit();
    var p := SplitBuffer("/dev/sd", env);
    var names := ["sda"];
    assert IsPrefix("sd", names[0]);
    UnseededScanFirst(names, "sd", EntryIsDir(env, p, true), 0);
    assert names[1..] == [];
  }
}

=== FILE: gui.dfy ===
/** The window tree and the search for a window whose function dispatcher
    handles an operation, plus the dispatcher of the global functions. */
module Gui {
  import opened Common
  import Op = Opcodes

  datatype WindowType =
    | RootWindow | AllDialogsWindow | DialogWindow | ContainerWindow
    | CustomWindow | MenuWindow | PagerWindow | IndexWindow
    | SidebarWindow | HelpBarWindow | MessageWindow | StatusBarWindow

  /** A window: its type, whether it is visible, its function dispatcher if
      it has one, its children in order, the child that has the focus and
      its private data (a menu, for menu windows). */
  datatype Window<D> = Window(
    wtype: WindowType,
    visible: bool,
    handler: Option<int -> Retval>,
    children: seq<Window<D>>,
    focus: Option<nat>,
    wdata: Option<D>)

  /** What a window's own dispatcher answers for `op`. */
  function Own<D>(w: Window<D>, op: int): Retval
  {
    if w.handler.Some? then w.handler.value(op) else Unknown
  }

  /** Searches a window and then its children, depth first and in order, for
      a dispatcher that handles `op`; the child at position `ignore` (the one
      the caller has searched already) is skipped and invisible windows are
      not entered. */
  function TraverseTree<D>(w: Window<D>, ignore: Option<nat>, op: int): (r: Retval)
    ensures !w.visible ==> r == Unknown
    ensures w.visible && Own(w, op) != Unknown ==> r == Own(w, op)
    decreases w, 1
  {
    if !w.visible then Unknown
    else if Own(w, op) != Unknown then Own(w, op)
    else TraverseChildren(w, 0, ignore, op)
  }

  function TraverseChildren<D>(w: Window<D>, i: nat, ignore: Option<nat>, op: int): Retval
    requires i <= |w.children|
    decreases w, 0, |w.children| - i
  {
    if i == |w.children| then Unknown
    else if ignore == Some(i) then TraverseChildren(w, i + 1, ignore, op)
    else
      var rc := TraverseTree(w.children[i], None, op);
      if rc != Unknown then rc else TraverseChildren(w, i + 1, ignore, op)
  }

  /** Reference order of a search: the visible windows of the tree in
      depth-first order, without the ignored child's subtree. */
  function Visits<D>(w: Window<D>, ignore: Option<nat>): seq<Window<D>>
    decreases w, 1
  {
    if !w.visible then [] else [w] + VisitsChildren(w, 0, ignore)
  }

  function VisitsChildren<D>(w: Window<D>, i: nat, ignore: Option<nat>): seq<Window<D>>
    requires i <= |w.children|
    decreases w, 0, |w.children| - i
  {
    if i == |w.children| then []
    else if ignore == Some(i) then VisitsChildren(w, i + 1, ignore)
    else Visits(w.children[i], None) + VisitsChildren(w, i + 1, ignore)
  }

  /** The answer of the first window in `ws` whose dispatcher handles `op`. */
  function FirstHandled<D>(ws: seq<Window<D>>, op: int): Retval
  {
    if |ws| == 0 then Unknown
    else if Own(ws[0], op) != Unknown then Own(ws[0], op)
    else FirstHandled(ws[1..], op)
  }

  lemma {:induction false} FirstHandledAppend<D>(a: seq<Window<D>>, b: seq<Window<D>>, op: int)
    ensures FirstHandled(a + b, op) ==
            if FirstHandled(a, op) != Unknown then FirstHandled(a, op) else FirstHandled(b, op)
    decreases |a|
  {
    if |a| > 0 {
      assert (a + b)[1..] == a[1..] + b;
      FirstHandledAppend(a[1..], b, op);
    } else {
      assert a + b == b;
    }
  }

  /** The search answers what the first window of the reference order that
      handles `op` answers. */
  lemma {:induction false} TraverseTreeInOrder<D>(w: Window<D>, ignore: Option<nat>, op: int)
    ensures TraverseTree(w, ignore, op) == FirstHandled(Visits(w, ignore), op)
    decreases w, 1
  {
    if w.visible {
      var rest := VisitsChildren(w, 0, ignore);
      assert ([w] + rest)[1..] == rest;
      TraverseChildrenInOrder(w, 0, ignore, op);
    }
  }

  lemma {:induction false} TraverseChildrenInOrder<D>(w: Window<D>, i: nat, ignore: Option<nat>, op: int)
    requires i <= |w.children|
    ensures TraverseChildren(w, i, ignore, op) == FirstHandled(VisitsChildren(w, i, ignore), op)
    decreases w, 0, |w.children| - i
  {
    if i < |w.children| {
      TraverseChildrenInOrder(w, i + 1, ignore, op);
      if ignore != Some(i) {
        TraverseTreeInOrder(w.children[i], None, op);
        FirstHandledAppend(Visits(w.children[i], None), VisitsChildren(w, i + 1, ignore), op);
      }
    }
  }

  // Climbing from a window to the root

  /** `path` lists child positions leading from `root` to a window. */
  predicate ValidPath<D>(root: Window<D>, path: seq<nat>)
    decreases |path|
  {
    |path| == 0 || (path[0] < |root.children| && ValidPath(root.children[path[0]], path[1..]))
  }

  function At<D>(root: Window<D>, path: seq<nat>): Window<D>
    requires ValidPath(root, path)
    decreases |path|
  {
    if |path| == 0 then root else At(root.children[path[0]], path[1..])
  }

  /** A window is visible on screen when it and all its ancestors are. */
  predicate VisibleAlong<D>(root: Window<D>, path: seq<nat>)
    requires ValidPath(root, path)
    decreases |path|
  {
    root.visible && (|path| == 0 || VisibleAlong(root.children[path[0]], path[1..]))
  }

  /** The windows searched when climbing from the window at `path`: first the
      window itself, then each ancestor up to the root, each ancestor
      skipping the child the climb came from. */
  function Chain<D>(root: Window<D>, path: seq<nat>): (c: seq<(Window<D>, Option<nat>)>)
    requires ValidPath(root, path)
    ensures |c| == |path| + 1
    ensures c[0] == (At(root, path), None)
    ensures c[|path|].0 == root
    decreases |path|
  {
    if |path| == 0 then [(root, None)]
    else Chain(root.children[path[0]], path[1..]) + [(root, Some(path[0]))]
  }

  /** The climb answers with the first subtree search along the chain
      that handles the operation. */
  function ClimbChain<D>(chain: seq<(Window<D>, Option<nat>)>, op: int): (r: Retval)
    ensures r != Unknown ==> exists k :: 0 <= k < |chain| && TraverseTree(chain[k].0, chain[k].1, op) == r
    ensures |chain| > 0 && TraverseTree(chain[0].0, chain[0].1, op) != Unknown ==>
              r == TraverseTree(chain[0].0, chain[0].1, op)
    decreases |chain|
  {
    if |chain| == 0 then Unknown
    else
      var rc := TraverseTree(chain[0].0, chain[0].1, op);
      if rc != Unknown then rc else ClimbChain(chain[1..], op)
  }

  /** Looks for a handler of `op` starting at the window at `path`: that
      window's subtree first, then wider and wider around it. A window that
      is not visible on screen handles nothing. */
  function WindowDispatchFunction<D>(root: Window<D>, path: seq<nat>, op: int): (r: Retval)
    requires ValidPath(root, path)
    ensures !VisibleAlong(root, path) ==> r == Unknown
    ensures VisibleAlong(root, path) && Own(At(root, path), op) != Unknown ==> r == Own(At(root, path), op)
  {
    if !VisibleAlong(root, path) then Unknown
    else
      VisibleAtEnd(root, path);
      ClimbChain(Chain(root, path), op)
  }

  lemma {:induction false} VisibleAtEnd<D>(root: Window<D>, path: seq<nat>)
    requires ValidPath(root, path) && VisibleAlong(root, path)
    ensures At(root, path).visible
    decreases |path|
  {
    if |path| > 0 {
      VisibleAtEnd(root.children[path[0]], path[1..]);
    }
  }

  /** Reference order of the climb: the search orders of the chain, one
      after the other. */
  function SearchOrder<D>(chain: seq<(Window<D>, Option<nat>)>): seq<Window<D>>
  {
    if |chain| == 0 then [] else Visits(chain[0].0, chain[0].1) + SearchOrder(chain[1..])
  }

  lemma {:induction false} ClimbChainInOrder<D>(chain: seq<(Window<D>, Option<nat>)>, op: int)
    ensures ClimbChain(chain, op) == FirstHandled(SearchOrder(chain), op)
    decreases |chain|
  {
    if |chain| > 0 {
      TraverseTreeInOrder(chain[0].0, chain[0].1, op);
      ClimbChainInOrder(chain[1..], op);
      FirstHandledAppend(Visits(chain[0].0, chain[0].1), SearchOrder(chain[1..]), op);
    }
  }

  /** For a visible window, dispatching answers what the first window of the
      climb's reference order that handles `op` answers. */
  lemma WindowDispatchInOrder<D>(root: Window<D>, path: seq<nat>, op: int)
    requires ValidPath(root, path) && VisibleAlong(root, path)
    ensures WindowDispatchFunction(root, path, op) == FirstHandled(SearchOrder(Chain(root, path)), op)
  {
    ClimbChainInOrder(Chain(root, path), op);
  }

  // Global functions

  datatype GlobalHandler = ShowVersion | ShowWhatKey

  const GlobalFunctions: seq<(int, GlobalHandler)> :=
    [(Op.Version, ShowVersion), (Op.WhatKey, ShowWhatKey)]

  /** Both global functions only display something and report success. */
  function RunGlobal(h: GlobalHandler): Retval
  {
    Success
  }

  /** Runs the global function for `op`; a handled operation always counts
      as a success, whatever the handler answered. */
  function GlobalFunctionDispatcher(op: int): (r: Retval)
    ensures r == Unknown <==> op != Op.Version && op != Op.WhatKey
    ensures r == Unknown || r == Success
  {
    assert GlobalFunctions[0].0 == Op.Version && GlobalFunctions[1].0 == Op.WhatKey;
    match Lookup(GlobalFunctions, op)
    case None => Unknown
    case Some(h) => if RunGlobal(h) == Unknown then Unknown else Success
  }
}

=== FILE: menu.dfy ===
/** The generic menu: its record, the redraw request bits, and the small
    operations on it (creating it, adding dialog rows, reading the
    selection, queueing redraws, freeing it, finding the type of the menu
    that has the focus), plus the contracts its callbacks must keep. */
module Menus {
  import opened Common
  import Gui

  /** Redraw requests, one bit each (an 8-bit field). */
  type RedrawFlags = bv8

  const RedrawNone: RedrawFlags := 0
  const RedrawIndex: RedrawFlags := 1
  const RedrawMotion: RedrawFlags := 2
  const RedrawCurrent: RedrawFlags := 4
  const RedrawFull: RedrawFlags := 8
  const RedrawBody: RedrawFlags := 16
  const RedrawFlow: RedrawFlags := 32

  datatype MenuType =
    | MenuAlias | MenuAttach | MenuCompose | MenuDialog | MenuEditor | MenuFolder
    | MenuGeneric | MenuIndex | MenuPager | MenuPostpone | MenuQuery

  /** Which search and colour callbacks a menu uses. */
  datatype SearchCallback = NoSearch | GenericSearch | CustomSearch
  datatype ColorCallback = NoColor | DefaultColor | CustomColor

  /** The menu record. `dialog` holds the dialog lines (a missing line is a
      hole left by the growing array); `hasTag`, `hasMdata` and
      `hasMdataFree` say whether the tag callback, the private data and its
      destructor are set. */
  datatype Menu = Menu(
    current: int,
    max: int,
    redraw: RedrawFlags,
    mtype: MenuType,
    pageLen: int,
    tagPrefix: bool,
    dialog: seq<Option<string>>,
    prompt: string,
    keys: string,
    top: int,
    numTagged: int,
    search: SearchCallback,
    color: ColorCallback,
    hasTag: bool,
    hasMdata: bool,
    hasMdataFree: bool)

  /** A new menu for a window of `rows` lines: everything zero or empty,
      except that it asks for a full redraw, uses the default colour and the
      generic search, and shows a page as tall as its window. */
  function MenuNew(mtype: MenuType, rows: int): (m: Menu)
    ensures m.mtype == mtype && m.pageLen == rows
    ensures m.redraw == RedrawFull
    ensures m.current == 0 && m.max == 0 && m.top == 0 && m.numTagged == 0
    ensures !m.tagPrefix && m.dialog == [] && m.keys == [] && m.prompt == []
    ensures m.search == GenericSearch && m.color == DefaultColor
    ensures !m.hasTag && !m.hasMdata && !m.hasMdataFree
  {
    Menu(0, 0, RedrawFull, mtype, rows, false, [], [], [], 0, 0,
         GenericSearch, DefaultColor, false, false, false)
  }

  /** Stores a dialog line at position `max` (growing the array with holes
      when it is shorter) and counts it. */
  function AddDialogRow(m: Menu, row: string): (r: Menu)
    requires m.max >= 0
    ensures r.max == m.max + 1
    ensures |r.dialog| == if |m.dialog| > m.max then |m.dialog| else m.max + 1
    ensures r.dialog[m.max] == Some(row)
    ensures forall i :: 0 <= i < |r.dialog| && i != m.max ==>
              r.dialog[i] == if i < |m.dialog| then m.dialog[i] else None
    ensures r == m.(max := r.max, dialog := r.dialog)
  {
    var grown := if |m.dialog| > m.max then m.dialog
                 else m.dialog + seq(m.max + 1 - |m.dialog|, _ => None);
    m.(dialog := grown[m.max := Some(row)], max := m.max + 1)
  }

  /** Adds several dialog lines in order. */
  function AddDialogRows(m: Menu, rows: seq<string>): Menu
    requires m.max >= 0
    decreases |rows|
  {
    if |rows| == 0 then m else AddDialogRows(AddDialogRow(m, rows[0]), rows[1..])
  }

  /** On a menu whose dialog array holds exactly its `max` lines, adding
      lines appends them. */
  lemma {:induction false} AddDialogRowsAppend(m: Menu, rows: seq<string>)
    requires m.max >= 0 && |m.dialog| == m.max
    ensures AddDialogRows(m, rows).max == m.max + |rows|
    ensures AddDialogRows(m, rows).dialog == m.dialog + seq(|rows|, i requires 0 <= i < |rows| => Some(rows[i]))
    decreases |rows|
  {
    if |rows| > 0 {
      var m1 := AddDialogRow(m, rows[0]);
      assert m1.dialog == m.dialog + [Some(rows[0])];
      AddDialogRowsAppend(m1, rows[1..]);
      assert m.dialog + [Some(rows[0])] + seq(|rows| - 1, i requires 0 <= i < |rows| - 1 => Some(rows[1..][i]))
          == m.dialog + seq(|rows|, i requires 0 <= i < |rows| => Some(rows[i]));
    } else {
      assert m.dialog + seq(|rows|, i requires 0 <= i < |rows| => Some(rows[i])) == m.dialog;
    }
  }

  /** The selected line, or -1 without a menu. */
  function GetIndex(m: Option<Menu>): (r: int)
    ensures m.None? ==> r == -1
    ensures m.Some? ==> r == m.value.current
  {
    match m
    case None => -1
    case Some(menu) => menu.current
  }

  /** Selects a line. Scrolling the view to keep the selection visible is not
      part of the model. */
  function SetIndex(m: Menu, index: int): (r: Menu)
    ensures r.current == index && r == m.(current := index)
  {
    m.(current := index)
  }

  /** Adds redraw requests to a menu; without a menu nothing happens. */
  function QueueRedraw(m: Option<Menu>, flags: RedrawFlags): (r: Option<Menu>)
    ensures r.None? <==> m.None?
    ensures m.Some? ==> r.value == m.value.(redraw := r.value.redraw)
    ensures m.Some? ==> r.value.redraw & m.value.redraw == m.value.redraw
    ensures m.Some? ==> r.value.redraw & flags == flags
    ensures m.Some? ==> r.value.redraw & !(m.value.redraw | flags) == 0
  {
    match m
    case None => None
    case Some(menu) => Some(menu.(redraw := menu.redraw | flags))
  }

  /** Queueing the same requests twice is the same as queueing them once. */
  lemma QueueRedrawIdempotent(m: Option<Menu>, flags: RedrawFlags)
    ensures QueueRedraw(QueueRedraw(m, flags), flags) == QueueRedraw(m, flags)
  {
  }

  /** Freeing a menu runs the private-data destructor only when both the
      destructor and the data are set, which is what the destructor's
      contract (menu, slot and data all present) asks of its callers. */
  function MenuFree(m: Menu): (runsMdataFree: bool)
    ensures runsMdataFree ==> MdataFreeContract(true, true, m.hasMdata)
    ensures runsMdataFree <==> m.hasMdataFree && m.hasMdata
  {
    m.hasMdataFree && m.hasMdata
  }

  /** What the private-data destructor demands: the menu, the slot holding
      the data, and the data are all present. */
  predicate MdataFreeContract(menuPresent: bool, slotPresent: bool, dataPresent: bool)
  {
    menuPresent && slotPresent && dataPresent
  }

  // Callback contracts

  /** What a tag callback reports: the net change in tagged items. */
  function Bit(b: bool): int { if b then 1 else 0 }

  predicate NetChange(before: bool, after: bool, delta: int)
  {
    delta == Bit(after) - Bit(before)
  }

  /** A tag action carried out as asked: 0 untags, a positive action tags and
      a negative one toggles. */
  predicate Honours(before: bool, act: int, after: bool)
  {
    (act == 0 ==> !after) && (act > 0 ==> after) && (act < 0 ==> after == !before)
  }

  /** The search callback's result convention: 0 for a match, a positive
      error code (no match) otherwise. */
  const RegNoMatch: int := 1

  function SearchLine(text: string, rx: string -> bool): (r: int)
    ensures r == 0 <==> rx(text)
    ensures r >= 0
  {
    if rx(text) then 0 else RegNoMatch
  }

  /** The generic search: matches the rendered line against the pattern. */
  function GenericSearchLine(render: int -> string, rx: string -> bool, line: int): (r: int)
    ensures r == 0 <==> rx(render(line))
    ensures r >= 0
  {
    SearchLine(render(line), rx)
  }

  // The type of the focused menu

  /** Follows the focus from a window down to the window that has it, and
      reports that window with the type of its parent. */
  function FollowFocus(w: Gui.Window<Menu>, parentType: Gui.WindowType): (r: (Gui.Window<Menu>, Gui.WindowType))
    ensures r.0.focus.None? || r.0.focus.value >= |r.0.children|
    ensures r.0 == w ==> r.1 == parentType
    decreases w
  {
    match w.focus
    case Some(i) =>
      if i < |w.children| then FollowFocus(w.children[i], w.wtype) else (w, parentType)
    case None => (w, parentType)
  }

  /** The type of the menu the user is working in, found by following the
      focus from the current dialog (whose parent is the container of all
      dialogs). */
  function GetCurrentType(dialog: Option<Gui.Window<Menu>>): (t: MenuType)
    ensures dialog.None? ==> t == MenuIndex
    ensures dialog.Some? ==>
              var (w, parentType) := FollowFocus(dialog.value, Gui.AllDialogsWindow);
              if w.wtype == Gui.CustomWindow && parentType == Gui.PagerWindow then t == MenuPager
              else if w.wtype != Gui.MenuWindow || w.wdata.None? then t == MenuGeneric
              else t == w.wdata.value.mtype
  {
    match dialog
    case None => MenuIndex
    case Some(d) =>
      var (w, parentType) := FollowFocus(d, Gui.AllDialogsWindow);
      if w.wtype == Gui.CustomWindow && parentType == Gui.PagerWindow then MenuPager
      else if w.wtype != Gui.MenuWindow then MenuGeneric
      else match w.wdata
        case None => MenuGeneric
        case Some(menu) => menu.mtype
  }

  /** A dialog whose focus leads to a menu window holding menu `m` reports the
      type of `m`, whatever the rest of the dialog holds. */
  lemma {:induction false} CurrentTypeOfFocusedMenu(d: Gui.Window<Menu>, i: nat, m: Menu)
    requires d.focus == Some(i) && i < |d.children|
    requires d.children[i].wtype == Gui.MenuWindow && d.children[i].wdata == Some(m)
    requires d.children[i].focus.None?
    ensures GetCurrentType(Some(d)) == m.mtype
  {
    assert FollowFocus(d.children[i], d.wtype) == (d.children[i], d.wtype);
  }
}

=== FILE: menu_functions.dfy ===
/** The menu's own functions: movement, jumping to a numbered line, and the
    special handling of dialogs (prompt keys are caught before the
    operations, and line movement becomes scrolling). */
module MenuFunctions {
  import opened Common
  import Op = Opcodes
  import opened Menus

  /** A key press: the character typed (negative for an abort) and the
      operation bound to it. */
  datatype KeyEvent = KeyEvent(ch: int, op: int)

  /** Position of the first `c` in `s`, where a NUL `c` is found at the
      terminator, one past the end (strchr; `s` holds no NUL). */
  function FindChar(s: string, c: int): (r: Option<nat>)
    ensures c == 0 ==> r == Some(|s|)
    ensures c != 0 && r.Some? ==> r.value < |s| && s[r.value] as int == c &&
                                   forall q :: 0 <= q < r.value ==> s[q] as int != c
    ensures c != 0 && r.None? ==> forall q :: 0 <= q < |s| ==> s[q] as int != c
    decreases |s|
  {
    if c == 0 then Some(|s|)
    else if |s| == 0 then None
    else if s[0] as int == c then Some(0)
    else match FindChar(s[1..], c)
      case None => None
      case Some(p) => Some(p + 1)
  }

  /** The outcome of reading a key in a dialog: `rc` is 0 when the key was
      meant for the dialog (then `op` is the code it produced) and -1 when it
      was not (then `op` is left as it was). */
  datatype DoKey = DoKey(rc: int, op: int)

  /** The character a key code stands for when looked up among the prompt
      keys (its low byte). */
  function KeyByte(ch: int): int
  {
    ch % 256
  }

  /** Reads a key for a dialog: an abort yields code -1; a key listed among
      the prompt keys yields the first code after the operation table plus
      its 1-based position; anything else is not for the dialog. Waiting out
      timeouts and pushing an unwanted key back are not part of the model. */
  function DialogDoKey(m: Menu, ev: KeyEvent, op: int): (r: DoKey)
    ensures ev.ch < 0 ==> r == DoKey(0, -1)
    ensures ev.ch >= 0 && r.rc == 0 ==>
              exists p :: 0 <= p <= |m.keys| && FindChar(m.keys, KeyByte(ev.ch)) == Some(p) && r.op == Op.Max + p + 1
    ensures ev.ch >= 0 && r.rc != 0 ==> r == DoKey(-1, op)
    ensures ev.ch > 0 && KeyByte(ev.ch) != 0 ==>
              (r.rc == 0 <==> exists q :: 0 <= q < |m.keys| && m.keys[q] as int == KeyByte(ev.ch))
    ensures ev.ch == 0 ==> r == DoKey(-1, op)
  {
    if ev.ch < 0 then DoKey(0, -1)
    else if ev.ch != 0 then
      match FindChar(m.keys, KeyByte(ev.ch))
      case Some(p) => DoKey(0, Op.Max + p + 1)
      case None => DoKey(-1, op)
    else DoKey(-1, op)
  }

  /** In a dialog, moving between entries becomes moving between lines. */
  function DialogTranslateOp(i: int): (r: int)
    ensures r != i ==> r in {Op.NextLine, Op.PrevLine, Op.TopPage, Op.BottomPage, Op.MiddlePage}
    ensures r != i <==> i in {Op.NextEntry, Op.PrevEntry, Op.CurrentTop, Op.FirstEntry,
                              Op.CurrentBottom, Op.LastEntry, Op.CurrentMiddle}
  {
    if i == Op.NextEntry then Op.NextLine
    else if i == Op.PrevEntry then Op.PrevLine
    else if i == Op.CurrentTop || i == Op.FirstEntry then Op.TopPage
    else if i == Op.CurrentBottom || i == Op.LastEntry then Op.BottomPage
    else if i == Op.CurrentMiddle then Op.MiddlePage
    else i
  }

  /** Translating twice is translating once. */
  lemma DialogTranslateIdempotent(i: int)
    ensures DialogTranslateOp(DialogTranslateOp(i)) == DialogTranslateOp(i)
  {
  }

  datatype JumpMessage = NoMessage | NoEntries | InvalidIndex

  /** Asks for a line number (1-based) and selects that line. `answer` is
      the text typed, or None when the prompt was cancelled. */
  function MenuJump(m: Menu, answer: Option<string>): (r: (Menu, JumpMessage))
    ensures m.max == 0 ==> r == (m, NoEntries)
    ensures r.0 == m || (r.0 == m.(current := r.0.current) && 0 <= r.0.current < m.max)
    ensures r.0 != m ==> answer.Some? && ParseInt(answer.value) == Some(r.0.current + 1)
    ensures m.max != 0 && answer.Some? && answer.value != [] && r.1 == NoMessage ==>
              (match ParseInt(answer.value) case Some(n) => 0 < n <= m.max case None => false)
    ensures m.max != 0 && answer.Some? && ParseInt(answer.value).Some? && 0 < ParseInt(answer.value).value <= m.max ==>
              r == (m.(current := ParseInt(answer.value).value - 1), NoMessage)
  {
    if m.max == 0 then (m, NoEntries)
    else match answer
      case None => (m, NoMessage)
      case Some(text) =>
        if text == [] then (m, NoMessage)
        else match ParseInt(text)
          case Some(n) =>
            if 0 < n < m.max + 1 then (SetIndex(m, n - 1), NoMessage) else (m, InvalidIndex)
          case None => (m, InvalidIndex)
  }

  /** Typing the 1-based number of an existing line selects that line. */
  lemma JumpToLineNumber(m: Menu, k: int)
    requires 0 <= k < m.max <= IntMax
    ensures MenuJump(m, Some(IntToString(k + 1))).0.current == k
  {
    IntToStringRoundTrip(k + 1);
  }

  /** Any way of writing line number k+1 that the conversion reads (white
      space, a sign or leading zeros in front) selects line k. */
  lemma JumpToWrittenNumber(m: Menu, text: string, k: int)
    requires 0 <= k < m.max <= IntMax && WritesNumber(text, k + 1)
    ensures MenuJump(m, Some(text)) == (m.(current := k), NoMessage)
  {
    ParseIntReadsWritten(text, k + 1);
  }

  /** The operations that move through a menu (what they do to the view is
      not part of the model). */
  const MovementOps: set<int> := {
    Op.BottomPage, Op.CurrentBottom, Op.CurrentMiddle, Op.CurrentTop, Op.FirstEntry,
    Op.HalfDown, Op.HalfUp, Op.LastEntry, Op.MiddlePage, Op.NextEntry, Op.NextLine,
    Op.NextPage, Op.PrevEntry, Op.PrevLine, Op.PrevPage, Op.TopPage }

  function MenuMovement(m: Menu, op: int): (r: Retval)
    ensures r == Success <==> op in MovementOps
    ensures r == Success || r == Unknown
  {
    if op in MovementOps then Success else Unknown
  }

  /** Jumping works in ordinary menus only; it always reports success. */
  function OpJump(m: Menu, answer: Option<string>): (r: (Menu, Retval))
    ensures r.1 == Success
    ensures m.dialog != [] ==> r.0 == m
    ensures m.dialog == [] ==> r.0 == MenuJump(m, answer).0
  {
    if m.dialog == [] then (MenuJump(m, answer).0, Success) else (m, Success)
  }

  datatype MenuHandler = Move | JumpTo

  const MenuFunctionTable: seq<(int, MenuHandler)> := [
    (Op.BottomPage, Move), (Op.CurrentBottom, Move), (Op.CurrentMiddle, Move),
    (Op.CurrentTop, Move), (Op.FirstEntry, Move), (Op.HalfDown, Move),
    (Op.HalfUp, Move), (Op.Jump, JumpTo), (Op.LastEntry, Move),
    (Op.MiddlePage, Move), (Op.NextEntry, Move), (Op.NextLine, Move),
    (Op.NextPage, Move), (Op.PrevEntry, Move), (Op.PrevLine, Move),
    (Op.PrevPage, Move), (Op.TopPage, Move)]

  /** What the menu dispatcher hands back: a return code, or the code of a
      dialog key. */
  datatype MenuAnswer = Ret(rc: Retval) | Key(code: int)

  /** Runs a menu function. `menu` is the menu of the window (None when there
      is no window or it holds no menu), `ev` the key a dialog reads and
      `answer` the reply to the jump prompt. */
  function MenuFunctionDispatcher(menu: Option<Menu>, op: int, ev: KeyEvent, answer: Option<string>)
    : (r: (Option<Menu>, MenuAnswer))
    ensures menu.None? ==> r == (None, Ret(Unknown))
    ensures menu.Some? && menu.value.dialog != [] && DialogDoKey(menu.value, ev, op).rc == 0 ==>
              r == (menu, Key(DialogDoKey(menu.value, ev, op).op))
    ensures menu.Some? && r.1.Ret? ==>
              var op2 := if menu.value.dialog != [] then DialogTranslateOp(op) else op;
              (r.1.rc == Unknown <==> !IsMenuFunction(op2)) &&
              (r.1.rc == Unknown || r.1.rc == Success) &&
              (op2 != Op.Jump ==> r.0 == menu)
  {
    match menu
    case None => (None, Ret(Unknown))
    case Some(m) =>
      if m.dialog != [] && DialogDoKey(m, ev, op).rc == 0 then (menu, Key(DialogDoKey(m, ev, op).op))
      else
        var op2 := if m.dialog != [] then DialogTranslateOp(op) else op;
        MenuTableCovers();
        match Lookup(MenuFunctionTable, op2)
        case None => (menu, Ret(Unknown))
        case Some(h) =>
          if h == JumpTo then
            var (m2, rc) := OpJump(m, answer);
            (Some(m2), Ret(rc))
          else (menu, Ret(MenuMovement(m, op2)))
  }

  /** The operations the menu dispatcher has a handler for. */
  predicate IsMenuFunction(op: int)
  {
    op in MovementOps || op == Op.Jump
  }

  /** The table holds each movement operation with the movement handler and
      the jump operation with the jump handler, and nothing else. */
  lemma MenuTableCovers()
    ensures forall i :: 0 <= i < |MenuFunctionTable| ==>
              (MenuFunctionTable[i].1 == JumpTo <==> MenuFunctionTable[i].0 == Op.Jump) &&
              IsMenuFunction(MenuFunctionTable[i].0)
    ensures forall o :: IsMenuFunction(o) ==>
              exists i :: 0 <= i < |MenuFunctionTable| && MenuFunctionTable[i].0 == o
  {
    forall o | IsMenuFunction(o)
      ensures exists i :: 0 <= i < |MenuFunctionTable| && MenuFunctionTable[i].0 == o
    {
      if o == Op.BottomPage { assert MenuFunctionTable[0].0 == o; }
      else if o == Op.CurrentBottom { assert MenuFunctionTable[1].0 == o; }
      else if o == Op.CurrentMiddle { assert MenuFunctionTable[2].0 == o; }
      else if o == Op.CurrentTop { assert MenuFunctionTable[3].0 == o; }
      else if o == Op.FirstEntry { assert MenuFunctionTable[4].0 == o; }
      else if o == Op.HalfDown { assert MenuFunctionTable[5].0 == o; }
      else if o == Op.HalfUp { assert MenuFunctionTable[6].0 == o; }
      else if o == Op.Jump { assert MenuFunctionTable[7].0 == o; }
      else if o == Op.LastEntry { assert MenuFunctionTable[8].0 == o; }
      else if o == Op.MiddlePage { assert MenuFunctionTable[9].0 == o; }
      else if o == Op.NextEntry { assert MenuFunctionTable[10].0 == o; }
      else if o == Op.NextLine { assert MenuFunctionTable[11].0 == o; }
      else if o == Op.NextPage { assert MenuFunctionTable[12].0 == o; }
      else if o == Op.PrevEntry { assert MenuFunctionTable[13].0 == o; }
      else if o == Op.PrevLine { assert MenuFunctionTable[14].0 == o; }
      else if o == Op.PrevPage { assert MenuFunctionTable[15].0 == o; }
      else { assert MenuFunctionTable[16].0 == o; }
    }
  }

  /** In a dialog, a key that is not a prompt key and asks to move between
      entries is handled as the matching move between lines. */
  lemma DialogMovesByLines(m: Menu, ev: KeyEvent, answer: Option<string>)
    requires m.dialog != [] && DialogDoKey(m, ev, Op.NextEntry).rc != 0
    ensures MenuFunctionDispatcher(Some(m), Op.NextEntry, ev, answer) == (Some(m), Ret(Success))
    ensures MenuFunctionDispatcher(Some(m.(dialog := [])), Op.NextLine, ev, answer) == (Some(m.(dialog := [])), Ret(Success))
  {
  }
}

=== FILE: opcodes.dfy ===
/** The operation codes the modelled dispatchers react to. The numbering is
    this model's own (the generated opcode table is not part of the model);
    what matters is that the codes are distinct, positive, and below `Max`,
    the first code after the table, from which dialog key codes are built. */
module Opcodes {

  const Null: int := 0

  // Menu movement and jumping
  const BottomPage: int := 1
  const CurrentBottom: int := 2
  const CurrentMiddle: int := 3
  const CurrentTop: int := 4
  const FirstEntry: int := 5
  const HalfDown: int := 6
  const HalfUp: int := 7
  const Jump: int := 8
  const LastEntry: int := 9
  const MiddlePage: int := 10
  const NextEntry: int := 11
  const NextLine: int := 12
  const NextPage: int := 13
  const PrevEntry: int := 14
  const PrevLine: int := 15
  const PrevPage: int := 16
  const TopPage: int := 17

  // Tagging
  const EndCond: int := 18
  const Tag: int := 19
  const TagPrefix: int := 20
  const TagPrefixCond: int := 21

  // Global functions
  const Version: int := 22
  const WhatKey: int := 23

  // File browser
  const GotoFolder: int := 24
  const BrowserNewFile: int := 25
  const BrowserSubscribe: int := 26
  const BrowserTell: int := 27
  const BrowserToggleLsub: int := 28
  const BrowserUnsubscribe: int := 29
  const BrowserViewFile: int := 30
  const Catchup: int := 31
  const ChangeDirectory: int := 32
  const CheckNew: int := 33
  const CreateMailbox: int := 34
  const DeleteMailbox: int := 35
  const DescendDirectory: int := 36
  const EnterMask: int := 37
  const Exit: int := 38
  const GenericSelectEntry: int := 39
  const GotoParent: int := 40
  const LoadActive: int := 41
  const MailboxList: int := 42
  const RenameMailbox: int := 43
  const Sort: int := 44
  const SortReverse: int := 45
  const SubscribePattern: int := 46
  const ToggleMailboxes: int := 47
  const Uncatchup: int := 48
  const UnsubscribePattern: int := 49

  // Attachment menu
  const AttachmentCollapse: int := 50
  const AttachmentDelete: int := 51
  const AttachmentEditType: int := 52
  const AttachmentPipe: int := 53
  const AttachmentPrint: int := 54
  const AttachmentSave: int := 55
  const AttachmentUndelete: int := 56
  const AttachmentView: int := 57
  const AttachmentViewMailcap: int := 58
  const AttachmentViewPager: int := 59
  const AttachmentViewText: int := 60
  const Bounce: int := 61
  const CheckTraditional: int := 62
  const ComposeToSender: int := 63
  const DisplayHeaders: int := 64
  const ExtractKeys: int := 65
  const Followup: int := 66
  const ForgetPassphrase: int := 67
  const ForwardMessage: int := 68
  const ForwardToGroup: int := 69
  const GroupChatReply: int := 70
  const GroupReply: int := 71
  const ListReply: int := 72
  const ListSubscribe: int := 73
  const ListUnsubscribe: int := 74
  const Reply: int := 75
  const Resend: int := 76

  /** The first code after the table. */
  const Max: int := 77
}

=== FILE: posix.dfy ===
/** The slice of the operating system the browser and completion look at:
    file modes as the `stat` family reports them, and a snapshot of a file
    system (what `stat`, `lstat` and reading a directory would return). */
module Posix {

  /** A file mode word (`st_mode`); the bit values are the usual POSIX ones. */
  type Mode = bv32

  const TypeMask: Mode := 0xF000
  const TypeDir: Mode := 0x4000
  const TypeBlock: Mode := 0x6000
  const TypeRegular: Mode := 0x8000
  const TypeLink: Mode := 0xA000
  const SetUid: Mode := 0x800
  const SetGid: Mode := 0x400
  const Sticky: Mode := 0x200
  const UserRead: Mode := 0x100
  const UserWrite: Mode := 0x80
  const UserExec: Mode := 0x40
  const GroupRead: Mode := 0x20
  const GroupWrite: Mode := 0x10
  const GroupExec: Mode := 0x8
  const OtherRead: Mode := 0x4
  const OtherWrite: Mode := 0x2
  const OtherExec: Mode := 0x1

  predicate IsDir(m: Mode) { m & TypeMask == TypeDir }
  predicate IsLink(m: Mode) { m & TypeMask == TypeLink }
  predicate IsRegular(m: Mode) { m & TypeMask == TypeRegular }
  predicate HasBit(m: Mode, bit: Mode) { m & bit != 0 }

  /** The fields of `struct stat` the model keeps. */
  datatype Stat = Stat(mode: Mode, size: int, mtime: int, uid: int, gid: int, nlink: int)

  datatype Errno = NoEntry | OtherError

  datatype StatResult = Found(st: Stat) | Failed(errno: Errno)

  /** A file system snapshot:
      - `stat` maps the paths whose `stat` succeeds (links followed);
      - `denied` are the paths whose `stat` fails with an error other than
        "no such file or directory" (every other path fails with that one);
      - `lstat` maps the paths whose `lstat` succeeds;
      - `dirs` maps the directories that can be opened to the names that
        reading them yields, in order. */
  datatype FileSystem = FileSystem(
    stat: map<string, Stat>,
    denied: set<string>,
    lstat: map<string, Stat>,
    dirs: map<string, seq<string>>)

  function StatOf(fs: FileSystem, path: string): (r: StatResult)
    ensures r.Found? <==> path in fs.stat
    ensures r.Failed? && r.errno == OtherError <==> path !in fs.stat && path in fs.denied
  {
    if path in fs.stat then Found(fs.stat[path])
    else if path in fs.denied then Failed(OtherError)
    else Failed(NoEntry)
  }
}

=== FILE: tagging.dfy ===
/** Tagging in a menu: tagging the current entry, untagging everything in
    tag-prefix mode, and switching the tag prefix on and off, including the
    rule that $auto_tag turns the prefix on whenever something is tagged. */
module Tagging {
  import opened Common
  import Op = Opcodes
  import opened Menus

  /** A menu entry as the tag callback sees it: whether it is tagged and
      whether it accepts tags at all (the file browser refuses
      directories). */
  datatype Row = Row(tagged: bool, taggable: bool)

  /** The tag callback: carries out `act` on entry `sel` unless the entry
      refuses tags, and reports the net change in tagged entries. */
  function TagRow(rows: seq<Row>, sel: int, act: int): (r: (seq<Row>, int))
    requires 0 <= sel < |rows|
    ensures |r.0| == |rows|
    ensures forall i :: 0 <= i < |rows| && i != sel ==> r.0[i] == rows[i]
    ensures r.0[sel].taggable == rows[sel].taggable
    ensures NetChange(rows[sel].tagged, r.0[sel].tagged, r.1)
    ensures rows[sel].taggable ==> Honours(rows[sel].tagged, act, r.0[sel].tagged)
    ensures !rows[sel].taggable ==> r == (rows, 0)
  {
    if !rows[sel].taggable then (rows, 0)
    else
      var after := if act >= 0 then act != 0 else !rows[sel].tagged;
      (rows[sel := rows[sel].(tagged := after)], Bit(after) - Bit(rows[sel].tagged))
  }

  /** Number of tagged entries among the first `n`. */
  function CountTagged(rows: seq<Row>, n: nat): nat
    requires n <= |rows|
  {
    if n == 0 then 0 else CountTagged(rows, n - 1) + Bit(rows[n - 1].tagged)
  }

  lemma {:induction false} CountTaggedSamePrefix(a: seq<Row>, b: seq<Row>, n: nat)
    requires n <= |a| && n <= |b|
    requires forall i :: 0 <= i < n ==> a[i].tagged == b[i].tagged
    ensures CountTagged(a, n) == CountTagged(b, n)
  {
    if n > 0 {
      CountTaggedSamePrefix(a, b, n - 1);
    }
  }

  /** Changing one entry changes the count by that entry's net change. */
  lemma {:induction false} CountTaggedOneChange(a: seq<Row>, b: seq<Row>, n: nat, k: nat)
    requires n <= |a| && n <= |b| && k < n
    requires forall i :: 0 <= i < n && i != k ==> a[i].tagged == b[i].tagged
    ensures CountTagged(b, n) - CountTagged(a, n) == Bit(b[k].tagged) - Bit(a[k].tagged)
  {
    if n - 1 == k {
      CountTaggedSamePrefix(a, b, n - 1);
    } else {
      CountTaggedOneChange(a, b, n - 1, k);
    }
  }

  /** Turns the tag prefix on when $auto_tag is set and something is
      tagged. */
  function SetPrefix(m: Menu, autoTag: bool): (r: Menu)
    ensures r == m.(tagPrefix := r.tagPrefix)
    ensures r.tagPrefix <==> m.tagPrefix || (m.numTagged != 0 && autoTag)
  {
    if m.numTagged != 0 && autoTag then m.(tagPrefix := true) else m
  }

  /** Asks the tag callback to untag each of the first `max` entries and adds
      up the changes it reports. */
  method UntagAll(rows: seq<Row>, max: int) returns (out: seq<Row>, delta: int)
    requires 0 <= max <= |rows|
    ensures |out| == |rows|
    ensures forall i :: 0 <= i < max ==> out[i] == rows[i].(tagged := rows[i].tagged && !rows[i].taggable)
    ensures forall i :: max <= i < |rows| ==> out[i] == rows[i]
    ensures delta == CountTagged(out, max) - CountTagged(rows, max)
  {
    out := rows;
    delta := 0;
    var i := 0;
    while i < max
      invariant 0 <= i <= max
      invariant |out| == |rows|
      invariant forall j :: 0 <= j < i ==> out[j] == rows[j].(tagged := rows[j].tagged && !rows[j].taggable)
      invariant forall j :: i <= j < |rows| ==> out[j] == rows[j]
      invariant delta == CountTagged(out, i) - CountTagged(rows, i)
    {
      var (next, d) := TagRow(out, i, 0);
      CountTaggedSamePrefix(out, next, i);
      out, delta, i := next, delta + d, i + 1;
    }
  }

  /** What the tag operations need from the menu: its entries are there and
      the cursor is on one of them. */
  predicate Covers(m: Menu, rows: seq<Row>)
  {
    0 <= m.max <= |rows| && (m.max > 0 ==> 0 <= m.current < m.max)
  }

  /** Tags the current entry, or in tag-prefix mode (without $auto_tag)
      untags every entry; with $resolve a successful toggle moves to the
      next entry. */
  method OpTag(m: Menu, rows: seq<Row>, autoTag: bool, resolve: bool) returns (r: Menu, out: seq<Row>, rc: Retval)
    requires m.hasTag && m.dialog == [] ==> Covers(m, rows)
    ensures |out| == |rows|
    ensures !m.hasTag || m.dialog != [] ==>
              rc == Error && out == rows && r == SetPrefix(m, autoTag)
    ensures m.hasTag && m.dialog == [] && m.tagPrefix && !autoTag ==>
              rc == Success && !r.tagPrefix && r.redraw & RedrawIndex != 0 &&
              (forall i :: 0 <= i < m.max ==> !out[i].tagged || !rows[i].taggable) &&
              r.numTagged == m.numTagged + CountTagged(out, m.max) - CountTagged(rows, m.max)
    ensures m.hasTag && m.dialog == [] && !(m.tagPrefix && !autoTag) && m.max != 0 ==>
              rc == Success && !r.tagPrefix &&
              out == TagRow(rows, m.current, -1).0 &&
              r.numTagged == m.numTagged + TagRow(rows, m.current, -1).1 &&
              (if TagRow(rows, m.current, -1).1 != 0 && resolve && m.current < m.max - 1
               then r.current == m.current + 1
               else r.current == m.current && r.redraw & RedrawCurrent != 0)
    ensures m.hasTag && m.dialog == [] && !(m.tagPrefix && !autoTag) && m.max == 0 ==>
              rc == Error && out == rows && !r.tagPrefix && r.numTagged == m.numTagged
    ensures Covers(m, rows) && m.numTagged == CountTagged(rows, m.max) ==> r.numTagged == CountTagged(out, m.max)
  {
    var p := SetPrefix(m, autoTag);
    if !p.hasTag || p.dialog != [] {
      return p, rows, Error;
    }
    if p.tagPrefix && !autoTag {
      var delta;
      out, delta := UntagAll(rows, p.max);
      r := p.(numTagged := p.numTagged + delta, redraw := p.redraw | RedrawIndex, tagPrefix := false);
      assert r.redraw & RedrawIndex != 0 by { OrSets(p.redraw, RedrawIndex); }
      return r, out, Success;
    }
    if p.max == 0 {
      return p.(tagPrefix := false), rows, Error;
    }
    var (next, num) := TagRow(rows, p.current, -1);
    CountTaggedOneChange(rows, next, p.max, p.current);
    if num != 0 && resolve && p.current < p.max - 1 {
      r := SetIndex(p.(numTagged := p.numTagged + num), p.current + 1).(tagPrefix := false);
    } else {
      r := p.(numTagged := p.numTagged + num, redraw := p.redraw | RedrawCurrent, tagPrefix := false);
      assert r.redraw & RedrawCurrent != 0 by { OrSets(p.redraw, RedrawCurrent); }
    }
    return r, next, Success;
  }

  /** Or-ing in a single flag sets it. */
  lemma OrSets(x: RedrawFlags, f: RedrawFlags)
    requires f == RedrawIndex || f == RedrawCurrent
    ensures (x | f) & f != 0
  {
  }

  /** Switches the tag prefix: off when it is on (unless $auto_tag turns it
      straight back on), on when something is tagged. */
  function OpTagPrefix(m: Menu, autoTag: bool): (r: Menu)
    ensures r == m.(tagPrefix := r.tagPrefix)
    ensures r.tagPrefix <==> if m.tagPrefix then m.numTagged != 0 && autoTag else m.numTagged != 0
  {
    if m.tagPrefix then SetPrefix(m.(tagPrefix := false), autoTag)
    else if m.numTagged == 0 then m
    else SetPrefix(m.(tagPrefix := true), autoTag)
  }

  /** Without $auto_tag, pressing the tag prefix twice changes nothing. */
  lemma OpTagPrefixTwice(m: Menu)
    requires m.numTagged != 0
    ensures OpTagPrefix(OpTagPrefix(m, false), false) == m
  {
  }

  /** The conditional tag prefix: like the tag prefix, except that with
      nothing tagged the rest of the macro is skipped (which the model does
      not represent). */
  function OpTagPrefixCond(m: Menu, autoTag: bool): (r: Menu)
    ensures r == m.(tagPrefix := r.tagPrefix)
  {
    var m1 := if m.tagPrefix then m.(tagPrefix := false)
              else if m.numTagged == 0 then m
              else m.(tagPrefix := true);
    SetPrefix(m1, autoTag)
  }

  /** Both prefix operations leave the menu in the same state. */
  lemma {:induction false} PrefixCondAgrees(m: Menu, autoTag: bool)
    ensures OpTagPrefixCond(m, autoTag) == OpTagPrefix(m, autoTag)
  {
    if !m.tagPrefix && m.numTagged == 0 {
      assert SetPrefix(m, autoTag) == m;
    }
  }

  /** The tag operations, the end of a conditional, an abort (-1), a timeout
      (-2) and everything else, which ends tag-prefix mode. */
  method MenuTaggingDispatcher(m: Menu, rows: seq<Row>, op: int, autoTag: bool, resolve: bool)
    returns (r: Menu, out: seq<Row>, rc: Retval)
    requires op == Op.Tag && m.hasTag && m.dialog == [] ==> Covers(m, rows)
    ensures op != Op.Tag ==> rc == Success && out == rows && r == m.(tagPrefix := r.tagPrefix)
    ensures op != Op.Tag && op != Op.TagPrefix && op != Op.TagPrefixCond && op != -2 ==>
              (r.tagPrefix <==> m.numTagged != 0 && autoTag)
    ensures op == -2 ==> r == SetPrefix(m, autoTag)
    ensures op == Op.TagPrefix || op == Op.TagPrefixCond ==> r == OpTagPrefix(m, autoTag)
    ensures op == Op.Tag ==> rc == Success || rc == Error
  {
    if op == Op.EndCond {
      r, out, rc := SetPrefix(m.(tagPrefix := false), autoTag), rows, Success;
    } else if op == Op.Tag {
      r, out, rc := OpTag(m, rows, autoTag, resolve);
    } else if op == Op.TagPrefix {
      r, out, rc := OpTagPrefix(m, autoTag), rows, Success;
    } else if op == Op.TagPrefixCond {
      PrefixCondAgrees(m, autoTag);
      r, out, rc := OpTagPrefixCond(m, autoTag), rows, Success;
    } else if op == -1 {
      r, out, rc := SetPrefix(m.(tagPrefix := false), autoTag), rows, Success;
    } else if op == -2 {
      r, out, rc := SetPrefix(m, autoTag), rows, Success;
    } else {
      r, out, rc := SetPrefix(m.(tagPrefix := false), autoTag), rows, Success;
    }
  }
}
